=== FILE: README.md ===
# Hub delivery back end — a verified model

This project models the core of the Python back end (`packages/api-python`) of a
last-mile delivery platform. Hub managers use it to ingest delivery orders (one
at a time or from CSV files), plan them into vehicle routes, dispatch drivers
and record proof of delivery. Drivers and customers use it for marketplace
orders. Every HTTP handler of the core is written as a pure function from

    (store, request, now, fresh random values) -> Result<(reply, store'), Error>

and the properties the handlers promise are proved about those functions.

How the handlers are modelled:

- **The table store** (`tables.dfy`, module `Tables`) is one record with one map
  per table. The tables are hubs, delivery orders, routes, route stops, vehicles,
  drivers, import batches, merchants, marketplace orders and users. Append-only
  logs are sequences: OTP tokens, delivery attempts, order status history and
  driver earnings. Row ids come from one counter, `nextId`. `Valid` says every
  key and every stored reference is below that counter.
- **The caller** is a `Caller(id, role)` that authentication has already checked.
  Role guards written inside a handler are modelled. The `require_role`
  dependency at the route boundary is not.
- **Errors** are `BadRequest`, `Forbidden` and `NotFound` with the source's
  detail strings. Every modelled handler raises its errors before its first
  write, so an error always leaves the store unchanged.
- **Time and randomness** are parameters: `now` as an integer clock, and the
  hex digits of `uuid4` and the digit draws behind the OTP code as inputs of the
  right shape. `date.today()` is a `Date` parameter.
- **Number parsing** (Python `int()`/`float()` on CSV cells, and the database's
  date cast) is a record of partial functions, `Parsers`, passed in.
- **Row order**: rows that the store returns "by `created_at`" are listed in id
  order, because ids are handed out in creation order.

Modules, one per source component:

| file | module | models |
|---|---|---|
| `wrappers.dfy` | `Wrappers` | `Option`, `Result` |
| `text.dfy` | `Text` | lower/upper case, strip, split/join, zero padding, lexicographic order |
| `sorting.dfy` | `Sorting` | stable insertion sort (Python's `list.sort` with a key) |
| `delivery_models.dfy` | `DeliveryModels` | `models/delivery_order.py` |
| `hub_models.dfy` | `HubModels` | `models/hub.py` |
| `market_models.dfy` | `MarketModels` | marketplace order statuses and rows |
| `tables.dfy` | `Tables` | the store, id listing, driver lookup by user |
| `route_planner.dfy` | `RoutePlanner` | the first-fit packing inside `auto_plan_routes` |
| `hub_routes.dfy` | `HubRoutes` | create, assign, dispatch, delete and auto-plan routes |
| `hub_orders.dfy` | `HubOrders` | order numbers, hub order cancel, CSV upload |
| `hub_delivery.dfy` | `HubDelivery` | OTP send/verify, phone masking, attempts, stop updates |
| `merchants.dfy` | `Merchants` | `generate_slug`, `create_merchant` |
| `market_orders.dfy` | `MarketOrders` | `orders.py`: status table, cancel guard, coupon |
| `deliveries.dfy` | `Deliveries` | `deliveries.py`: driver profile, accept, lists, earnings |
| `hub_analytics.dfy` | `HubAnalytics` | dashboard, daily report, overview |
| `hubs.dfy` | `Hubs` | `hubs.py`: create, list, get, update, stats |
| `config.dfy` | `Config` | `cors_origins_list`, `is_production` |

## Model

| member | source | states |
|---|---|---|
| Text.Split | packages/api-python/app/core/config.py:47 | `str.split(",")` yields one piece more than there are separators, no piece contains the separator, and joining the pieces gives back the input |
| Text.SplitJoin | packages/api-python/app/core/config.py:47 | splitting a join of separator-free pieces gives back exactly those pieces |
| Text.Strip | packages/api-python/app/core/config.py:47 | `str.strip()` leaves no whitespace at either end and never lengthens the string |
| Text.StripPiece | packages/api-python/app/core/config.py:47 | `str.strip()` returns a contiguous piece of the input with only whitespace cut before and after it |
| Text.StripUnique | packages/api-python/app/core/config.py:47 | any contiguous piece with only whitespace around it and no whitespace at its ends (or empty, for an all-whitespace input) is exactly what `str.strip()` returns |
| Text.NatToString | packages/api-python/app/routers/hub_routes.py:349 | a number prints as at least one decimal digit, with no leading zero from 10 up, and the digits read back in base 10 give the number |
| Text.PadLeft | packages/api-python/app/routers/hub_routes.py:349 | zero padding reaches the requested width, ends with the original text, and everything before it is the fill character |
| Text.LexLeTrans | packages/api-python/app/routers/hub_routes.py:323 | string order is transitive |
| Text.LexLeTotal | packages/api-python/app/routers/hub_routes.py:323 | any two strings are comparable |
| Text.LexLeAntisym | packages/api-python/app/routers/hub_analytics.py:114 | strings that are ordered both ways are equal |
| Sorting.InsertionSort | packages/api-python/app/routers/hub_routes.py:323 | sorting by a total preorder gives a sorted permutation of the input |
| Sorting.InsertionSortStable | packages/api-python/app/routers/hub_routes.py:323 | the sort is stable, as Python's `list.sort` is: the elements tying with any given element appear in the output in their input order |
| Tables.Ascending | packages/api-python/app/routers/hub_routes.py:283-291 | listing a set of row ids gives each id exactly once, in increasing (creation) order |
| Tables.Descending | packages/api-python/app/routers/hubs.py:59 | the `created_at desc` listing gives each id once, newest first |
| Tables.DriverOf | packages/api-python/app/routers/deliveries.py:148-151 | `.single()` on drivers by user finds a driver exactly when one profile belongs to that user, and returns that profile |
| DeliveryModels.ParseOrderStatus | packages/api-python/app/models/delivery_order.py:11-18 | a status name parses exactly when it is one of the seven hub order statuses, and parses to that status |
| DeliveryModels.OrderCreateWithDefaults | packages/api-python/app/models/delivery_order.py:33-72 | an order request carries its required fields, with source manual, one package, not COD, COD amount 0 and priority normal |
| DeliveryModels.NewDeliveryOrder | packages/api-python/app/models/delivery_order.py:135-149 | a stored order starts pending, with no route, no driver and none of the five lifecycle timestamps |
| DeliveryModels.NewImportBatch | packages/api-python/app/models/delivery_order.py:166-179 | an import batch starts at 0 records, 0 processed, 0 failed, status processing, no error log |
| DeliveryModels.ParseFailureReason | packages/api-python/app/models/delivery_order.py:189-194 | a failure reason parses exactly when it is one of the five reasons |
| DeliveryModels.AttemptRequestWithDefaults | packages/api-python/app/models/delivery_order.py:197-209 | an attempt request defaults to no COD collected, no stop and no failure reason |
| DeliveryModels.OtpSendRequestWithDefaults | packages/api-python/app/models/delivery_order.py:243-245 | an OTP send request defaults its type to delivery |
| DeliveryModels.OtpVerifyRequestWithDefaults | packages/api-python/app/models/delivery_order.py:248-251 | an OTP verify request carries its code and defaults its type to delivery |
| HubModels.ParseRouteStatus | packages/api-python/app/models/hub.py:122-127 | a route status parses exactly when it is one of the five route statuses |
| HubModels.ParseVehicleStatus | packages/api-python/app/models/hub.py:76-80 | a vehicle status parses exactly when it is one of the four vehicle statuses |
| HubModels.NewVehicle | packages/api-python/app/models/hub.py:83-111 | a vehicle has an optional capacity and starts available, active and without a driver |
| HubModels.NewRoute | packages/api-python/app/models/hub.py:152-167 | a new route is planned, carries the given name, vehicle, driver and stop count, and has no start time |
| HubModels.NewStop | packages/api-python/app/models/hub.py:185-193 | a stop carries its route, order and sequence, starts pending and has no arrival or departure |
| HubModels.RouteCreateWithDefaults | packages/api-python/app/models/hub.py:130-136 | a route request defaults to no orders, no name, no vehicle and no driver |
| RoutePlanner.CandidateIds | packages/api-python/app/routers/hub_routes.py:283-291 | the planner's candidates are exactly the pending, unrouted orders of the hub scheduled for the date, each once |
| RoutePlanner.VehicleIds | packages/api-python/app/routers/hub_routes.py:297-306 | the vehicles used are exactly the active vehicles of the hub that are either named in the request or (when none are named) available |
| RoutePlanner.SortCandidates | packages/api-python/app/routers/hub_routes.py:323 | candidates are a permutation sorted by (postal code or "", city or "") |
| RoutePlanner.SortCandidatesStable | packages/api-python/app/routers/hub_routes.py:323 | candidates with equal (postal code, city) keys keep their query order |
| RoutePlanner.FillVehicle | packages/api-python/app/routers/hub_routes.py:329-343 | one vehicle's scan splits the remaining list into taken and deferred orders, each keeping its relative order, with at most 30 taken and their weight within capacity |
| RoutePlanner.FillIsMaximal | packages/api-python/app/routers/hub_routes.py:337 | every deferred order would overflow the capacity on top of the vehicle's final load, or the route ended with 30 orders |
| RoutePlanner.FillSteps | packages/api-python/app/routers/hub_routes.py:335-341 | the scan is a left-to-right pass: each order in turn is taken exactly when it fits on the weight of the orders taken before it and fewer than 30 are taken, and is deferred otherwise |
| RoutePlanner.FillFromMerge | packages/api-python/app/routers/hub_routes.py:335-341 | every scanned order lands in exactly one of the taken and deferred lists, each in scan order |
| RoutePlanner.FillSkipsHeavyOrder | packages/api-python/app/routers/hub_routes.py:335-341 | a heavy order is deferred while a lighter order after it is still taken (first fit over the whole list) |
| RoutePlanner.PlanRoutes | packages/api-python/app/routers/hub_routes.py:325-346 | every planned route is within its vehicle's capacity and the 30-stop limit, comes from one of the vehicles, and there are no more routes than vehicles |
| RoutePlanner.PlanRoutesConserves | packages/api-python/app/routers/hub_routes.py:375-381 | planned orders plus leftover orders are exactly the candidate pool |
| RoutePlanner.PlanRoutesLeftoverInOrder | packages/api-python/app/routers/hub_routes.py:341-343 | the leftover orders keep their sorted order |
| RoutePlanner.PlanPlacesEachOrderOnce | packages/api-python/app/routers/hub_routes.py:325-343 | each candidate ends up in exactly one route or in the leftover pool |
| RoutePlanner.PlanIdsDisjoint | packages/api-python/app/routers/hub_routes.py:364-373 | no order id appears on two planned routes |
| RoutePlanner.PlanVehiclesAscend | packages/api-python/app/routers/hub_routes.py:325 | planned routes follow the order of the vehicle list |
| RoutePlanner.PlanVehiclesFrom | packages/api-python/app/routers/hub_routes.py:329 | each route's capacity is its vehicle's `capacity_kg`, or 999999 when that is missing or 0 |
| HubRoutes.CreateRoute | packages/api-python/app/routers/hub_routes.py:26-69 | a manual route is inserted under a fresh id with the request's vehicle, driver and stop count; each listed order joins it, as assigned with `assigned_at` when a driver is given and as pending otherwise |
| HubRoutes.CreateRouteStops | packages/api-python/app/routers/hub_routes.py:56-61 | the route's stops are numbered 1..n in the order of `order_ids` and are the only new stops |
| HubRoutes.CreateRouteName | packages/api-python/app/routers/hub_routes.py:34-37 | the route is named by the request, or by `{code}-R{4 upper hex}-{YYYYMMDD}` with code "HUB" for an unknown hub |
| HubRoutes.CreateRouteFrame | packages/api-python/app/routers/hub_routes.py:39-69 | creating a route touches only routes, stops and orders, and keeps the store valid |
| HubRoutes.AssignRoute | packages/api-python/app/routers/hub_routes.py:213-235 | a missing route is not found; otherwise the route gets the driver, the vehicle and status assigned, its orders become assigned to the driver at `now`, and the vehicle goes on route with that driver |
| HubRoutes.AssignRouteFrame | packages/api-python/app/routers/hub_routes.py:213-235 | assigning changes no other order, vehicle or table |
| HubRoutes.DispatchRoute | packages/api-python/app/routers/hub_routes.py:248-269 | a missing route is not found and a route without driver or vehicle is rejected, both with no change; otherwise the route is in progress from `now`, its orders are out for delivery and its driver is on delivery |
| HubRoutes.DispatchRouteFrame | packages/api-python/app/routers/hub_routes.py:255-269 | dispatching changes no other order, driver or table |
| HubRoutes.AssignEnablesDispatch | packages/api-python/app/routers/hub_routes.py:213-253 | a route that was just assigned can always be dispatched |
| HubRoutes.DeleteRoute | packages/api-python/app/routers/hub_routes.py:184-199 | orders on the route go back to pending with no route, driver or `assigned_at`; the route's stops and the route are removed; everything else is kept |
| HubRoutes.DeleteRouteFrame | packages/api-python/app/routers/hub_routes.py:184-199 | deleting a route touches only routes, stops and orders, and keeps the store valid |
| HubRoutes.CreateThenDeleteTables | packages/api-python/app/routers/hub_routes.py:26-69 | deleting a freshly created route restores the route and stop tables |
| HubRoutes.CreateThenDeleteOrders | packages/api-python/app/routers/hub_routes.py:184-193 | after creating and deleting a route, its orders are pending and unrouted, and other orders are unchanged |
| HubRoutes.AutoPlan | packages/api-python/app/routers/hub_routes.py:283-309 | with no candidates the plan is (0, 0, 0) with no change; with candidates but no usable vehicle it fails with "No available vehicles at this hub"; otherwise it succeeds |
| HubRoutes.AutoPlanCounts | packages/api-python/app/routers/hub_routes.py:375-381 | orders assigned plus unassigned equal the number of candidates, and no more routes are created than there are vehicles |
| HubRoutes.PlanShape | packages/api-python/app/routers/hub_routes.py:329-346 | every planned route belongs to a usable vehicle of the hub and respects that vehicle's effective capacity and the 30-stop limit |
| HubRoutes.PlanOrder | packages/api-python/app/routers/hub_routes.py:329-346 | the planned routes follow ascending vehicle id order, so no vehicle gets two routes |
| HubRoutes.PlanEligible | packages/api-python/app/routers/hub_routes.py:282-346 | every routed order is the current row of an eligible order |
| HubRoutes.AutoPlanRoutes | packages/api-python/app/routers/hub_routes.py:349-361 | one fresh route id per non-empty vehicle fill, in increasing order |
| HubRoutes.AutoPlanRouteRows | packages/api-python/app/routers/hub_routes.py:349-359 | the k-th new route is planned, bound to its vehicle, named `{code}-R{k}-{YYYYMMDD}`, with its stop count and total weight; old routes are kept |
| HubRoutes.AutoPlanOrders | packages/api-python/app/routers/hub_routes.py:361-373 | there is one new route id per planned route, and every order of the `i`-th planned route is a stored order whose row now points at the `i`-th new route, with nothing else about it changed |
| HubRoutes.AutoPlanOrdersFrame | packages/api-python/app/routers/hub_routes.py:318-373 | auto-plan keeps the orders table's key set, and an order no route took stays exactly as it was |
| HubRoutes.AutoPlanStops | packages/api-python/app/routers/hub_routes.py:364-369 | old stops are kept and every new stop belongs to a new route |
| HubRoutes.AutoPlanStopRows | packages/api-python/app/routers/hub_routes.py:364-369 | each planned order has a stop on its route numbered by its place in the fill |
| HubRoutes.AutoPlanFrame | packages/api-python/app/routers/hub_routes.py:345-376 | auto-plan touches only routes, stops and orders (vehicles are not set on route) and keeps the store valid |
| HubOrders.OrderNumber | packages/api-python/app/routers/hub_orders.py:45 | an order number is "DH-" followed by 8 upper-case hex characters |
| HubOrders.OrderNumberKeepsDraw | packages/api-python/app/routers/hub_orders.py:45 | the order number is the upper-cased draw, so the draw can be read back from it |
| HubOrders.CreateOrder | packages/api-python/app/routers/hub_orders.py:43-50 | a manual order is inserted under a fresh id as a new pending order with a well-formed number; other orders are kept |
| HubOrders.CancelOrder | packages/api-python/app/routers/hub_orders.py:231-240 | a missing order is not found; a delivered or cancelled order is rejected with its status in the message; otherwise only that order's status becomes cancelled |
| HubOrders.CancelTwice | packages/api-python/app/routers/hub_orders.py:235-236 | cancelling twice fails the second time with "Cannot cancel order with status: cancelled" |
| HubOrders.LookupLast | packages/api-python/app/routers/hub_orders.py:313-315 | a header lookup misses exactly when no cell has that header, and otherwise returns the last cell under it (what a dict built from the row keeps) |
| HubOrders.FindInFirst | packages/api-python/app/routers/hub_orders.py:310-316 | `find_field` returns the value under the first alias, in alias-list order, that the row has, and nothing when it has none |
| HubOrders.FirstFailureFirst | packages/api-python/app/routers/hub_orders.py:347-358 | the optional columns are coerced in order and the first that fails is the row's error |
| HubOrders.ProcessRow | packages/api-python/app/routers/hub_orders.py:321-361 | a row fails on its first missing required field, in the order name, phone, address, product, and then on the first optional column that does not parse, then on a given `scheduled_date` the store cannot cast (`RejectedByStore`); a row passing all of these checks is accepted, and an accepted row becomes a pending csv order of the hub and batch with a well-formed number and stripped values |
| HubOrders.RowAccepted | packages/api-python/app/routers/hub_orders.py:321-344 | an accepted row has all four required fields and every optional column parses |
| HubOrders.RowFailsAtFirstBadColumn | packages/api-python/app/routers/hub_orders.py:347-365 | with the required fields present, a row fails with exactly the error of its first failing optional column |
| HubOrders.RowOptionalValues | packages/api-python/app/routers/hub_orders.py:347-358 | a given optional cell is stored stripped and parsed; a blank or absent one is left out of the insert, so the column keeps the table default, which no source file shows and the model assumes (`TableDefaultPackageCount` 1, no weight, `TableDefaultCodAmount` 0, `TableDefaultPriority` "normal") |
| HubOrders.RowColumnsParse | packages/api-python/app/routers/hub_orders.py:350-356 | an accepted row's package count parses as an integer and its weight and COD amount parse as numbers |
| HubOrders.AcceptedPlusErrors | packages/api-python/app/routers/hub_orders.py:318-365 | every row is either accepted or logged as an error, never both |
| HubOrders.ErrorLogRows | packages/api-python/app/routers/hub_orders.py:363-365 | every error entry names a row of the file, by its number counted from `first`, that failed with exactly that entry's error |
| HubOrders.ErrorLogAscend | packages/api-python/app/routers/hub_orders.py:363-365 | the error entries are in strictly ascending row order, so no row is logged twice |
| HubOrders.ErrorLogCovers | packages/api-python/app/routers/hub_orders.py:363-365 | every row that failed has its entry, with its row number and its error, in the log |
| HubOrders.BatchStatusFailed | packages/api-python/app/routers/hub_orders.py:368-372 | the batch is failed exactly when rows failed and none succeeded, and completed otherwise |
| HubOrders.UploadCsv | packages/api-python/app/routers/hub_orders.py:254-255 | a file whose name does not end in ".csv" is rejected with "File must be a CSV" before any batch is created |
| HubOrders.UploadCounts | packages/api-python/app/routers/hub_orders.py:262-383 | processed plus failed equals total records equals the number of data rows; the batch id is new and the stored batch records the same three counts |
| HubOrders.UploadBatchRow | packages/api-python/app/routers/hub_orders.py:260-383 | the new batch belongs to the hub and the uploader, records the file name, source `csv` and `completed_at`; its status is `failed` exactly when some row failed and none was processed, and `completed` otherwise; it has no error log exactly when no row failed; the response lists at most the first 20 logged errors |
| HubOrders.UploadErrorsAscend | packages/api-python/app/routers/hub_orders.py:318-365 | error log entries are in strictly ascending row order, so no row is logged twice |
| HubOrders.UploadErrorsCover | packages/api-python/app/routers/hub_orders.py:318-365 | every row that fails has an entry with its 1-based row number and its own error |
| HubOrders.UploadErrors | packages/api-python/app/routers/hub_orders.py:367-375 | the stored batch holds that error log, or none when no row failed |
| HubOrders.UploadOrders | packages/api-python/app/routers/hub_orders.py:360-361 | accepted rows become new orders under fresh ids in row order, and existing orders are unchanged |
| HubOrders.UploadNewOrders | packages/api-python/app/routers/hub_orders.py:335-344 | every new order is a pending csv order of the hub and batch, and the store stays valid |
| HubDelivery.GenerateOtp | packages/api-python/app/routers/hub_delivery.py:21-22 | the code has one decimal digit per draw, each digit the drawn value |
| HubDelivery.Mask | packages/api-python/app/routers/hub_delivery.py:66 | the mask has the phone's length, keeps its last min(4, length) characters and stars all earlier ones |
| HubDelivery.MaskIdempotent | packages/api-python/app/routers/hub_delivery.py:66 | masking a masked phone changes nothing |
| HubDelivery.MaskHides | packages/api-python/app/routers/hub_delivery.py:66 | two phones have the same mask exactly when they have the same length and the same visible tail |
| HubDelivery.SendOtp | packages/api-python/app/routers/hub_delivery.py:37-68 | an unknown order is not found; otherwise the reply names the masked phone and expiry `now` + 10 minutes, and only the token log changes |
| HubDelivery.SendOtpToken | packages/api-python/app/routers/hub_delivery.py:47-59 | every earlier active token for the pair is marked verified, then one new active token with the generated code and expiry is appended, and it is the latest one |
| HubDelivery.SendKeepsOneActive | packages/api-python/app/routers/hub_delivery.py:47-59 | after a send there is at most one active token per (order, type) |
| HubDelivery.VerifyOtp | packages/api-python/app/routers/hub_delivery.py:79-101 | verify fails with "No active OTP found" exactly when the pair has no active token; a failed check changes nothing |
| HubDelivery.VerifyOtpOutcome | packages/api-python/app/routers/hub_delivery.py:88-101 | the latest active token decides: a wrong code is "Invalid OTP", then `expires_at < now` is "OTP has expired", otherwise that token alone becomes verified and success is returned |
| HubDelivery.VerifyKeepsOneActive | packages/api-python/app/routers/hub_delivery.py:97-101 | verifying keeps at most one active token per pair |
| HubDelivery.VerifyTwice | packages/api-python/app/routers/hub_delivery.py:85-86 | a second verify after a success finds no active token |
| HubDelivery.SendThenVerify | packages/api-python/app/routers/hub_delivery.py:37-101 | right after a send, verify succeeds exactly with the sent code before expiry; a wrong code is invalid and a late one is expired |
| HubDelivery.ReturnOtpIgnoresType | packages/api-python/app/routers/hub_delivery.py:104-121 | the return-OTP endpoints behave the same whatever type the request names |
| HubDelivery.NextAttemptNumber | packages/api-python/app/routers/hub_delivery.py:143-150 | the next attempt number is one more than the order's highest attempt number, or 1 when there is none |
| HubDelivery.RecordAttempt | packages/api-python/app/routers/hub_delivery.py:136-169 | a caller without a driver profile is not found; otherwise one attempt is appended for the caller's driver with the next attempt number |
| HubDelivery.RecordAttemptCascade | packages/api-python/app/routers/hub_delivery.py:171-189 | delivered sets the order delivered with `delivered_at`, failed sets it failed with `failed_at`, any other status leaves it alone; a given stop gets the status and `actual_departure` |
| HubDelivery.AttemptNumbersIncrease | packages/api-python/app/routers/hub_delivery.py:143-150 | a second attempt on the same order gets a larger number |
| HubDelivery.ReturnToHub | packages/api-python/app/routers/hub_delivery.py:202-210 | whatever its status, an existing order becomes returned to hub with `returned_at` = `now`; only a missing order is not found |
| HubDelivery.ArriveAtStop | packages/api-python/app/routers/hub_delivery.py:278-286 | an existing stop becomes arrived with `actual_arrival` = `now`, with no status check |
| HubDelivery.CompleteStop | packages/api-python/app/routers/hub_delivery.py:298-306 | an existing stop takes the given status with `actual_departure` = `now`, with no status check |
| HubDelivery.ReturnTwice | packages/api-python/app/routers/hub_delivery.py:202-208 | returning twice is the same as returning once at the later time |
| HubDelivery.ArriveTwice | packages/api-python/app/routers/hub_delivery.py:278-286 | arriving twice is the same as arriving once at the later time |
| HubDelivery.CompleteTwice | packages/api-python/app/routers/hub_delivery.py:298-306 | completing twice is the same as completing once with the later status and time |
| HubDelivery.CompleteAfterArrive | packages/api-python/app/routers/hub_delivery.py:278-306 | completing a stop keeps the arrival time recorded on arrival |
| Merchants.Slug | packages/api-python/app/routers/merchants.py:21-27 | a slug has only a-z, 0-9 and '-', no "--", and no '-' at either end |
| Merchants.SlugFixed | packages/api-python/app/routers/merchants.py:21-27 | a string already in slug form is its own slug |
| Merchants.SlugIdempotent | packages/api-python/app/routers/merchants.py:21-27 | slug(slug(s)) == slug(s) |
| Merchants.SlugKeepsAlnum | packages/api-python/app/routers/merchants.py:23-27 | the letters and digits of the slug are those of the lower-cased name, in order, and a name with none gives "" |
| Merchants.SlugDropsUnderscore | packages/api-python/app/routers/merchants.py:24-25 | "a_b" becomes "ab" |
| Merchants.IdPrefix | packages/api-python/app/routers/merchants.py:105 | `[:8]` gives the first 8 characters of the user id, or all of a shorter id |
| Merchants.CreateMerchant | packages/api-python/app/routers/merchants.py:99-114 | a new pending merchant of the caller is inserted under a fresh id, with the name's slug when it is free and the slug + "-" + the id prefix otherwise |
| Merchants.FreeSlugIsSlug | packages/api-python/app/routers/merchants.py:100-104 | when the slug is free the stored slug is in slug form and a fixed point of `generate_slug` |
| MarketOrders.RoleTargets | packages/api-python/app/routers/orders.py:225-234 | roles other than merchant and driver have no targets of their own |
| MarketOrders.RoleTargetsShape | packages/api-python/app/routers/orders.py:225-234 | merchant and driver targets are disjoint; pending, driver_assigned, cancelled and refunded are admin-only; only the four listed roles may set anything |
| MarketOrders.StampColumn | packages/api-python/app/routers/orders.py:240-247 | exactly six statuses have a timestamp column |
| MarketOrders.StampColumnInjective | packages/api-python/app/routers/orders.py:240-247 | no two statuses share a timestamp column |
| MarketOrders.UpdateStatus | packages/api-python/app/routers/orders.py:215-260 | a missing order is not found; a role not allowed the target is forbidden; otherwise the status is set, the matching timestamp (if any) is `now`, and one history entry is appended |
| MarketOrders.UpdateIgnoresCurrent | packages/api-python/app/routers/orders.py:221-234 | whether an update is allowed does not depend on the order's current status |
| MarketOrders.CancelOrder | packages/api-python/app/routers/orders.py:280-299 | a missing order is not found; a caller who is neither owner nor admin is forbidden; a non-cancellable status is rejected; otherwise the order is cancelled with `cancelled_at`, reason and canceller |
| MarketOrders.CancellableStatuses | packages/api-python/app/routers/orders.py:289-291 | an order can be cancelled exactly in pending, confirmed, preparing, ready_for_pickup and driver_assigned |
| MarketOrders.CancelTwice | packages/api-python/app/routers/orders.py:289-291 | a cancelled order cannot be cancelled again |
| MarketOrders.PickupBlocksCancel | packages/api-python/app/routers/orders.py:289-291 | once a driver has picked the order up, its customer can no longer cancel it |
| MarketOrders.CancelAgreesWithUpdate | packages/api-python/app/routers/orders.py:249-250 | a cancel sets the same status and `cancelled_at` as an admin status update to cancelled |
| MarketOrders.AdminReopens | packages/api-python/app/routers/orders.py:232-234 | an admin may set a cancelled order back to pending, since the status check ignores the current status |
| MarketOrders.PercentOff | packages/api-python/app/routers/orders.py:145-148 | a percentage discount is pct% of the subtotal, capped by a non-zero `max_discount_amount` |
| MarketOrders.CouponDiscount | packages/api-python/app/routers/orders.py:139-150 | a missing, unknown or inactive coupon gives 0; an active percentage coupon gives the capped percentage; an active fixed coupon gives its value |
| MarketOrders.PercentOffBounds | packages/api-python/app/routers/orders.py:145-148 | for a percentage in 0..100 the discount lies between 0 and the subtotal |
| MarketOrders.PercentOffMonotone | packages/api-python/app/routers/orders.py:145-148 | a larger subtotal never gives a smaller discount |
| Deliveries.CreateDriverProfile | packages/api-python/app/routers/deliveries.py:40-56 | a user who already has a profile is rejected; otherwise a new offline driver is inserted and the user's role becomes driver |
| Deliveries.CreateDriverValid | packages/api-python/app/routers/deliveries.py:51 | creating a profile keeps the store valid |
| Deliveries.CreateThenLookup | packages/api-python/app/routers/deliveries.py:40-43 | after creating a profile the user's driver is found, and a second creation is rejected |
| Deliveries.SetDriverStatus | packages/api-python/app/routers/deliveries.py:105-112 | a user without a profile is not found; otherwise only the user's driver rows take the new status |
| Deliveries.StatusKeepsOwners | packages/api-python/app/routers/deliveries.py:105-107 | changing driver statuses does not change which driver belongs to which user |
| Deliveries.AcceptDelivery | packages/api-python/app/routers/deliveries.py:148-183 | guards in order: driver exists, driver online, order exists, order ready for pickup, order has no driver; on success the order gets the driver and status driver_assigned, the driver goes on delivery, and one history entry is logged |
| Deliveries.AcceptOnce | packages/api-python/app/routers/deliveries.py:153-166 | an accepted order cannot be accepted again by anyone, and the accepting driver, now on delivery, is refused any other order as not online |
| Deliveries.RegisterGoOnlineAccept | packages/api-python/app/routers/deliveries.py:40-166 | a fresh driver cannot accept until they go online, and after going online can accept any open order |
| Deliveries.Available | packages/api-python/app/routers/deliveries.py:126-128 | at most 20 open (ready for pickup, no driver) orders, oldest first, and the oldest ones |
| Deliveries.AcceptLeavesOpen | packages/api-python/app/routers/deliveries.py:169-172 | accepting removes exactly that order from the open orders |
| Deliveries.MyDeliveries | packages/api-python/app/routers/deliveries.py:202-215 | a caller without a profile is not found; otherwise exactly the driver's orders with the given status, or in the four active statuses by default, newest first |
| Deliveries.AcceptShowsInMine | packages/api-python/app/routers/deliveries.py:169-213 | an accepted order shows in the driver's default delivery list |
| Deliveries.EarningsSummary | packages/api-python/app/routers/deliveries.py:235-252 | a caller without a profile is not found; otherwise `total_deliveries` counts the driver's earning rows (each equal row with its multiplicity) and the recent list is their first min(10, count) rows |
| Deliveries.EarningsAppend | packages/api-python/app/routers/deliveries.py:241-245 | a new earning row of the driver adds one delivery, its earnings and its tip; another driver's row changes nothing |
| Deliveries.EarningsTotals | packages/api-python/app/routers/deliveries.py:241-243 | `total_earnings` and `total_tips` are the driver's amounts summed over the whole table with other drivers' rows counting zero; a driver without rows has totals 0 and no deliveries |
| Deliveries.RowsOfSums | packages/api-python/app/routers/deliveries.py:241-243 | summing the driver's selected rows equals summing the whole table with the other drivers' rows as zero |
| HubAnalytics.CountIsCardinality | packages/api-python/app/routers/hub_analytics.py:27-32 | a status count is the number of rows with that status |
| HubAnalytics.StatusCountsPartition | packages/api-python/app/routers/hub_analytics.py:26-32 | the counts of the seven statuses add up to exactly the number of rows |
| HubAnalytics.SuccessRate | packages/api-python/app/routers/hub_analytics.py:34 | the success rate lies in 0..100, is 0 when nothing was attempted, and otherwise is delivered / (delivered + failed) x 100 |
| HubAnalytics.CodCollectedOnlyDeliveredCod | packages/api-python/app/routers/hub_analytics.py:35-39 | COD collected is non-negative for non-negative amounts and is 0 when no order is both delivered and COD |
| Hubs.OnlineAreActiveWorking | packages/api-python/app/routers/hub_analytics.py:50-52 | the dashboard's online drivers are the hub statistics' working drivers (hubs.py, status online or on_delivery) restricted to the active ones |
| HubAnalytics.HubDashboard | packages/api-python/app/routers/hub_analytics.py:18-76 | the dashboard is dated today, counts today's orders of the hub, has status counts within the total, a success rate in 0..100, active + completed routes within the total, and online drivers within the total |
| HubAnalytics.DashboardCounts | packages/api-python/app/routers/hub_analytics.py:21-52 | the rows counted are the hub's orders created today; each of the six status fields is the number of those rows in that status; the rate is computed from delivered and failed; COD is summed over them; the route fields are the sizes of the day's routes, those in progress and those completed; the driver fields are the sizes of the hub's active drivers and of those online |
| HubAnalytics.DayOf | packages/api-python/app/routers/hub_analytics.py:98 | the day key is the first 10 characters of `created_at` |
| HubAnalytics.GroupIsSummary | packages/api-python/app/routers/hub_analytics.py:96-107 | the bucket for a day exists exactly when some order fell on that day, and holds that day's total, delivered, failed and COD sums |
| HubAnalytics.GroupShape | packages/api-python/app/routers/hub_analytics.py:96-101 | there is one bucket per distinct day and bucket totals add up to the number of orders |
| HubAnalytics.ReportOrder | packages/api-python/app/routers/hub_analytics.py:114 | report entries are strictly ascending by date string |
| HubAnalytics.ReportEntries | packages/api-python/app/routers/hub_analytics.py:102-112 | each entry is its day's summary, with delivered + failed <= total and a success rate in 0..100 |
| HubAnalytics.ReportCovers | packages/api-python/app/routers/hub_analytics.py:96-114 | every order's day has an entry and entry totals add up to the number of orders |
| HubAnalytics.DailyReportRows | packages/api-python/app/routers/hub_analytics.py:89-93 | the report reads exactly the hub's orders whose `created_at` text lies between the start day's 00:00:00 and the end day's 23:59:59 (text comparison; the one-second edge is admitted) |
| HubAnalytics.OverviewLines | packages/api-python/app/routers/hub_analytics.py:123-152 | the overview is dated today and has exactly one line per active hub, in ascending id order |
| HubAnalytics.OverviewRates | packages/api-python/app/routers/hub_analytics.py:129-152 | each overview line carries its hub's name and code, the number of the hub's rows created today, those delivered and failed, the rate computed from them (between 0 and 100), and its count of online drivers |
| HubAnalytics.OverviewTotals | packages/api-python/app/routers/hub_analytics.py:154-160 | the overview totals are the sums of the per-hub figures, and total orders is the number of today's orders at active hubs |
| HubAnalytics.OverviewBounded | packages/api-python/app/routers/hub_analytics.py:158-160 | total delivered + total failed <= total orders |
| HubAnalytics.SumOverHubs | packages/api-python/app/routers/hub_analytics.py:158 | summing per-hub order counts over distinct hubs counts the orders at those hubs |
| Hubs.CreateHub | packages/api-python/app/routers/hubs.py:17-36 | a code already in use is rejected with "Hub code already exists"; otherwise an active hub is inserted under a fresh id and nothing else changes |
| Hubs.CreateKeepsCodesUnique | packages/api-python/app/routers/hubs.py:26-31 | creating hubs keeps hub codes unique |
| Hubs.ListHubs | packages/api-python/app/routers/hubs.py:46-60 | roles other than hub_manager and admin are forbidden; a hub_manager sees exactly the hubs it manages, an admin all hubs, filtered by `is_active` when given, newest first |
| Hubs.GetHub | packages/api-python/app/routers/hubs.py:72-84 | a missing hub is not found; a hub_manager of another hub is denied; roles outside hub_manager, admin and driver are forbidden; otherwise the hub is returned |
| Hubs.GetAgreesWithList | packages/api-python/app/routers/hubs.py:48-82 | a hub_manager can read exactly the hubs in their own list |
| Hubs.Apply | packages/api-python/app/routers/hubs.py:104-108 | an update changes exactly the fields it sets and never the code |
| Hubs.ApplyIdempotent | packages/api-python/app/routers/hubs.py:104-108 | applying the same update twice is applying it once |
| Hubs.UpdateHub | packages/api-python/app/routers/hubs.py:98-112 | a hub_manager who does not manage the hub is denied before an empty update is rejected with "No fields to update", then a missing hub is not found; otherwise the hub is patched in place |
| Hubs.UpdateKeepsCodes | packages/api-python/app/routers/hubs.py:98-112 | updating a hub keeps hub codes unique |
| Hubs.CompletionRate | packages/api-python/app/routers/hubs.py:150-153 | the completion rate lies in 0..100, is 0 when there are no orders, and otherwise is delivered / total x 100 |
| Hubs.GetHubStats | packages/api-python/app/routers/hubs.py:122-156 | stats count today's orders of the hub, with pending + out for delivery + delivered + failed <= total, the completion rate of delivered over total, the hub's online drivers and its assigned or in-progress routes of today |
| Hubs.StatsCountStatus | packages/api-python/app/routers/hubs.py:129-135 | each counter is the number of today's orders with that status |
| Config.CorsOriginsList | packages/api-python/app/core/config.py:45-47 | the origin list has one entry more than there are commas, and no entry has a comma or surrounding whitespace |
| Config.CorsOriginsInOrder | packages/api-python/app/core/config.py:47 | the entries are the stripped comma-separated pieces, in input order |
| Config.CorsOriginsRoundTrip | packages/api-python/app/core/config.py:47 | with no whitespace in the setting, joining the list with commas gives the setting back |
| Config.DefaultCorsOrigins | packages/api-python/app/core/config.py:30 | the default setting yields the three localhost origins :3000, :3001, :3002 |

## Left out

- Supabase I/O, query building and pagination (`.range`, `.limit` other than the 20 available deliveries) are replaced by maps and predicates. Writes are one atomic step; crashes between writes and concurrent requests are not modelled.
- Insert failures (the "Failed to create ..." replies: 500, or 400 for merchants) are not modelled: inserts always succeed.
- `.single()` that finds no row or several rows raises in the client, and the global exception handler turns that into a 500 reply; the model reads both as "no data", as the code's `if not result.data` checks evidently intend. So the model's 404 or 403 for a missing hub, order, route or driver profile (`Hubs.GetHub`, `Hubs.UpdateHub`, `HubOrders.CancelOrder`, `HubDelivery.SendOtp`, `HubDelivery.RecordAttempt`, `HubRoutes.DispatchRoute`, `MarketOrders.UpdateStatus`, `MarketOrders.CancelOrder`, `Deliveries.SetDriverStatus`, `Deliveries.AcceptDelivery`, `Deliveries.EarningsSummary`), the discount 0 for an unknown coupon code (`MarketOrders.CouponDiscount`) and the "HUB" fallback name for an unknown hub (`HubRoutes.CreateRouteName`) are what those checks intend; the running client answers 500 instead.
- `uuid4`, `random.choices`, `datetime.utcnow()` and `date.today()` are parameters; only their shape (hex digits, decimal digits) is required.
- `int()`, `float()` and the database's date cast are abstract partial functions; CSV byte decoding and `csv.DictReader` are replaced by rows given as the items of the reader's dict: header/value pairs in which a header repeated verbatim is already merged into one pair (first position, last cell).
- Floating point is modelled as exact `real` arithmetic: `round(x, 2)` and `round(x, 1)` (success and completion rates) are not modelled.
- `create_order` in `orders.py`: only the coupon discount is modelled; the fee, tax and total arithmetic is left out because it is rounding-only float arithmetic.
- Display and list endpoints that only read and join rows are not modelled: `list_routes`, `get_route_detail`, `update_route`, `get_my_route`, `list_orders`, `get_order_detail`, `update_order`, `list_imports`, `get_import_detail`, `track_order`, `get_my_driver_profile`, `update_driver_profile`, `update_driver_location`, `get_available_deliveries`' item join, `list_merchants` and the merchant getters.
- `require_role(...)` at the route boundary is not modelled; the caller's role is taken as already checked (`core/security.py` is not part of this model, nor are `auth.py`, `payments.py`, `fleet.py` or app wiring).
- Hub columns other than name, code, city, manager and `is_active` (address, state, postal code, coordinates, phone) are not modelled; `HubPatch.others` records only whether the update sets any of them.
- Lower-casing is ASCII only (`str.lower()` on other letters is not modelled).
- The other settings fields (port, secrets, rate limits, service keys) are not modelled.
- Hubs.GetHubStats: the handler does not check hub ownership and counts drivers of the hub with an online status whatever their `is_active`; the model does the same.
- Hubs.UpdateHub: `HubUpdate` has no code field, so code uniqueness is not re-checked and the code never changes. A field sent explicitly as `null` counts as set in the source (`exclude_unset` keeps it), so `{"name": null}`, `{"city": null}` or `{"is_active": null}` writes NULL or is rejected by the store; `HubPatch` can express clearing only for the manager, so such updates of name, city and `is_active` are not modelled.
- HubAnalytics.DailyReportRows: the store compares `created_at` with `end_date + "T23:59:59"` as a timestamp, the model compares the texts; a row stamped exactly at 23:59:59 (no fraction) of the end date is included by the store and excluded by the model, whose stored text continues after the seconds.
- HubAnalytics.HubDashboard: the order rows are passed in as a sequence already read from the table, not selected from the store.
- Deliveries.Available: the order items joined into each reply are not modelled; only the ids are returned.
- HubOrders.RowRequest: the CSV upload leaves a blank optional column out of the insert, so the table's column default applies; the table schema is not part of this model, and the defaults are assumed values (`TableDefaultPackageCount`, `TableDefaultCodAmount`, `TableDefaultPriority`, null for the other columns, false for `is_cod`).
- DeliveryModels.Message: the text of an insert the store rejects (`RejectedByStore`) is the database's own error message, which is not modelled; the model's text only names the column. The `int()` and `float()` messages quote the value with Python's `repr`; the model always uses single quotes around the raw value, so a value holding a single quote, a backslash or a control character is logged differently.
- Deliveries.EarningsSummary: the `wallet_balance` field of the reply is a column read back unchanged and is not modelled.
- RoutePlanner.CandidateIds, RoutePlanner.VehicleIds, HubRoutes.PlanOrder, HubAnalytics.ActiveIds, HubAnalytics.OverviewLines, Deliveries.EarningsSummary: the selects they model have no `order` clause, so the store may return rows in any order; the model reads them in ascending id order, and results that depend on that order (route names, which vehicle takes which orders, the order of overview lines and of recent earnings) hold only for that order.
- HubDelivery.VerifyOtp: the expiry check compares `datetime.fromisoformat` of a stored timestamp carrying an offset with the naive `utcnow()`; in Python that comparison raises `TypeError` (a 500 reply) whenever the stored value has an offset. Time is modelled as an integer, so the model always compares and this failure is not modelled.

Where the code and the written description of the system disagree, the model follows the code:

- `assign_route` and `dispatch_route` never check the route's current status.
- `auto_plan_routes` raises 400 "No available vehicles at this hub" when there are candidates but no vehicles, instead of returning zeros.
- `auto_plan_routes` never sets vehicles to `on_route`.
- The planner's scan is first fit over the whole remaining list, so a lighter order after a heavy one is still taken.
- `verify_otp` with no active token is a 400 ("No active OTP found"), not a 404.
- `delete_route` does not check that the route exists; deleting a missing route succeeds and only releases orders that still name it.
- `dispatch_route` without driver or vehicle is a 400.
- The hub `cancel_order` sets no cancellation timestamp.
- `get_hub` checks existence before the role, so a missing hub is refused before the role is looked at, whatever the role (a 404 in the model; the client's `.single()` raises first, a 500).

=== FILE: config.dfy ===
/** The two derived settings of the API's configuration: the list of
    allowed CORS origins cut out of one comma-separated variable, and the
    production switch. */
module Config {
  import opened Text

  /** The settings read by the derived values; the other settings are plain
      values read from the environment. */
  datatype Settings = Settings(nodeEnv: string, corsOrigins: string)

  const LocalOrigin1: string := "http://localhost:3000"
  const LocalOrigin2: string := "http://localhost:3001"
  const LocalOrigin3: string := "http://localhost:3002"

  /** The settings when the environment sets neither variable: the default
      `CORS_ORIGINS` is the three local origins separated by commas. */
  const Defaults: Settings :=
    Settings("development", LocalOrigin1 + "," + LocalOrigin2 + "," + LocalOrigin3)

  /** No leading or trailing whitespace. */
  predicate Stripped(s: string) {
    s == [] || (!IsSpace(s[0]) && !IsSpace(s[|s| - 1]))
  }

  /** Each piece stripped, in order. */
  function StripAll(parts: seq<string>): (r: seq<string>)
    ensures |r| == |parts|
    ensures forall i :: 0 <= i < |parts| ==> r[i] == Strip(parts[i])
  {
    if parts == [] then [] else [Strip(parts[0])] + StripAll(parts[1..])
  }

  /** `cors_origins_list`: one entry per comma-separated piece of
      `CORS_ORIGINS`, stripped of surrounding whitespace. */
  function CorsOriginsList(st: Settings): (r: seq<string>)
    ensures |r| == Count(st.corsOrigins, ',') + 1
    ensures forall i :: 0 <= i < |r| ==> Stripped(r[i]) && ',' !in r[i]
  {
    var parts := Split(st.corsOrigins, ',');
    forall i | 0 <= i < |parts| {
      StripKeepsChars(parts[i]);
    }
    StripAll(parts)
  }

  /** The entries are the pieces between the commas, in the order written:
      origins joined by commas come back as the same origins, stripped. */
  lemma {:induction false} CorsOriginsInOrder(env: string, origins: seq<string>)
    requires |origins| >= 1
    requires forall i :: 0 <= i < |origins| ==> ',' !in origins[i]
    ensures CorsOriginsList(Settings(env, Join(origins, ','))) == StripAll(origins)
  {
    SplitJoin(origins, ',');
  }

  /** Origins written without whitespace join back into the variable. */
  lemma {:induction false} CorsOriginsRoundTrip(st: Settings)
    requires forall i :: 0 <= i < |st.corsOrigins| ==> !IsSpace(st.corsOrigins[i])
    ensures Join(CorsOriginsList(st), ',') == st.corsOrigins
  {
    var parts := Split(st.corsOrigins, ',');
    forall i | 0 <= i < |parts| ensures Strip(parts[i]) == parts[i] {
      forall j | 0 <= j < |parts[i]| ensures !IsSpace(parts[i][j]) {
        JoinHolds(parts, ',', i, j);
      }
      StripClean(parts[i]);
    }
    assert StripAll(parts) == parts;
  }

  /** Every character of a piece occurs in the joined string. */
  lemma {:induction false} JoinHolds(parts: seq<string>, sep: char, i: nat, j: nat)
    requires |parts| >= 1 && i < |parts| && j < |parts[i]|
    ensures parts[i][j] in Join(parts, sep)
  {
    if i > 0 {
      JoinHolds(parts[1..], sep, i - 1, j);
      assert parts[1..][i - 1] == parts[i];
    }
  }

  /** The default origins, in the order they are written. */
  const LocalOrigins: seq<string> := [LocalOrigin1, LocalOrigin2, LocalOrigin3]

  lemma DefaultIsJoin()
    ensures Defaults.corsOrigins == Join(LocalOrigins, ',')
  {
    var tail := [LocalOrigin2, LocalOrigin3];
    assert LocalOrigins[1..] == tail && tail[1..] == [LocalOrigin3];
    assert Join(tail, ',') == LocalOrigin2 + [','] + LocalOrigin3;
  }

  /** Pieces already free of surrounding whitespace are kept as they are. */
  lemma {:induction false} StripAllClean(parts: seq<string>)
    requires forall i :: 0 <= i < |parts| ==> Stripped(parts[i])
    ensures StripAll(parts) == parts
  {
    forall i | 0 <= i < |parts| ensures Strip(parts[i]) == parts[i] {
      StripClean(parts[i]);
    }
    StripAllFixed(parts);
  }

  /** Stripping every piece changes nothing when no piece changes. */
  lemma {:induction false} StripAllFixed(parts: seq<string>)
    requires forall i :: 0 <= i < |parts| ==> Strip(parts[i]) == parts[i]
    ensures StripAll(parts) == parts
  {
    assert forall i :: 0 <= i < |parts| ==> StripAll(parts)[i] == parts[i];
  }

  lemma LocalOriginsClean()
    ensures forall i :: 0 <= i < |LocalOrigins| ==> Stripped(LocalOrigins[i]) && ',' !in LocalOrigins[i]
  {
    assert Stripped(LocalOrigin1) && Stripped(LocalOrigin2) && Stripped(LocalOrigin3);
  }

  /** Left unset, the variable gives the three local front-end origins. */
  lemma DefaultCorsOrigins(st: Settings)
    requires st.corsOrigins == Defaults.corsOrigins
    ensures CorsOriginsList(st) == LocalOrigins
  {
    DefaultIsJoin();
    LocalOriginsClean();
    CorsOriginsInOrder(st.nodeEnv, LocalOrigins);
    assert Settings(st.nodeEnv, Join(LocalOrigins, ',')) == st;
    StripAllClean(LocalOrigins);
  }

  /** `is_production`: exactly the value "production"; any other value,
      the default included, means not production. */
  predicate IsProduction(st: Settings) {
    st.nodeEnv == "production"
  }

  lemma ProductionIsExact(st: Settings)
    ensures IsProduction(st) <==> st.nodeEnv == "production"
    ensures !IsProduction(Defaults)
    ensures !IsProduction(st.(nodeEnv := "Production"))
  {
  }
}

=== FILE: deliveries.dfy ===
/** The marketplace driver router (packages/api-python/app/routers/deliveries.py):
    registering a driver profile, going online, the list of orders waiting
    for a driver, accepting one, the driver's own deliveries and the
    earnings summary. */
module Deliveries {
  import opened Wrappers
  import opened DeliveryModels
  import opened HubModels
  import opened MarketModels
  import opened Tables

  // ---------------------------------------------------------------
  // Driver profile
  // ---------------------------------------------------------------

  /** The store after inserting a driver row for `u` and making `u` a
      driver in `users`. */
  function AddDriver(s: Store, u: UserId): (r: Store)
    ensures r.drivers == s.drivers[s.nextId := Driver(u, None, Offline, true)]
    ensures r.users == if u in s.users then s.users[u := "driver"] else s.users
    ensures r.nextId == s.nextId + 1
    ensures r.(drivers := s.drivers, users := s.users, nextId := s.nextId) == s
  {
    var users := if u in s.users then s.users[u := "driver"] else s.users;
    s.(drivers := s.drivers[s.nextId := Driver(u, None, Offline, true)], users := users, nextId := s.nextId + 1)
  }

  /** `create_driver_profile`: refused when the caller already has a driver
      row; otherwise a new row for the caller (offline, active, no hub) is
      inserted and the caller's user row, if any, gets role `driver`. The
      reply is the new row's id. */
  function CreateDriverProfile(s: Store, caller: Caller): (r: Result<(Id, Store), Error>)
    ensures r.Err? <==> DriverIds(s.drivers, caller.id) != {}
    ensures r.Err? ==> r.error == BadRequest("Driver profile already exists")
    ensures r.Ok? ==> r.value.0 == s.nextId
    ensures r.Ok? ==> r.value.1.drivers == s.drivers[s.nextId := Driver(caller.id, None, Offline, true)]
    ensures r.Ok? ==> r.value.1.users == if caller.id in s.users then s.users[caller.id := "driver"] else s.users
    ensures r.Ok? ==> r.value.1.nextId == s.nextId + 1
    ensures r.Ok? ==> r.value.1.(drivers := s.drivers, users := s.users, nextId := s.nextId) == s
  {
    if DriverIds(s.drivers, caller.id) != {} then Err(BadRequest("Driver profile already exists"))
    else Ok((s.nextId, AddDriver(s, caller.id)))
  }

  /** Registration keeps every row id below the counter. */
  lemma CreateDriverValid(s: Store, caller: Caller)
    requires Valid(s) && CreateDriverProfile(s, caller).Ok?
    ensures Valid(CreateDriverProfile(s, caller).value.1)
  {
  }

  /** After a successful registration the caller has exactly one driver
      row, the new one, so every later `.single()` lookup finds it; a
      second registration is refused. */
  lemma CreateThenLookup(s: Store, caller: Caller)
    requires CreateDriverProfile(s, caller).Ok?
    ensures DriverOf(CreateDriverProfile(s, caller).value.1.drivers, caller.id) == Some(s.nextId)
    ensures CreateDriverProfile(CreateDriverProfile(s, caller).value.1, caller) == Err(BadRequest("Driver profile already exists"))
  {
    var t := CreateDriverProfile(s, caller).value.1;
    assert DriverIds(t.drivers, caller.id) == {s.nextId};
  }

  /** `update_driver_status`: every driver row of the caller gets the new
      status; with none the call is not found. */
  function SetDriverStatus(s: Store, caller: Caller, st: DriverStatus): (r: Result<Store, Error>)
    ensures r.Err? <==> DriverIds(s.drivers, caller.id) == {}
    ensures r.Err? ==> r.error == NotFound("Driver profile not found")
    ensures r.Ok? ==> r.value.drivers.Keys == s.drivers.Keys
    ensures r.Ok? ==> forall k :: k in DriverIds(s.drivers, caller.id) ==> r.value.drivers[k] == s.drivers[k].(status := st)
    ensures r.Ok? ==> forall k :: k in s.drivers && k !in DriverIds(s.drivers, caller.id) ==> r.value.drivers[k] == s.drivers[k]
    ensures r.Ok? ==> r.value.(drivers := s.drivers) == s
  {
    if DriverIds(s.drivers, caller.id) == {} then Err(NotFound("Driver profile not found"))
    else
      Ok(s.(drivers := map k | k in s.drivers :: if s.drivers[k].userId == caller.id then s.drivers[k].(status := st) else s.drivers[k]))
  }

  /** Changing drivers' statuses never changes whose rows they are. */
  lemma StatusKeepsOwners(a: map<Id, Driver>, b: map<Id, Driver>, u: UserId)
    requires a.Keys == b.Keys
    requires forall k :: k in a ==> b[k].userId == a[k].userId
    ensures DriverIds(b, u) == DriverIds(a, u)
    ensures DriverOf(b, u) == DriverOf(a, u)
  {
    assert DriverIds(b, u) == DriverIds(a, u);
  }

  // ---------------------------------------------------------------
  // Accepting an order
  // ---------------------------------------------------------------

  /** An order a driver may take: ready for pickup and without a driver. */
  predicate Open(o: MarketOrder) {
    o.status == ReadyForPickup && o.driverId.None?
  }

  /** `accept_delivery`, guards in the order the handler checks them: the
      caller's driver row, that driver being online, the order, its status
      and its driver. On success the order gets the driver and status
      `driver_assigned`, the driver goes `on_delivery` and one history
      entry names the driver by the caller's first name. */
  function AcceptDelivery(s: Store, caller: Caller, firstName: string, id: Id): (r: Result<(MarketOrder, Store), Error>)
    ensures DriverOf(s.drivers, caller.id).None? ==> r == Err(NotFound("Driver profile not found"))
    ensures DriverOf(s.drivers, caller.id).Some? && s.drivers[DriverOf(s.drivers, caller.id).value].status != Online ==>
      r == Err(BadRequest("Driver must be online to accept deliveries"))
    ensures DriverOf(s.drivers, caller.id).Some? && s.drivers[DriverOf(s.drivers, caller.id).value].status == Online ==>
      && (id !in s.marketOrders ==> r == Err(NotFound("Order not found")))
      && (id in s.marketOrders && s.marketOrders[id].status != ReadyForPickup ==>
            r == Err(BadRequest("Order is not available for pickup")))
      && (id in s.marketOrders && s.marketOrders[id].status == ReadyForPickup && s.marketOrders[id].driverId.Some? ==>
            r == Err(BadRequest("Order already assigned to another driver")))
    ensures r.Ok? <==> DriverOf(s.drivers, caller.id).Some? && s.drivers[DriverOf(s.drivers, caller.id).value].status == Online
                       && id in s.marketOrders && Open(s.marketOrders[id])
    ensures r.Ok? ==> r.value.0 == s.marketOrders[id].(driverId := DriverOf(s.drivers, caller.id), status := DriverAssigned)
    ensures r.Ok? ==> r.value.1.marketOrders == s.marketOrders[id := r.value.0]
    ensures r.Ok? ==> r.value.1.drivers == s.drivers[DriverOf(s.drivers, caller.id).value := s.drivers[DriverOf(s.drivers, caller.id).value].(status := OnDelivery)]
    ensures r.Ok? ==> r.value.1.history == s.history + [HistoryEntry(id, DriverAssigned, caller.id, Some("Driver " + firstName + " assigned"))]
    ensures r.Ok? ==> r.value.1.(marketOrders := s.marketOrders, drivers := s.drivers, history := s.history) == s
  {
    match DriverOf(s.drivers, caller.id)
    case None => Err(NotFound("Driver profile not found"))
    case Some(d) =>
      if s.drivers[d].status != Online then Err(BadRequest("Driver must be online to accept deliveries"))
      else if id !in s.marketOrders then Err(NotFound("Order not found"))
      else if s.marketOrders[id].status != ReadyForPickup then Err(BadRequest("Order is not available for pickup"))
      else if s.marketOrders[id].driverId.Some? then Err(BadRequest("Order already assigned to another driver"))
      else
        var o := s.marketOrders[id].(driverId := Some(d), status := DriverAssigned);
        Ok((o, s.(marketOrders := s.marketOrders[id := o],
                  drivers := s.drivers[d := s.drivers[d].(status := OnDelivery)],
                  history := s.history + [HistoryEntry(id, DriverAssigned, caller.id, Some("Driver " + firstName + " assigned"))])))
  }

  /** An accepted order is taken for good: no caller can accept it again,
      and the accepting driver, now on delivery, cannot accept anything. */
  lemma AcceptOnce(s: Store, caller: Caller, firstName: string, id: Id, other: Caller, otherName: string, id2: Id)
    requires AcceptDelivery(s, caller, firstName, id).Ok?
    ensures AcceptDelivery(AcceptDelivery(s, caller, firstName, id).value.1, other, otherName, id).Err?
    ensures AcceptDelivery(AcceptDelivery(s, caller, firstName, id).value.1, caller, otherName, id2)
            == Err(BadRequest("Driver must be online to accept deliveries"))
  {
    var t := AcceptDelivery(s, caller, firstName, id).value.1;
    StatusKeepsOwners(s.drivers, t.drivers, caller.id);
  }

  /** A freshly registered driver starts offline and must go online before
      accepting; once online, an open order can be accepted. */
  lemma RegisterGoOnlineAccept(s: Store, caller: Caller, firstName: string, id: Id)
    requires CreateDriverProfile(s, caller).Ok?
    ensures AcceptDelivery(CreateDriverProfile(s, caller).value.1, caller, firstName, id)
            == Err(BadRequest("Driver must be online to accept deliveries"))
    ensures SetDriverStatus(CreateDriverProfile(s, caller).value.1, caller, Online).Ok?
    ensures id in s.marketOrders && Open(s.marketOrders[id]) ==>
      AcceptDelivery(SetDriverStatus(CreateDriverProfile(s, caller).value.1, caller, Online).value, caller, firstName, id).Ok?
  {
    var t := CreateDriverProfile(s, caller).value.1;
    CreateThenLookup(s, caller);
    var u := SetDriverStatus(t, caller, Online).value;
    StatusKeepsOwners(t.drivers, u.drivers, caller.id);
  }

  // ---------------------------------------------------------------
  // Listings
  // ---------------------------------------------------------------

  /** The longest prefix of `xs` holding at most `n` elements. */
  function Take<T>(xs: seq<T>, n: nat): (r: seq<T>)
    ensures |r| <= n && |r| <= |xs| && r == xs[..|r|]
    ensures |r| == n || r == xs
  {
    if |xs| <= n then xs else xs[..n]
  }

  /** The ids of the orders waiting for a driver. */
  function OpenIds(orders: map<Id, MarketOrder>): set<Id> {
    set k | k in orders && Open(orders[k])
  }

  /** A prefix of a strictly ascending list holds its smallest elements. */
  lemma TakeAscending(all: seq<nat>, n: nat)
    requires forall i, j :: 0 <= i < j < |all| ==> all[i] < all[j]
    ensures forall i, j :: 0 <= i < j < |Take(all, n)| ==> Take(all, n)[i] < Take(all, n)[j]
    ensures forall i, k :: 0 <= i < |Take(all, n)| && k in all && k !in Take(all, n) ==> Take(all, n)[i] < k
  {
    var r := Take(all, n);
    forall i, k | 0 <= i < |r| && k in all && k !in r
      ensures r[i] < k
    {
      var j :| 0 <= j < |all| && all[j] == k;
      assert r[i] == all[i];
    }
  }

  /** `get_available_deliveries`: orders ready for pickup with no driver,
      oldest first (ids are handed out in creation order), at most 20. */
  function Available(s: Store): (r: seq<Id>)
    ensures |r| <= 20
    ensures forall i :: 0 <= i < |r| ==> r[i] in s.marketOrders && Open(s.marketOrders[r[i]])
    ensures forall i, j :: 0 <= i < j < |r| ==> r[i] < r[j]
    ensures |r| == 20 || forall k :: k in OpenIds(s.marketOrders) ==> k in r
    ensures forall i, k :: 0 <= i < |r| && k in OpenIds(s.marketOrders) && k !in r ==> r[i] < k
  {
    var all := Ascending(OpenIds(s.marketOrders));
    var r := Take(all, 20);
    TakeAscending(all, 20);
    forall i | 0 <= i < |r| ensures r[i] in OpenIds(s.marketOrders) {
      assert r[i] == all[i];
    }
    r
  }

  /** Accepting an order removes exactly that order from those waiting
      for a driver. */
  lemma AcceptLeavesOpen(s: Store, caller: Caller, firstName: string, id: Id)
    requires AcceptDelivery(s, caller, firstName, id).Ok?
    ensures OpenIds(AcceptDelivery(s, caller, firstName, id).value.1.marketOrders) == OpenIds(s.marketOrders) - {id}
  {
  }

  /** The statuses `get_my_deliveries` shows when no filter is given. */
  predicate InProgress(st: MarketStatus) {
    st in {DriverAssigned, PickedUp, InTransit, Arrived}
  }

  /** Whether order `o` of driver `d` passes `get_my_deliveries`' filter: a
      non-empty filter must equal the status name, otherwise the status must
      be in progress. */
  predicate Shows(o: MarketOrder, d: Id, filter: Option<string>) {
    && o.driverId == Some(d)
    && if filter.Some? && filter.value != "" then o.status.Name() == filter.value else InProgress(o.status)
  }

  /** The ids of the orders of driver `d` that pass the filter. */
  function ShownIds(orders: map<Id, MarketOrder>, d: Id, filter: Option<string>): set<Id> {
    set k | k in orders && Shows(orders[k], d, filter)
  }

  /** `get_my_deliveries`: the caller's orders passing the filter, newest
      first. */
  function MyDeliveries(s: Store, caller: Caller, filter: Option<string>): (r: Result<seq<Id>, Error>)
    ensures r.Err? <==> DriverOf(s.drivers, caller.id).None?
    ensures r.Err? ==> r.error == NotFound("Driver profile not found")
    ensures r.Ok? ==> forall k :: k in r.value <==>
      k in s.marketOrders && Shows(s.marketOrders[k], DriverOf(s.drivers, caller.id).value, filter)
    ensures r.Ok? ==> forall i, j :: 0 <= i < j < |r.value| ==> r.value[i] > r.value[j]
  {
    match DriverOf(s.drivers, caller.id)
    case None => Err(NotFound("Driver profile not found"))
    case Some(d) =>
      Ok(Descending(ShownIds(s.marketOrders, d, filter)))
  }

  /** An order just accepted is listed among the accepting driver's
      deliveries in progress. */
  lemma AcceptShowsInMine(s: Store, caller: Caller, firstName: string, id: Id)
    requires AcceptDelivery(s, caller, firstName, id).Ok?
    ensures MyDeliveries(AcceptDelivery(s, caller, firstName, id).value.1, caller, None).Ok?
    ensures id in MyDeliveries(AcceptDelivery(s, caller, firstName, id).value.1, caller, None).value
  {
    var t := AcceptDelivery(s, caller, firstName, id).value.1;
    StatusKeepsOwners(s.drivers, t.drivers, caller.id);
  }

  // ---------------------------------------------------------------
  // Earnings
  // ---------------------------------------------------------------

  /** The reply of `get_driver_earnings` (the wallet balance is a column
      read back unchanged and is not modelled). */
  datatype Earnings = Earnings(totalEarnings: real, totalDeliveries: nat, totalTips: real, recent: seq<DriverEarning>)

  /** The rows of `rows` paying driver `d`, in table order. */
  function RowsOf(rows: seq<DriverEarning>, d: Id): (r: seq<DriverEarning>)
    ensures |r| <= |rows|
    ensures forall e :: e in r <==> e in rows && e.driverId == d
    ensures forall e :: multiset(r)[e] == if e.driverId == d then multiset(rows)[e] else 0
  {
    if rows == [] then []
    else
      assert rows == rows[..|rows| - 1] + [rows[|rows| - 1]];
      if rows[|rows| - 1].driverId == d then RowsOf(rows[..|rows| - 1], d) + [rows[|rows| - 1]]
      else RowsOf(rows[..|rows| - 1], d)
  }

  function SumEarned(rows: seq<DriverEarning>): real {
    if rows == [] then 0.0 else SumEarned(rows[..|rows| - 1]) + rows[|rows| - 1].totalEarnings
  }

  function SumTips(rows: seq<DriverEarning>): real {
    if rows == [] then 0.0 else SumTips(rows[..|rows| - 1]) + rows[|rows| - 1].tipAmount
  }

  /** `get_driver_earnings`: over the caller's earning rows, the sums of
      earnings and tips, the row count, and the first ten rows. */
  function EarningsSummary(s: Store, caller: Caller): (r: Result<Earnings, Error>)
    ensures r.Err? <==> DriverOf(s.drivers, caller.id).None?
    ensures r.Err? ==> r.error == NotFound("Driver profile not found")
    ensures r.Ok? ==> r.value.totalDeliveries == |RowsOf(s.earnings, DriverOf(s.drivers, caller.id).value)|
    ensures r.Ok? ==> |r.value.recent| <= 10 && |r.value.recent| <= r.value.totalDeliveries
    ensures r.Ok? ==> r.value.recent == RowsOf(s.earnings, DriverOf(s.drivers, caller.id).value)[..|r.value.recent|]
    ensures r.Ok? ==> |r.value.recent| == 10 || |r.value.recent| == r.value.totalDeliveries
  {
    match DriverOf(s.drivers, caller.id)
    case None => Err(NotFound("Driver profile not found"))
    case Some(d) =>
      var mine := RowsOf(s.earnings, d);
      Ok(Earnings(SumEarned(mine), |mine|, SumTips(mine), Take(mine, 10)))
  }

  /** A new earning row for the caller's driver adds one delivery and its
      amounts to the summary; a row for another driver changes nothing. */
  lemma EarningsAppend(s: Store, caller: Caller, e: DriverEarning)
    requires EarningsSummary(s, caller).Ok?
    ensures EarningsSummary(s.(earnings := s.earnings + [e]), caller).Ok?
    ensures e.driverId == DriverOf(s.drivers, caller.id).value ==>
      && EarningsSummary(s.(earnings := s.earnings + [e]), caller).value.totalDeliveries == EarningsSummary(s, caller).value.totalDeliveries + 1
      && EarningsSummary(s.(earnings := s.earnings + [e]), caller).value.totalEarnings == EarningsSummary(s, caller).value.totalEarnings + e.totalEarnings
      && EarningsSummary(s.(earnings := s.earnings + [e]), caller).value.totalTips == EarningsSummary(s, caller).value.totalTips + e.tipAmount
    ensures e.driverId != DriverOf(s.drivers, caller.id).value ==>
      EarningsSummary(s.(earnings := s.earnings + [e]), caller) == EarningsSummary(s, caller)
  {
    var rows := s.earnings + [e];
    assert rows[..|rows| - 1] == s.earnings;
  }

  /** The earnings and tips of driver `d`, added up over the whole table:
      every row contributes its amount when it is `d`'s and nothing
      otherwise. */
  function EarnedBy(rows: seq<DriverEarning>, d: Id): real {
    if rows == [] then 0.0
    else EarnedBy(rows[..|rows| - 1], d) + (if rows[|rows| - 1].driverId == d then rows[|rows| - 1].totalEarnings else 0.0)
  }

  function TipsBy(rows: seq<DriverEarning>, d: Id): real {
    if rows == [] then 0.0
    else TipsBy(rows[..|rows| - 1], d) + (if rows[|rows| - 1].driverId == d then rows[|rows| - 1].tipAmount else 0.0)
  }

  /** Summing the driver's rows after selecting them is summing the whole
      table with the other drivers' rows counted as zero. */
  lemma {:induction false} RowsOfSums(rows: seq<DriverEarning>, d: Id)
    ensures SumEarned(RowsOf(rows, d)) == EarnedBy(rows, d)
    ensures SumTips(RowsOf(rows, d)) == TipsBy(rows, d)
  {
    if rows != [] {
      var front := rows[..|rows| - 1];
      RowsOfSums(front, d);
      var r := RowsOf(front, d);
      if rows[|rows| - 1].driverId == d {
        var r' := r + [rows[|rows| - 1]];
        assert r'[..|r'| - 1] == r;
      }
    }
  }

  /** The summary's totals are the caller's driver's earnings and tips over
      the whole table; in particular a driver without rows has totals 0. */
  lemma EarningsTotals(s: Store, caller: Caller)
    requires EarningsSummary(s, caller).Ok?
    ensures EarningsSummary(s, caller).value.totalEarnings == EarnedBy(s.earnings, DriverOf(s.drivers, caller.id).value)
    ensures EarningsSummary(s, caller).value.totalTips == TipsBy(s.earnings, DriverOf(s.drivers, caller.id).value)
    ensures (forall e :: e in s.earnings ==> e.driverId != DriverOf(s.drivers, caller.id).value) ==>
      && EarningsSummary(s, caller).value.totalEarnings == 0.0
      && EarningsSummary(s, caller).value.totalTips == 0.0
      && EarningsSummary(s, caller).value.totalDeliveries == 0
  {
    var d := DriverOf(s.drivers, caller.id).value;
    RowsOfSums(s.earnings, d);
  }
}

=== FILE: delivery_models.dfy ===
/** Records and enumerations of the hub delivery-order schema
    (packages/api-python/app/models/delivery_order.py), plus the scalar types
    every table uses. */
module DeliveryModels {
  import opened Wrappers
  import opened Text

  /** Row ids handed out by the store. */
  type Id = nat
  /** Ids of authenticated users; handlers slice them as strings. */
  type UserId = string
  /** A naive UTC `datetime`, in microseconds since the epoch. */
  type Time = int

  const Minute: Time := 60_000_000

  /** A calendar `date`. */
  datatype Date = Date(year: nat, month: nat, day: nat)

  /** `date.strftime('%Y%m%d')`. */
  function DateStamp(d: Date): string {
    PadLeft(NatToString(d.year), 4, '0')
    + PadLeft(NatToString(d.month), 2, '0')
    + PadLeft(NatToString(d.day), 2, '0')
  }

  // ---------------------------------------------------------------
  // Delivery order
  // ---------------------------------------------------------------

  datatype OrderStatus =
    | Pending | Assigned | OutForDelivery | Delivered | Failed | ReturnedToHub | Cancelled
  {
    function Name(): string {
      match this
      case Pending => "pending"
      case Assigned => "assigned"
      case OutForDelivery => "out_for_delivery"
      case Delivered => "delivered"
      case Failed => "failed"
      case ReturnedToHub => "returned_to_hub"
      case Cancelled => "cancelled"
    }
  }

  /** Reads a stored status string back into the enumeration: exactly the
      seven wire names are accepted, each naming its own value. */
  function ParseOrderStatus(n: string): (r: Option<OrderStatus>)
    ensures r.Some? ==> r.value.Name() == n
    ensures forall s: OrderStatus :: s.Name() == n ==> r == Some(s)
  {
    if n == "pending" then Some(Pending)
    else if n == "assigned" then Some(Assigned)
    else if n == "out_for_delivery" then Some(OutForDelivery)
    else if n == "delivered" then Some(Delivered)
    else if n == "failed" then Some(Failed)
    else if n == "returned_to_hub" then Some(ReturnedToHub)
    else if n == "cancelled" then Some(Cancelled)
    else None
  }

  datatype OrderPriority = Urgent | Normal | Low {
    function Name(): string {
      match this
      case Urgent => "urgent"
      case Normal => "normal"
      case Low => "low"
    }
  }

  datatype OrderSource = Csv | Api | Manual {
    function Name(): string {
      match this
      case Csv => "csv"
      case Api => "api"
      case Manual => "manual"
    }
  }

  /** Free-text optional columns the core only copies (email, alternate
      phone, state, seller, marketplace, SKU, category, delivery slot). */
  type TextFields = map<string, string>

  /** `DeliveryOrderCreate`: the body of a manual order creation. */
  datatype OrderCreate = OrderCreate(
    hubId: Id,
    source: string,
    customerName: string,
    customerPhone: string,
    deliveryAddress: string,
    productDescription: string,
    deliveryCity: Option<string>,
    deliveryPostalCode: Option<string>,
    text: TextFields,
    packageCount: int,
    totalWeightKg: Option<real>,
    totalVolumeCft: Option<real>,
    isCod: bool,
    codAmount: Option<real>,
    declaredValue: Option<real>,
    priority: string,
    scheduledDate: Option<Date>)

  /** A creation request carrying only the five required fields; every
      other field takes the schema's default. */
  function OrderCreateWithDefaults(
    hubId: Id, customerName: string, customerPhone: string,
    deliveryAddress: string, productDescription: string): (r: OrderCreate)
    ensures r.hubId == hubId && r.customerName == customerName
    ensures r.customerPhone == customerPhone && r.deliveryAddress == deliveryAddress
    ensures r.productDescription == productDescription
    ensures r.source == Manual.Name() && r.packageCount == 1 && !r.isCod
    ensures r.codAmount == Some(0.0) && r.priority == Normal.Name()
    ensures r.totalWeightKg.None? && r.scheduledDate.None? && r.deliveryPostalCode.None?
  {
    OrderCreate(hubId, "manual", customerName, customerPhone, deliveryAddress,
                productDescription, None, None, map[], 1, None, None, false,
                Some(0.0), None, "normal", None)
  }

  /** A row of `delivery_orders`. */
  datatype DeliveryOrder = DeliveryOrder(
    hubId: Id,
    orderNumber: string,
    source: string,
    importBatchId: Option<Id>,
    customerName: string,
    customerPhone: string,
    deliveryAddress: string,
    productDescription: string,
    deliveryCity: Option<string>,
    deliveryPostalCode: Option<string>,
    text: TextFields,
    packageCount: int,
    totalWeightKg: Option<real>,
    totalVolumeCft: Option<real>,
    isCod: bool,
    codAmount: Option<real>,
    declaredValue: Option<real>,
    priority: string,
    scheduledDate: Option<Date>,
    status: OrderStatus,
    routeId: Option<Id>,
    driverId: Option<Id>,
    assignedAt: Option<Time>,
    outForDeliveryAt: Option<Time>,
    deliveredAt: Option<Time>,
    failedAt: Option<Time>,
    returnedAt: Option<Time>)

  /** The row the store holds right after inserting a creation request:
      the request's fields, status `pending`, no route, driver or
      lifecycle timestamp. */
  function NewDeliveryOrder(req: OrderCreate, orderNumber: string, importBatchId: Option<Id>): (o: DeliveryOrder)
    ensures o.hubId == req.hubId && o.orderNumber == orderNumber && o.source == req.source
    ensures o.importBatchId == importBatchId
    ensures o.status == Pending && o.routeId.None? && o.driverId.None?
    ensures o.assignedAt.None? && o.outForDeliveryAt.None? && o.deliveredAt.None?
    ensures o.failedAt.None? && o.returnedAt.None?
  {
    DeliveryOrder(
      req.hubId, orderNumber, req.source, importBatchId,
      req.customerName, req.customerPhone, req.deliveryAddress, req.productDescription,
      req.deliveryCity, req.deliveryPostalCode, req.text, req.packageCount,
      req.totalWeightKg, req.totalVolumeCft, req.isCod, req.codAmount, req.declaredValue,
      req.priority, req.scheduledDate,
      Pending, None, None, None, None, None, None, None)
  }

  // ---------------------------------------------------------------
  // Import batch
  // ---------------------------------------------------------------

  /** Why a CSV row was rejected; `Message` gives the text Python's
      `str(e)` puts in the error log. The offending value is shown between
      single quotes; Python quotes it with `repr`, which differs for values
      holding a quote, a backslash or a control character. */
  datatype RowError =
    | MissingField(field: string)      // ValueError("Missing <field>")
    | NotAnInteger(value: string)      // int(value) raised
    | NotANumber(value: string)        // float(value) raised
    | RejectedByStore(field: string)   // the insert failed, e.g. a bad date
    | HeaderlessCell                   // a cell beyond the header row (key None)

  function Message(e: RowError): string {
    match e
    case MissingField(f) => "Missing " + f
    case NotAnInteger(v) => "invalid literal for int() with base 10: '" + v + "'"
    case NotANumber(v) => "could not convert string to float: '" + v + "'"
    case RejectedByStore(f) => "invalid input for " + f
    case HeaderlessCell => "'NoneType' object has no attribute 'lower'"
  }

  /** One `{"row": i, "error": str(e)}` entry of an import's error log. */
  datatype ImportError = ImportError(row: nat, error: RowError)

  /** A row of `order_imports`. */
  datatype ImportBatch = ImportBatch(
    hubId: Id,
    uploadedBy: UserId,
    source: string,
    fileName: Option<string>,
    totalRecords: nat,
    processed: nat,
    failed: nat,
    errorLog: Option<seq<ImportError>>,
    status: string,
    completedAt: Option<Time>)

  /** The batch row inserted when an upload starts. */
  function NewImportBatch(hubId: Id, uploadedBy: UserId, fileName: string): (b: ImportBatch)
    ensures b.hubId == hubId && b.uploadedBy == uploadedBy && b.fileName == Some(fileName)
    ensures b.totalRecords == 0 && b.processed == 0 && b.failed == 0
    ensures b.status == "processing" && b.source == "csv"
    ensures b.errorLog.None? && b.completedAt.None?
  {
    ImportBatch(hubId, uploadedBy, "csv", Some(fileName), 0, 0, 0, None, "processing", None)
  }

  // ---------------------------------------------------------------
  // Delivery attempt
  // ---------------------------------------------------------------

  datatype FailureReason =
    | CustomerUnavailable | CustomerRejected | WrongAddress | AccessIssue | OtherReason
  {
    function Name(): string {
      match this
      case CustomerUnavailable => "customer_unavailable"
      case CustomerRejected => "customer_rejected"
      case WrongAddress => "wrong_address"
      case AccessIssue => "access_issue"
      case OtherReason => "other"
    }
  }

  /** Exactly the five failure-reason names are accepted, each naming its
      own value. */
  function ParseFailureReason(n: string): (r: Option<FailureReason>)
    ensures r.Some? ==> r.value.Name() == n
    ensures forall f: FailureReason :: f.Name() == n ==> r == Some(f)
  {
    if n == "customer_unavailable" then Some(CustomerUnavailable)
    else if n == "customer_rejected" then Some(CustomerRejected)
    else if n == "wrong_address" then Some(WrongAddress)
    else if n == "access_issue" then Some(AccessIssue)
    else if n == "other" then Some(OtherReason)
    else None
  }

  /** `DeliveryAttemptCreate`. The status is free text; the schema's comment
      names 'delivered' and 'failed'. */
  datatype AttemptRequest = AttemptRequest(
    orderId: Id,
    routeStopId: Option<Id>,
    status: string,
    failureReason: Option<string>,
    codCollected: bool,
    codAmount: Option<real>)

  function AttemptRequestWithDefaults(orderId: Id, status: string): (r: AttemptRequest)
    ensures r.orderId == orderId && r.status == status
    ensures !r.codCollected && r.routeStopId.None? && r.failureReason.None? && r.codAmount.None?
  {
    AttemptRequest(orderId, None, status, None, false, None)
  }

  /** A row of `delivery_attempts`. */
  datatype Attempt = Attempt(
    orderId: Id,
    routeStopId: Option<Id>,
    driverId: Id,
    attemptNumber: nat,
    status: string,
    failureReason: Option<string>,
    codCollected: bool,
    codAmount: Option<real>)

  // ---------------------------------------------------------------
  // OTP
  // ---------------------------------------------------------------

  /** A row of `otp_tokens`. */
  datatype OtpToken = OtpToken(
    orderId: Id,
    code: string,
    otpType: string,
    sentTo: string,
    verified: bool,
    expiresAt: Time)

  datatype OtpSendRequest = OtpSendRequest(orderId: Id, otpType: string)
  datatype OtpVerifyRequest = OtpVerifyRequest(orderId: Id, otpCode: string, otpType: string)

  function OtpSendRequestWithDefaults(orderId: Id): (r: OtpSendRequest)
    ensures r.orderId == orderId && r.otpType == "delivery"
  {
    OtpSendRequest(orderId, "delivery")
  }

  /** A verify request always carries the code; its type defaults to
      'delivery'. */
  function OtpVerifyRequestWithDefaults(orderId: Id, otpCode: string): (r: OtpVerifyRequest)
    ensures r.orderId == orderId && r.otpCode == otpCode && r.otpType == "delivery"
  {
    OtpVerifyRequest(orderId, otpCode, "delivery")
  }

  datatype OtpResponse = OtpResponse(success: bool, message: string, expiresAt: Option<Time>)
}

=== FILE: hub_analytics.dfy ===
/** The hub analytics router (packages/api-python/app/routers/hub_analytics.py):
    today's dashboard of one hub, the per-day report over a date range, and
    the all-hubs overview. The reports read `delivery_orders` through the
    columns they select, including `created_at`, which the rest of the
    model does not carry; those rows are given as a sequence in table
    order. Routes and drivers are read from the store. */
module HubAnalytics {
  import opened Wrappers
  import opened Text
  import opened Sorting
  import opened DeliveryModels
  import opened HubModels
  import opened Tables

  /** The columns of a `delivery_orders` row the reports select. */
  datatype OrderRow = OrderRow(hubId: Id, status: OrderStatus, isCod: bool, codAmount: Option<real>, createdAt: string)

  /** `date.isoformat()`: `YYYY-MM-DD`. */
  function IsoDate(d: Date): string {
    PadLeft(NatToString(d.year), 4, '0') + "-" + PadLeft(NatToString(d.month), 2, '0') + "-" + PadLeft(NatToString(d.day), 2, '0')
  }

  // ---------------------------------------------------------------
  // Selecting rows
  // ---------------------------------------------------------------

  /** `.eq("hub_id", h)`: the rows of hub `h`, in table order. */
  function ForHub(rows: seq<OrderRow>, h: Id): (r: seq<OrderRow>)
    ensures |r| <= |rows|
    ensures forall o :: o in r <==> o in rows && o.hubId == h
    ensures forall o :: multiset(r)[o] == if o.hubId == h then multiset(rows)[o] else 0
  {
    if rows == [] then []
    else
      assert rows == rows[..|rows| - 1] + [rows[|rows| - 1]];
      if rows[|rows| - 1].hubId == h then ForHub(rows[..|rows| - 1], h) + [rows[|rows| - 1]]
      else ForHub(rows[..|rows| - 1], h)
  }

  /** `.gte("created_at", lo)` and, when given, `.lte("created_at", hi)`.
      The store compares these as timestamps; the model compares the ISO
      texts. The two agree except on a row stamped exactly at the upper
      bound's second: its stored text carries a fraction or an offset after
      the seconds, so it sorts after the bound as text although the store
      includes it. */
  predicate CreatedWithin(o: OrderRow, lo: string, hi: Option<string>) {
    LexLe(lo, o.createdAt) && (hi.None? || LexLe(o.createdAt, hi.value))
  }

  function Created(rows: seq<OrderRow>, lo: string, hi: Option<string>): (r: seq<OrderRow>)
    ensures |r| <= |rows|
    ensures forall o :: o in r <==> o in rows && CreatedWithin(o, lo, hi)
    ensures forall o :: multiset(r)[o] == if CreatedWithin(o, lo, hi) then multiset(rows)[o] else 0
  {
    if rows == [] then []
    else
      assert rows == rows[..|rows| - 1] + [rows[|rows| - 1]];
      if CreatedWithin(rows[|rows| - 1], lo, hi) then Created(rows[..|rows| - 1], lo, hi) + [rows[|rows| - 1]]
      else Created(rows[..|rows| - 1], lo, hi)
  }

  /** The rows of hub `h` created since the start of day `day`. */
  function TodayRows(rows: seq<OrderRow>, h: Id, day: Date): seq<OrderRow> {
    ForHub(Created(rows, IsoDate(day) + "T00:00:00", None), h)
  }

  // ---------------------------------------------------------------
  // Counting
  // ---------------------------------------------------------------

  /** `sum(1 for o in rows if o["status"] == st)`. */
  function CountStatus(rows: seq<OrderRow>, st: OrderStatus): (n: nat)
    ensures n <= |rows|
  {
    if rows == [] then 0
    else CountStatus(rows[..|rows| - 1], st) + (if rows[|rows| - 1].status == st then 1 else 0)
  }

  /** The positions of the rows in status `st`. */
  function StatusPositions(rows: seq<OrderRow>, st: OrderStatus): set<nat> {
    set i: nat | i < |rows| && rows[i].status == st
  }

  /** `CountStatus` counts exactly the rows in status `st`. */
  lemma {:induction false} CountIsCardinality(rows: seq<OrderRow>, st: OrderStatus)
    ensures CountStatus(rows, st) == |StatusPositions(rows, st)|
  {
    if rows != [] {
      var n := |rows| - 1;
      var p := rows[..n];
      CountIsCardinality(p, st);
      var q := StatusPositions(p, st);
      if rows[n].status == st {
        assert StatusPositions(rows, st) == q + {n};
        assert n !in q;
      } else {
        assert StatusPositions(rows, st) == q;
      }
    }
  }

  /** Every row has exactly one of the seven statuses, so the seven
      counts add up to the number of rows. */
  lemma {:induction false} StatusCountsPartition(rows: seq<OrderRow>)
    ensures CountStatus(rows, Pending) + CountStatus(rows, Assigned) + CountStatus(rows, OutForDelivery)
            + CountStatus(rows, Delivered) + CountStatus(rows, Failed) + CountStatus(rows, ReturnedToHub)
            + CountStatus(rows, Cancelled) == |rows|
  {
    if rows != [] {
      StatusCountsPartition(rows[..|rows| - 1]);
    }
  }

  /** What one row adds to `cod_collected`: its amount (missing counts as
      nothing) when it is delivered and cash-on-delivery. */
  function CodValue(o: OrderRow): real {
    if o.status == Delivered && o.isCod then o.codAmount.GetOr(0.0) else 0.0
  }

  function CodCollected(rows: seq<OrderRow>): real {
    if rows == [] then 0.0 else CodCollected(rows[..|rows| - 1]) + CodValue(rows[|rows| - 1])
  }

  /** Only delivered cash-on-delivery rows contribute: with non-negative
      amounts the sum is non-negative, and it is zero when no such row
      exists. */
  lemma {:induction false} CodCollectedOnlyDeliveredCod(rows: seq<OrderRow>)
    ensures (forall o :: o in rows ==> o.codAmount.GetOr(0.0) >= 0.0) ==> CodCollected(rows) >= 0.0
    ensures (forall o :: o in rows ==> !(o.status == Delivered && o.isCod)) ==> CodCollected(rows) == 0.0
  {
    if rows != [] {
      CodCollectedOnlyDeliveredCod(rows[..|rows| - 1]);
      assert forall o :: o in rows[..|rows| - 1] ==> o in rows;
    }
  }

  /** `delivered / (delivered + failed) * 100`, or 0 when nothing was
      attempted (rounding to one decimal is not modelled). */
  function SuccessRate(delivered: nat, failed: nat): (r: real)
    ensures 0.0 <= r <= 100.0
    ensures delivered + failed == 0 ==> r == 0.0
    ensures delivered + failed > 0 ==> r * (delivered + failed) as real == 100.0 * delivered as real
  {
    if delivered + failed > 0 then
      var a := (delivered + failed) as real;
      assert delivered as real / a <= 1.0;
      delivered as real / a * 100.0
    else 0.0
  }

  // ---------------------------------------------------------------
  // Dashboard
  // ---------------------------------------------------------------

  datatype OrderCounts = OrderCounts(
    total: nat, pending: nat, assignedCount: nat, outForDelivery: nat, delivered: nat, failed: nat,
    returned: nat, successRate: real, codCollected: real)

  datatype RouteCounts = RouteCounts(total: nat, active: nat, completed: nat)

  datatype DriverCounts = DriverCounts(total: nat, online: nat)

  datatype Dashboard = Dashboard(date: string, orders: OrderCounts, routes: RouteCounts, drivers: DriverCounts)

  /** A subset is no larger than its superset. */
  lemma {:induction false} SubsetCard<T>(a: set<T>, b: set<T>)
    requires a <= b
    ensures |a| <= |b|
    decreases |a|
  {
    if a != {} {
      var x :| x in a;
      SubsetCard(a - {x}, b - {x});
    }
  }

  /** The routes of hub `h` dated `day`, and those of them in `st`. */
  function RoutesOn(routes: map<Id, Route>, h: Id, day: Date): set<Id> {
    set k | k in routes && routes[k].hubId == h && routes[k].date == day
  }

  function RoutesIn(routes: map<Id, Route>, h: Id, day: Date, st: RouteStatus): (r: set<Id>)
    ensures r <= RoutesOn(routes, h, day)
  {
    set k | k in RoutesOn(routes, h, day) && routes[k].status == st
  }

  /** A driver counts as online when it is `online` or `on_delivery`. */
  predicate OnlineStatus(st: DriverStatus) {
    st == Online || st == OnDelivery
  }

  /** The active drivers of hub `h`, and those of them online. */
  function HubDrivers(drivers: map<Id, Driver>, h: Id): set<Id> {
    set k | k in drivers && drivers[k].hubId == Some(h) && drivers[k].isActive
  }

  function OnlineDrivers(drivers: map<Id, Driver>, h: Id): (r: set<Id>)
    ensures r <= HubDrivers(drivers, h)
    ensures forall k :: k in r <==> k in HubDrivers(drivers, h) && OnlineStatus(drivers[k].status)
  {
    set k | k in HubDrivers(drivers, h) && OnlineStatus(drivers[k].status)
  }

  /** `hub_dashboard` for hub `h` on day `today`. */
  function HubDashboard(s: Store, rows: seq<OrderRow>, h: Id, today: Date): (r: Dashboard)
    ensures r.date == IsoDate(today)
    ensures r.orders.total == |TodayRows(rows, h, today)|
    ensures r.orders.pending + r.orders.assignedCount + r.orders.outForDelivery + r.orders.delivered
            + r.orders.failed + r.orders.returned <= r.orders.total
    ensures 0.0 <= r.orders.successRate <= 100.0
    ensures r.orders.delivered + r.orders.failed == 0 ==> r.orders.successRate == 0.0
    ensures r.routes.active + r.routes.completed <= r.routes.total
    ensures r.drivers.online <= r.drivers.total
  {
    var t := TodayRows(rows, h, today);
    StatusCountsPartition(t);
    var delivered := CountStatus(t, Delivered);
    var failed := CountStatus(t, Failed);
    var orders := OrderCounts(
      |t|, CountStatus(t, Pending), CountStatus(t, Assigned), CountStatus(t, OutForDelivery),
      delivered, failed, CountStatus(t, ReturnedToHub), SuccessRate(delivered, failed), CodCollected(t));
    var active := RoutesIn(s.routes, h, today, InProgress);
    var completed := RoutesIn(s.routes, h, today, Completed);
    assert active * completed == {};
    SubsetCard(active + completed, RoutesOn(s.routes, h, today));
    SubsetCard(OnlineDrivers(s.drivers, h), HubDrivers(s.drivers, h));
    Dashboard(IsoDate(today), orders,
      RouteCounts(|RoutesOn(s.routes, h, today)|, |active|, |completed|),
      DriverCounts(|HubDrivers(s.drivers, h)|, |OnlineDrivers(s.drivers, h)|))
  }

  /** The dashboard's numbers describe exactly the hub's rows of the day,
      routes of the day and active drivers: each status count is the number
      of such rows in that status, the rate is computed from the delivered
      and failed counts, `cod_collected` sums only the delivered
      cash-on-delivery rows, and the route and driver counts are the sizes
      of the matching sets. */
  lemma DashboardCounts(s: Store, rows: seq<OrderRow>, h: Id, today: Date)
    ensures forall o :: o in TodayRows(rows, h, today) <==>
      o in rows && o.hubId == h && LexLe(IsoDate(today) + "T00:00:00", o.createdAt)
    ensures var r := HubDashboard(s, rows, h, today); var t := TodayRows(rows, h, today);
      && r.orders.pending == CountStatus(t, Pending)
      && r.orders.assignedCount == CountStatus(t, Assigned)
      && r.orders.outForDelivery == CountStatus(t, OutForDelivery)
      && r.orders.delivered == CountStatus(t, Delivered)
      && r.orders.failed == CountStatus(t, Failed)
      && r.orders.returned == CountStatus(t, ReturnedToHub)
      && r.orders.successRate == SuccessRate(r.orders.delivered, r.orders.failed)
      && r.orders.codCollected == CodCollected(t)
    ensures var r := HubDashboard(s, rows, h, today);
      && r.routes.total == |RoutesOn(s.routes, h, today)|
      && r.routes.active == |RoutesIn(s.routes, h, today, InProgress)|
      && r.routes.completed == |RoutesIn(s.routes, h, today, Completed)|
      && r.drivers.total == |HubDrivers(s.drivers, h)|
      && r.drivers.online == |OnlineDrivers(s.drivers, h)|
  {
  }

  // ---------------------------------------------------------------
  // Daily report
  // ---------------------------------------------------------------

  /** `created_at[:10]`: the date part of a timestamp. */
  function DayOf(createdAt: string): (d: string)
    ensures |d| <= 10 && |d| <= |createdAt| && d == createdAt[..|d|]
    ensures |createdAt| >= 10 ==> |d| == 10
  {
    if |createdAt| <= 10 then createdAt else createdAt[..10]
  }

  /** One day's bucket of `hub_daily_report`. */
  datatype Day = Day(date: string, total: nat, delivered: nat, failed: nat, codCollected: real)

  /** A bucket opened for day `d`, before any row is added. */
  function Empty(d: string): Day {
    Day(d, 0, 0, 0, 0.0)
  }

  /** Adds one row to its bucket: the total always, and the delivered
      count with its cash-on-delivery amount or the failed count. */
  function Tally(b: Day, o: OrderRow): Day {
    if o.status == Delivered then
      b.(total := b.total + 1, delivered := b.delivered + 1, codCollected := b.codCollected + CodValue(o))
    else if o.status == Failed then b.(total := b.total + 1, failed := b.failed + 1)
    else b.(total := b.total + 1)
  }

  /** Adds row `o` to the bucket of its day, opening a bucket at the end
      when the day is new (dictionaries keep insertion order). */
  function AddRow(bs: seq<Day>, o: OrderRow): seq<Day> {
    if bs == [] then [Tally(Empty(DayOf(o.createdAt)), o)]
    else if bs[0].date == DayOf(o.createdAt) then [Tally(bs[0], o)] + bs[1..]
    else [bs[0]] + AddRow(bs[1..], o)
  }

  /** The grouping loop over the selected rows. */
  function Group(rows: seq<OrderRow>): seq<Day> {
    if rows == [] then [] else AddRow(Group(rows[..|rows| - 1]), rows[|rows| - 1])
  }

  /** The bucket of day `d`, if the list has one. */
  function Lookup(bs: seq<Day>, d: string): (r: Option<Day>)
    ensures r.Some? ==> r.value in bs && r.value.date == d
    ensures r.None? <==> forall i :: 0 <= i < |bs| ==> bs[i].date != d
  {
    if bs == [] then None else if bs[0].date == d then Some(bs[0]) else Lookup(bs[1..], d)
  }

  function Days(bs: seq<Day>): set<string> {
    set i | 0 <= i < |bs| :: bs[i].date
  }

  ghost predicate DistinctDays(bs: seq<Day>) {
    forall i, j :: 0 <= i < j < |bs| ==> bs[i].date != bs[j].date
  }

  function SumTotals(bs: seq<Day>): nat {
    if bs == [] then 0 else bs[0].total + SumTotals(bs[1..])
  }

  lemma DaysCons(b: Day, bs: seq<Day>)
    ensures Days([b] + bs) == {b.date} + Days(bs)
  {
    var r := [b] + bs;
    forall x | x in Days(bs) ensures x in Days(r) {
      var i :| 0 <= i < |bs| && bs[i].date == x;
      assert r[i + 1] == bs[i];
    }
    assert r[0] == b;
  }

  lemma DistinctCons(b: Day, bs: seq<Day>)
    ensures DistinctDays([b] + bs) <==> b.date !in Days(bs) && DistinctDays(bs)
  {
    var r := [b] + bs;
    assert r[1..] == bs;
    if b.date !in Days(bs) && DistinctDays(bs) {
      forall i, j | 0 <= i < j < |r| ensures r[i].date != r[j].date {
        assert r[j] == bs[j - 1];
        if i > 0 {
          assert r[i] == bs[i - 1];
        } else {
          assert bs[j - 1].date in Days(bs);
        }
      }
    }
    if DistinctDays(r) {
      forall k | 0 <= k < |bs| ensures bs[k].date != b.date {
        assert r[0] == b && r[k + 1] == bs[k];
      }
      forall i, j | 0 <= i < j < |bs| ensures bs[i].date != bs[j].date {
        assert r[i + 1] == bs[i] && r[j + 1] == bs[j];
      }
    }
  }

  /** The rows of `rows` whose day is `d`. */
  function OnDay(rows: seq<OrderRow>, d: string): (r: seq<OrderRow>)
    ensures forall o :: o in r <==> o in rows && DayOf(o.createdAt) == d
    ensures forall o :: multiset(r)[o] == if DayOf(o.createdAt) == d then multiset(rows)[o] else 0
  {
    if rows == [] then []
    else
      assert rows == rows[..|rows| - 1] + [rows[|rows| - 1]];
      if DayOf(rows[|rows| - 1].createdAt) == d then OnDay(rows[..|rows| - 1], d) + [rows[|rows| - 1]]
      else OnDay(rows[..|rows| - 1], d)
  }

  /** The reference for one day: the bucket counted directly over the
      rows of that day. */
  function Summary(rows: seq<OrderRow>, d: string): Day {
    var t := OnDay(rows, d);
    Day(d, |t|, CountStatus(t, Delivered), CountStatus(t, Failed), CodCollected(t))
  }

  lemma {:induction false} AddRowLookup(bs: seq<Day>, o: OrderRow, d: string)
    ensures Lookup(AddRow(bs, o), d) ==
      if d == DayOf(o.createdAt) then Some(Tally(Lookup(bs, d).GetOr(Empty(d)), o)) else Lookup(bs, d)
  {
    if bs != [] {
      var r := AddRow(bs, o);
      if bs[0].date == DayOf(o.createdAt) {
        assert r[1..] == bs[1..];
      } else {
        AddRowLookup(bs[1..], o, d);
        assert r[1..] == AddRow(bs[1..], o);
      }
    }
  }

  lemma {:induction false} AddRowDays(bs: seq<Day>, o: OrderRow)
    ensures Days(AddRow(bs, o)) == Days(bs) + {DayOf(o.createdAt)}
  {
    var d := DayOf(o.createdAt);
    if bs == [] {
      DaysCons(Tally(Empty(d), o), []);
    } else {
      assert bs == [bs[0]] + bs[1..];
      DaysCons(bs[0], bs[1..]);
      if bs[0].date == d {
        DaysCons(Tally(bs[0], o), bs[1..]);
      } else {
        AddRowDays(bs[1..], o);
        DaysCons(bs[0], AddRow(bs[1..], o));
      }
    }
  }

  lemma {:induction false} AddRowDistinct(bs: seq<Day>, o: OrderRow)
    requires DistinctDays(bs)
    ensures DistinctDays(AddRow(bs, o))
  {
    var d := DayOf(o.createdAt);
    if bs == [] {
      DistinctCons(Tally(Empty(d), o), []);
    } else {
      assert bs == [bs[0]] + bs[1..];
      DistinctCons(bs[0], bs[1..]);
      if bs[0].date == d {
        DistinctCons(Tally(bs[0], o), bs[1..]);
      } else {
        AddRowDistinct(bs[1..], o);
        AddRowDays(bs[1..], o);
        DistinctCons(bs[0], AddRow(bs[1..], o));
      }
    }
  }

  lemma {:induction false} AddRowSum(bs: seq<Day>, o: OrderRow)
    ensures SumTotals(AddRow(bs, o)) == SumTotals(bs) + 1
  {
    if bs != [] {
      var r := AddRow(bs, o);
      if bs[0].date == DayOf(o.createdAt) {
        assert r[1..] == bs[1..];
      } else {
        AddRowSum(bs[1..], o);
        assert r[1..] == AddRow(bs[1..], o);
      }
    }
  }

  /** Rows before `o` and `o` itself, split. */
  lemma SplitLast(rows: seq<OrderRow>)
    requires rows != []
    ensures rows == rows[..|rows| - 1] + [rows[|rows| - 1]]
  {
  }

  /** Adding a row of day `d` to the reference bucket of `d` gives the
      reference bucket of the longer list. */
  lemma SummaryAppend(rows: seq<OrderRow>)
    requires rows != []
    ensures Summary(rows, DayOf(rows[|rows| - 1].createdAt)) ==
            Tally(Summary(rows[..|rows| - 1], DayOf(rows[|rows| - 1].createdAt)), rows[|rows| - 1])
  {
    var o := rows[|rows| - 1];
    var d := DayOf(o.createdAt);
    var p := OnDay(rows[..|rows| - 1], d);
    assert OnDay(rows, d) == p + [o];
    BucketSnoc(p, o, d);
  }

  /** The bucket counted over `p + [o]` is `o` tallied into the bucket
      counted over `p`. */
  lemma {:induction false} BucketSnoc(p: seq<OrderRow>, o: OrderRow, d: string)
    ensures var t := p + [o];
      Day(d, |t|, CountStatus(t, Delivered), CountStatus(t, Failed), CodCollected(t))
        == Tally(Day(d, |p|, CountStatus(p, Delivered), CountStatus(p, Failed), CodCollected(p)), o)
  {
    var t := p + [o];
    assert t[..|t| - 1] == p && t[|t| - 1] == o;
  }

  /** The grouping loop computes the reference: day `d` has a bucket iff
      some row falls on it, and the bucket is the count over those rows. */
  lemma {:induction false} GroupIsSummary(rows: seq<OrderRow>, d: string)
    ensures Lookup(Group(rows), d) == if OnDay(rows, d) == [] then None else Some(Summary(rows, d))
  {
    if rows != [] {
      var p := rows[..|rows| - 1];
      var o := rows[|rows| - 1];
      GroupIsSummary(p, d);
      AddRowLookup(Group(p), o, d);
      if d == DayOf(o.createdAt) {
        SummaryAppend(rows);
        assert o in OnDay(rows, d);
      } else {
        assert OnDay(rows, d) == OnDay(p, d);
      }
    }
  }

  lemma {:induction false} GroupShape(rows: seq<OrderRow>)
    ensures DistinctDays(Group(rows))
    ensures SumTotals(Group(rows)) == |rows|
  {
    if rows != [] {
      GroupShape(rows[..|rows| - 1]);
      AddRowDistinct(Group(rows[..|rows| - 1]), rows[|rows| - 1]);
      AddRowSum(Group(rows[..|rows| - 1]), rows[|rows| - 1]);
    }
  }

  lemma {:induction false} LookupDistinct(bs: seq<Day>, i: nat)
    requires DistinctDays(bs) && i < |bs|
    ensures Lookup(bs, bs[i].date) == Some(bs[i])
  {
    if i > 0 {
      LookupDistinct(bs[1..], i - 1);
    }
  }

  /** Every bucket of the grouping is its day's reference bucket, for a day
      on which some row falls. */
  lemma {:induction false} GroupEntries(rows: seq<OrderRow>)
    ensures forall b :: b in Group(rows) ==> b == Summary(rows, b.date) && OnDay(rows, b.date) != []
  {
    GroupShape(rows);
    forall b | b in Group(rows) ensures b == Summary(rows, b.date) && OnDay(rows, b.date) != [] {
      var i :| 0 <= i < |Group(rows)| && Group(rows)[i] == b;
      LookupDistinct(Group(rows), i);
      GroupIsSummary(rows, b.date);
    }
  }

  /** Buckets ordered by their date strings. */
  predicate DayLe(a: Day, b: Day) {
    LexLe(a.date, b.date)
  }

  lemma DayLeIsTotalPreorder()
    ensures TotalPreorder(DayLe)
  {
    forall a, b ensures DayLe(a, b) || DayLe(b, a) {
      LexLeTotal(a.date, b.date);
    }
    forall a, b, c | DayLe(a, b) && DayLe(b, c) ensures DayLe(a, c) {
      LexLeTrans(a.date, b.date, c.date);
    }
  }

  lemma {:induction false} InsertDay(x: Day, ys: seq<Day>)
    requires DistinctDays(ys) && x.date !in Days(ys)
    ensures DistinctDays(Insert(x, ys, DayLe))
    ensures Days(Insert(x, ys, DayLe)) == Days(ys) + {x.date}
    ensures SumTotals(Insert(x, ys, DayLe)) == x.total + SumTotals(ys)
  {
    var r := Insert(x, ys, DayLe);
    if ys == [] || DayLe(x, ys[0]) {
      assert r == [x] + ys && r[1..] == ys;
      DaysCons(x, ys);
      DistinctCons(x, ys);
    } else {
      assert ys == [ys[0]] + ys[1..];
      DaysCons(ys[0], ys[1..]);
      DistinctCons(ys[0], ys[1..]);
      var t := Insert(x, ys[1..], DayLe);
      InsertDay(x, ys[1..]);
      assert r == [ys[0]] + t && r[1..] == t;
      DaysCons(ys[0], t);
      DistinctCons(ys[0], t);
    }
  }

  /** Sorting the buckets by date keeps them distinct, keeps their days
      and keeps the sum of their totals. */
  lemma {:induction false} SortDays(xs: seq<Day>)
    requires TotalPreorder(DayLe)
    requires DistinctDays(xs)
    ensures DistinctDays(InsertionSort(xs, DayLe))
    ensures Days(InsertionSort(xs, DayLe)) == Days(xs)
    ensures SumTotals(InsertionSort(xs, DayLe)) == SumTotals(xs)
  {
    if xs != [] {
      assert xs == [xs[0]] + xs[1..];
      DaysCons(xs[0], xs[1..]);
      DistinctCons(xs[0], xs[1..]);
      SortDays(xs[1..]);
      InsertDay(xs[0], InsertionSort(xs[1..], DayLe));
    }
  }

  /** The rows `hub_daily_report` selects: hub `h`, created from the start
      of `start` to the end of `end` (both given as date strings). */
  function RangeRows(rows: seq<OrderRow>, h: Id, start: string, end: string): seq<OrderRow> {
    ForHub(Created(rows, start + "T00:00:00", Some(end + "T23:59:59")), h)
  }

  /** One entry of the report: the bucket and its success rate. */
  datatype DayEntry = DayEntry(day: Day, successRate: real)

  function EntryTotals(r: seq<DayEntry>): nat {
    if r == [] then 0 else r[0].day.total + EntryTotals(r[1..])
  }

  lemma {:induction false} EntryTotalsOf(r: seq<DayEntry>, bs: seq<Day>)
    requires |r| == |bs| && forall i :: 0 <= i < |r| ==> r[i].day == bs[i]
    ensures EntryTotals(r) == SumTotals(bs)
  {
    if r != [] {
      EntryTotalsOf(r[1..], bs[1..]);
    }
  }

  /** `sorted(daily.values(), key=date)` over the selected rows. */
  function SortedDays(sel: seq<OrderRow>): seq<Day> {
    DayLeIsTotalPreorder();
    InsertionSort(Group(sel), DayLe)
  }

  /** The sorted buckets: strictly ascending dates, one per day on which a
      row falls, each its day's reference bucket, totals adding up to the
      number of rows. */
  lemma {:induction false} SortedDaysFacts(sel: seq<OrderRow>)
    ensures forall i, j :: 0 <= i < j < |SortedDays(sel)| ==> LexLt(SortedDays(sel)[i].date, SortedDays(sel)[j].date)
    ensures forall b :: b in SortedDays(sel) ==> b == Summary(sel, b.date) && OnDay(sel, b.date) != []
    ensures Days(SortedDays(sel)) == Days(Group(sel))
    ensures SumTotals(SortedDays(sel)) == |sel|
  {
    var g := Group(sel);
    DayLeIsTotalPreorder();
    GroupShape(sel);
    GroupEntries(sel);
    SortDays(g);
    var sorted := SortedDays(sel);
    forall b | b in sorted ensures b == Summary(sel, b.date) && OnDay(sel, b.date) != [] {
      assert b in multiset(g);
    }
    forall i, j | 0 <= i < j < |sorted| ensures LexLt(sorted[i].date, sorted[j].date) {
      assert DayLe(sorted[i], sorted[j]);
    }
  }

  /** Every selected row's day has a bucket in the sorted list. */
  lemma SortedDaysCover(sel: seq<OrderRow>)
    ensures forall o :: o in sel ==> DayOf(o.createdAt) in Days(SortedDays(sel))
  {
    SortedDaysFacts(sel);
    forall o | o in sel ensures DayOf(o.createdAt) in Days(Group(sel)) {
      GroupIsSummary(sel, DayOf(o.createdAt));
      assert o in OnDay(sel, DayOf(o.createdAt));
      var b := Lookup(Group(sel), DayOf(o.createdAt)).value;
      var k :| 0 <= k < |Group(sel)| && Group(sel)[k] == b;
    }
  }

  /** Each bucket with its success rate. */
  function Entries(bs: seq<Day>): (r: seq<DayEntry>)
    ensures |r| == |bs|
    ensures forall i :: 0 <= i < |r| ==> r[i].day == bs[i] && 0.0 <= r[i].successRate <= 100.0
    ensures EntryTotals(r) == SumTotals(bs)
  {
    var r := seq(|bs|, i requires 0 <= i < |bs| => DayEntry(bs[i], SuccessRate(bs[i].delivered, bs[i].failed)));
    EntryTotalsOf(r, bs);
    r
  }

  /** A reference bucket never counts more delivered and failed rows than
      rows. */
  lemma SummaryBounded(sel: seq<OrderRow>, d: string)
    ensures Summary(sel, d).delivered + Summary(sel, d).failed <= Summary(sel, d).total
  {
    StatusCountsPartition(OnDay(sel, d));
  }

  /** The report over the selected rows. */
  function Report(sel: seq<OrderRow>): seq<DayEntry> {
    Entries(SortedDays(sel))
  }

  /** The report has one entry per day, in strictly ascending date order. */
  lemma ReportOrder(sel: seq<OrderRow>)
    ensures forall i, j :: 0 <= i < j < |Report(sel)| ==> LexLt(Report(sel)[i].day.date, Report(sel)[j].day.date)
  {
    SortedDaysFacts(sel);
  }

  /** Each entry holds its day's reference counts over at least one row,
      never more delivered and failed rows than rows, and a success rate
      between 0 and 100. */
  lemma ReportEntries(sel: seq<OrderRow>)
    ensures forall i :: 0 <= i < |Report(sel)| ==>
      && Report(sel)[i].day == Summary(sel, Report(sel)[i].day.date)
      && Report(sel)[i].day.total > 0
      && Report(sel)[i].day.delivered + Report(sel)[i].day.failed <= Report(sel)[i].day.total
      && 0.0 <= Report(sel)[i].successRate <= 100.0
  {
    var sorted := SortedDays(sel);
    SortedDaysFacts(sel);
    forall i | 0 <= i < |Report(sel)|
      ensures Report(sel)[i].day == Summary(sel, Report(sel)[i].day.date)
    {
      assert sorted[i] in sorted;
    }
    forall i | 0 <= i < |Report(sel)|
      ensures Report(sel)[i].day.delivered + Report(sel)[i].day.failed <= Report(sel)[i].day.total
    {
      SummaryBounded(sel, sorted[i].date);
    }
  }

  /** Every selected row's day has an entry, and the entries' totals add
      up to the number of selected rows. */
  lemma ReportCovers(sel: seq<OrderRow>)
    ensures forall o :: o in sel ==> exists i :: 0 <= i < |Report(sel)| && Report(sel)[i].day.date == DayOf(o.createdAt)
    ensures EntryTotals(Report(sel)) == |sel|
  {
    var sorted := SortedDays(sel);
    SortedDaysFacts(sel);
    SortedDaysCover(sel);
    forall o | o in sel ensures exists i :: 0 <= i < |Report(sel)| && Report(sel)[i].day.date == DayOf(o.createdAt) {
      var i :| 0 <= i < |sorted| && sorted[i].date == DayOf(o.createdAt);
      assert Report(sel)[i].day.date == DayOf(o.createdAt);
    }
  }

  /** `hub_daily_report` for hub `h` from `start` to `end`. */
  function DailyReport(rows: seq<OrderRow>, h: Id, start: string, end: string): seq<DayEntry> {
    Report(RangeRows(rows, h, start, end))
  }

  /** The report reads exactly the hub's rows created from the start of
      `start` to the end of `end`. */
  lemma {:induction false} DailyReportRows(rows: seq<OrderRow>, h: Id, start: string, end: string)
    ensures forall o :: o in RangeRows(rows, h, start, end) <==>
      o in rows && o.hubId == h && LexLe(start + "T00:00:00", o.createdAt) && LexLe(o.createdAt, end + "T23:59:59")
  {
  }

  // ---------------------------------------------------------------
  // Overview
  // ---------------------------------------------------------------

  /** One hub's line of the overview. */
  datatype HubStat = HubStat(
    hubId: Id, name: string, code: string, totalOrders: nat, delivered: nat, failed: nat,
    successRate: real, driversOnline: nat)

  datatype Overview = Overview(
    date: string, totalHubs: nat, hubs: seq<HubStat>, totalOrders: nat, totalDelivered: nat, totalFailed: nat)

  function ActiveHubIds(hubs: map<Id, Hub>): set<Id> {
    set k | k in hubs && hubs[k].isActive
  }

  /** The rows whose hub is in `hs`, in table order. */
  function InHubs(rows: seq<OrderRow>, hs: set<Id>): (r: seq<OrderRow>)
    ensures forall o :: o in r <==> o in rows && o.hubId in hs
    ensures forall o :: multiset(r)[o] == if o.hubId in hs then multiset(rows)[o] else 0
  {
    if rows == [] then []
    else
      assert rows == rows[..|rows| - 1] + [rows[|rows| - 1]];
      if rows[|rows| - 1].hubId in hs then InHubs(rows[..|rows| - 1], hs) + [rows[|rows| - 1]]
      else InHubs(rows[..|rows| - 1], hs)
  }

  /** Adding a hub to the set adds exactly its rows. */
  lemma {:induction false} InHubsSplit(rows: seq<OrderRow>, hs: set<Id>, h: Id)
    requires h !in hs
    ensures |InHubs(rows, hs + {h})| == |InHubs(rows, hs)| + |ForHub(rows, h)|
  {
    if rows != [] {
      InHubsSplit(rows[..|rows| - 1], hs, h);
    }
  }

  lemma {:induction false} InHubsNone(rows: seq<OrderRow>)
    ensures InHubs(rows, {}) == []
  {
    if InHubs(rows, {}) != [] {
      assert InHubs(rows, {})[0] in InHubs(rows, {});
    }
  }

  /** The line of hub `h`, counted over the day's rows `today`. */
  function HubStatOf(s: Store, today: seq<OrderRow>, h: Id): HubStat
    requires h in s.hubs
  {
    var t := ForHub(today, h);
    var delivered := CountStatus(t, Delivered);
    var failed := CountStatus(t, Failed);
    HubStat(h, s.hubs[h].name, s.hubs[h].code, |t|, delivered, failed, SuccessRate(delivered, failed),
            |OnlineDrivers(s.drivers, h)|)
  }

  /** The lines of the hubs `ids`, in that order. */
  function Stats(s: Store, today: seq<OrderRow>, ids: seq<Id>): (r: seq<HubStat>)
    requires forall i :: 0 <= i < |ids| ==> ids[i] in s.hubs
    ensures |r| == |ids|
    ensures forall i :: 0 <= i < |ids| ==> r[i] == HubStatOf(s, today, ids[i])
  {
    if ids == [] then []
    else
      var front := Stats(s, today, ids[..|ids| - 1]);
      var r := front + [HubStatOf(s, today, ids[|ids| - 1])];
      assert forall i :: 0 <= i < |ids| - 1 ==> r[i] == front[i];
      r
  }

  function SumOrders(hs: seq<HubStat>): nat {
    if hs == [] then 0 else SumOrders(hs[..|hs| - 1]) + hs[|hs| - 1].totalOrders
  }

  function SumDelivered(hs: seq<HubStat>): nat {
    if hs == [] then 0 else SumDelivered(hs[..|hs| - 1]) + hs[|hs| - 1].delivered
  }

  function SumFailed(hs: seq<HubStat>): nat {
    if hs == [] then 0 else SumFailed(hs[..|hs| - 1]) + hs[|hs| - 1].failed
  }

  function IdSet(ids: seq<Id>): set<Id> {
    set i | 0 <= i < |ids| :: ids[i]
  }

  lemma IdSetSnoc(p: seq<Id>, h: Id)
    ensures IdSet(p + [h]) == IdSet(p) + {h}
  {
    var q := p + [h];
    forall k | k in IdSet(q) ensures k in IdSet(p) + {h} {
      var i :| 0 <= i < |q| && q[i] == k;
      if i < |p| {
        assert p[i] == k;
      }
    }
    forall k | k in IdSet(p) ensures k in IdSet(q) {
      var i :| 0 <= i < |p| && p[i] == k;
      assert q[i] == k;
    }
    assert q[|p|] == h;
  }

  /** Over distinct hubs, the per-hub order counts add up to the rows of
      those hubs. */
  lemma {:induction false} SumOverHubs(s: Store, today: seq<OrderRow>, ids: seq<Id>)
    requires forall i :: 0 <= i < |ids| ==> ids[i] in s.hubs
    requires forall i, j :: 0 <= i < j < |ids| ==> ids[i] != ids[j]
    ensures SumOrders(Stats(s, today, ids)) == |InHubs(today, IdSet(ids))|
  {
    if ids == [] {
      assert IdSet(ids) == {};
      InHubsNone(today);
    } else {
      var p := ids[..|ids| - 1];
      var h := ids[|ids| - 1];
      SumOverHubs(s, today, p);
      var st := Stats(s, today, ids);
      assert st[..|st| - 1] == Stats(s, today, p);
      assert ids == p + [h];
      IdSetSnoc(p, h);
      InHubsSplit(today, IdSet(p), h);
    }
  }

  /** A hub's line never counts more delivered and failed orders than
      orders. */
  lemma HubStatBounded(s: Store, today: seq<OrderRow>, h: Id)
    requires h in s.hubs
    ensures HubStatOf(s, today, h).delivered + HubStatOf(s, today, h).failed <= HubStatOf(s, today, h).totalOrders
  {
    StatusCountsPartition(ForHub(today, h));
  }

  lemma {:induction false} SumsBounded(hs: seq<HubStat>)
    requires forall i :: 0 <= i < |hs| ==> hs[i].delivered + hs[i].failed <= hs[i].totalOrders
    ensures SumDelivered(hs) + SumFailed(hs) <= SumOrders(hs)
  {
    if hs != [] {
      SumsBounded(hs[..|hs| - 1]);
    }
  }

  /** The active hubs' ids in ascending order, as the hubs query returns
      them. */
  function ActiveIds(hubs: map<Id, Hub>): (r: seq<Id>)
    ensures |r| == |ActiveHubIds(hubs)|
    ensures forall i :: 0 <= i < |r| ==> r[i] in hubs && hubs[r[i]].isActive
    ensures forall h :: h in ActiveHubIds(hubs) ==> exists i :: 0 <= i < |r| && r[i] == h
    ensures forall i, j :: 0 <= i < j < |r| ==> r[i] < r[j]
  {
    var r := Ascending(ActiveHubIds(hubs));
    assert forall i :: 0 <= i < |r| ==> r[i] in r;
    assert forall h :: h in ActiveHubIds(hubs) ==> h in r;
    r
  }

  /** The rows created on day `today` or later. */
  function Today(rows: seq<OrderRow>, today: Date): seq<OrderRow> {
    Created(rows, IsoDate(today) + "T00:00:00", None)
  }

  /** `overview` on day `today`: one line per active hub in id order, and
      totals that add up the lines. What it promises is stated by
      `OverviewLines` and `OverviewTotals`. */
  function HubOverview(s: Store, rows: seq<OrderRow>, today: Date): Overview {
    var st := Stats(s, Today(rows, today), ActiveIds(s.hubs));
    Overview(IsoDate(today), |st|, st, SumOrders(st), SumDelivered(st), SumFailed(st))
  }

  /** The overview has one line per active hub, in ascending id order. */
  lemma OverviewLines(s: Store, rows: seq<OrderRow>, today: Date)
    ensures var r := HubOverview(s, rows, today);
      && r.date == IsoDate(today)
      && r.totalHubs == |r.hubs| == |ActiveHubIds(s.hubs)|
      && (forall h :: h in ActiveHubIds(s.hubs) <==> exists i :: 0 <= i < |r.hubs| && r.hubs[i].hubId == h)
      && (forall i, j :: 0 <= i < j < |r.hubs| ==> r.hubs[i].hubId < r.hubs[j].hubId)
  {
    var ids := ActiveIds(s.hubs);
    var st := Stats(s, Today(rows, today), ids);
    StatsIds(s, Today(rows, today), ids);
    assert HubOverview(s, rows, today).hubs == st;
    assert IdsOf(st) == ids;
  }

  /** The hub ids of the lines, in order. */
  function IdsOf(hs: seq<HubStat>): (r: seq<Id>)
    ensures |r| == |hs| && forall i :: 0 <= i < |hs| ==> r[i] == hs[i].hubId
  {
    seq(|hs|, i requires 0 <= i < |hs| => hs[i].hubId)
  }

  /** The lines of `Stats` name the hubs of `ids`, in order. */
  lemma {:induction false} StatsIds(s: Store, today: seq<OrderRow>, ids: seq<Id>)
    requires forall i :: 0 <= i < |ids| ==> ids[i] in s.hubs
    ensures IdsOf(Stats(s, today, ids)) == ids
  {
    var st := Stats(s, today, ids);
    forall i | 0 <= i < |st|
      ensures IdsOf(st)[i] == ids[i]
    {
      StatLine(s, today, ids[i]);
    }
  }

  /** Each overview line carries its hub's name, code, counts over the
      day's rows, online drivers and a rate between 0 and 100. */
  lemma OverviewRates(s: Store, rows: seq<OrderRow>, today: Date)
    ensures var r := HubOverview(s, rows, today);
      forall i :: 0 <= i < |r.hubs| ==>
        && r.hubs[i].hubId in s.hubs
        && r.hubs[i].driversOnline == |OnlineDrivers(s.drivers, r.hubs[i].hubId)| && 0.0 <= r.hubs[i].successRate <= 100.0
        && StatCounts(s, Today(rows, today), r.hubs[i].hubId, r.hubs[i])
  {
    var ids := ActiveIds(s.hubs);
    var st := Stats(s, Today(rows, today), ids);
    StatsLines(s, Today(rows, today), ids);
    assert HubOverview(s, rows, today).hubs == st;
  }

  /** Each line of `Stats` names its hub, in the order of `ids`, and carries
      the hub's counts, online drivers and a rate between 0 and 100. */
  lemma {:induction false} StatsLines(s: Store, today: seq<OrderRow>, ids: seq<Id>)
    requires forall i :: 0 <= i < |ids| ==> ids[i] in s.hubs
    ensures var st := Stats(s, today, ids);
      forall i :: 0 <= i < |st| ==>
        st[i].hubId == ids[i] && st[i].driversOnline == |OnlineDrivers(s.drivers, ids[i])|
        && 0.0 <= st[i].successRate <= 100.0 && StatCounts(s, today, ids[i], st[i])
  {
    var st := Stats(s, today, ids);
    forall i | 0 <= i < |st|
      ensures st[i].hubId == ids[i] && st[i].driversOnline == |OnlineDrivers(s.drivers, ids[i])|
      ensures 0.0 <= st[i].successRate <= 100.0 && StatCounts(s, today, ids[i], st[i])
    {
      StatLine(s, today, ids[i]);
    }
  }

  /** One overview line names its hub, counts the hub's rows of the day
      and those delivered and failed, rates them, and carries the hub's
      online drivers. */
  lemma StatLine(s: Store, today: seq<OrderRow>, h: Id)
    requires h in s.hubs
    ensures HubStatOf(s, today, h).hubId == h
    ensures HubStatOf(s, today, h).driversOnline == |OnlineDrivers(s.drivers, h)|
    ensures 0.0 <= HubStatOf(s, today, h).successRate <= 100.0
    ensures StatCounts(s, today, h, HubStatOf(s, today, h))
  {
  }

  /** Line `l` carries hub `h`'s name and code and its counts over the
      day's rows `today`. */
  ghost predicate StatCounts(s: Store, today: seq<OrderRow>, h: Id, l: HubStat)
    requires h in s.hubs
  {
    var t := ForHub(today, h);
    && l.name == s.hubs[h].name && l.code == s.hubs[h].code
    && l.totalOrders == |t|
    && l.delivered == CountStatus(t, Delivered)
    && l.failed == CountStatus(t, Failed)
    && l.successRate == SuccessRate(l.delivered, l.failed)
  }

  lemma ActiveIdSet(hubs: map<Id, Hub>)
    ensures IdSet(ActiveIds(hubs)) == ActiveHubIds(hubs)
  {
    var ids := ActiveIds(hubs);
    forall k | k in ActiveHubIds(hubs) ensures k in IdSet(ids) {
      var i :| 0 <= i < |ids| && ids[i] == k;
    }
  }

  /** The orders total is the number of the day's rows that belong to an
      active hub; the totals add up the lines. */
  lemma OverviewTotals(s: Store, rows: seq<OrderRow>, today: Date)
    ensures var r := HubOverview(s, rows, today);
      && r.totalOrders == SumOrders(r.hubs)
      && r.totalDelivered == SumDelivered(r.hubs)
      && r.totalFailed == SumFailed(r.hubs)
      && r.totalOrders == |InHubs(Today(rows, today), ActiveHubIds(s.hubs))|
  {
    SumOverHubs(s, Today(rows, today), ActiveIds(s.hubs));
    ActiveIdSet(s.hubs);
  }

  /** Delivered and failed together never exceed the orders total. */
  lemma OverviewBounded(s: Store, rows: seq<OrderRow>, today: Date)
    ensures var r := HubOverview(s, rows, today);
      r.totalDelivered + r.totalFailed <= r.totalOrders
  {
    var ids := ActiveIds(s.hubs);
    var t := Today(rows, today);
    var st := Stats(s, t, ids);
    forall i | 0 <= i < |st| ensures st[i].delivered + st[i].failed <= st[i].totalOrders {
      HubStatBounded(s, t, ids[i]);
    }
    SumsBounded(st);
  }
}

=== FILE: hub_delivery.dfy ===
/** Proof of delivery for the hub flow
    (packages/api-python/app/routers/hub_delivery.py): one-time codes sent to
    the customer and checked by the driver, delivery attempts cascading into
    order and stop status, and the unguarded stop and return updates.

    The OTP table is a log in creation order, so "the most recently created
    unverified token" is the last such token in the log. */
module HubDelivery {
  import opened Wrappers
  import opened Text
  import opened DeliveryModels
  import opened HubModels
  import opened Tables

  // ---------------------------------------------------------------
  // Code generation and masking
  // ---------------------------------------------------------------

  /** The characters of `random.choices(string.digits, k=length)`: each
      draw picks one of the ten digits. */
  predicate IsDigitDraw(draws: seq<nat>) {
    forall i :: 0 <= i < |draws| ==> draws[i] < 10
  }

  /** `generate_otp`: one digit per draw, so the default six draws give a
      six-digit code. Each character is a digit that reads back as its
      draw. */
  function GenerateOtp(draws: seq<nat>): (code: string)
    requires IsDigitDraw(draws)
    ensures |code| == |draws|
    ensures forall i :: 0 <= i < |code| ==> IsDigit(code[i]) && DigitValue(code[i]) == draws[i]
  {
    seq(|draws|, i requires 0 <= i < |draws| => DigitChar(draws[i]))
  }

  /** A well-formed code of the length the handlers use. */
  predicate IsOtpCode(code: string) {
    |code| == 6 && forall i :: 0 <= i < |code| ==> IsDigit(code[i])
  }

  /** How many trailing characters of a phone number the send message
      shows: `phone[-4:]`. */
  function Shown(phone: string): nat {
    if |phone| < 4 then |phone| else 4
  }

  /** `phone[-4:].rjust(len(phone), '*')`: the same length as the phone,
      the last (at most four) characters kept, every earlier one `*`. */
  function Mask(phone: string): (m: string)
    ensures |m| == |phone|
    ensures forall i :: 0 <= i < |phone| - Shown(phone) ==> m[i] == '*'
    ensures forall i :: |phone| - Shown(phone) <= i < |phone| ==> m[i] == phone[i]
  {
    Repeat('*', |phone| - Shown(phone)) + phone[|phone| - Shown(phone)..]
  }

  /** Masking a masked number changes nothing. */
  lemma MaskIdempotent(phone: string)
    ensures Mask(Mask(phone)) == Mask(phone)
  {
    var m := Mask(phone);
    assert Shown(m) == Shown(phone);
    assert forall i :: 0 <= i < |m| ==> Mask(m)[i] == m[i];
  }

  /** Two numbers mask alike exactly when they have the same length and
      agree on the characters the mask shows. */
  lemma MaskHides(p: string, q: string)
    ensures Mask(p) == Mask(q) <==>
      |p| == |q| && p[|p| - Shown(p)..] == q[|q| - Shown(q)..]
  {
    if |p| == |q| && p[|p| - Shown(p)..] == q[|q| - Shown(q)..] {
      assert forall i :: |p| - Shown(p) <= i < |p| ==> p[i] == p[|p| - Shown(p)..][i - (|p| - Shown(p))];
      assert forall i :: |q| - Shown(q) <= i < |q| ==> q[i] == q[|q| - Shown(q)..][i - (|q| - Shown(q))];
      assert forall i :: 0 <= i < |p| ==> Mask(p)[i] == Mask(q)[i];
    }
    if Mask(p) == Mask(q) {
      assert |p| == |q|;
      forall i | |p| - Shown(p) <= i < |p|
        ensures p[i] == q[i]
      {
        assert Mask(p)[i] == Mask(q)[i];
      }
      assert p[|p| - Shown(p)..] == q[|q| - Shown(q)..];
    }
  }

  // ---------------------------------------------------------------
  // OTP tokens
  // ---------------------------------------------------------------

  /** Ten minutes: how long a sent code stays valid. */
  const OtpLifetime: Time := 10 * Minute

  /** A token that still counts for (order, type): not yet verified. */
  predicate Active(t: OtpToken, orderId: Id, otpType: string) {
    t.orderId == orderId && t.otpType == otpType && !t.verified
  }

  /** At most one active token per (order, type). */
  predicate OneActive(otps: seq<OtpToken>) {
    forall i, j :: 0 <= i < j < |otps| ==> !Active(otps[j], otps[i].orderId, otps[i].otpType) || otps[i].verified
  }

  /** The position of the most recently created active token for
      (order, type), if any: it is active, and no later token is. */
  function Latest(otps: seq<OtpToken>, orderId: Id, otpType: string): (r: Option<nat>)
    ensures r.Some? ==> r.value < |otps| && Active(otps[r.value], orderId, otpType)
    ensures r.Some? ==> forall j :: r.value < j < |otps| ==> !Active(otps[j], orderId, otpType)
    ensures r.None? <==> forall j :: 0 <= j < |otps| ==> !Active(otps[j], orderId, otpType)
    decreases |otps|
  {
    if otps == [] then None
    else if Active(otps[|otps| - 1], orderId, otpType) then Some(|otps| - 1)
    else Latest(otps[..|otps| - 1], orderId, otpType)
  }

  /** The invalidating update of `send_otp`: every active token for
      (order, type) becomes verified; nothing else changes. */
  function Supersede(otps: seq<OtpToken>, orderId: Id, otpType: string): (r: seq<OtpToken>)
    ensures |r| == |otps|
    ensures forall i :: 0 <= i < |r| ==> !Active(r[i], orderId, otpType)
    ensures forall i :: 0 <= i < |r| ==> r[i] == otps[i] || (Active(otps[i], orderId, otpType) && r[i] == otps[i].(verified := true))
    ensures forall i :: 0 <= i < |r| && !Active(otps[i], orderId, otpType) ==> r[i] == otps[i]
  {
    seq(|otps|, i requires 0 <= i < |otps| =>
      if Active(otps[i], orderId, otpType) then otps[i].(verified := true) else otps[i])
  }

  /** `POST /delivery/otp/send`. An unknown order is not found. Otherwise
      the active tokens for (order, type) are superseded, one new active
      token is appended, sent to the customer's phone and valid for ten
      minutes, and the reply shows the masked phone. */
  function SendOtp(s: Store, req: OtpSendRequest, draws: seq<nat>, now: Time): (r: Result<(OtpResponse, Store), Error>)
    requires |draws| == 6 && IsDigitDraw(draws)
    ensures r.Err? <==> req.orderId !in s.orders
    ensures r.Err? ==> r.error == NotFound("Order not found")
    ensures r.Ok? ==> r.value.0 == OtpResponse(true, "OTP sent to " + Mask(s.orders[req.orderId].customerPhone), Some(now + OtpLifetime))
    ensures r.Ok? ==> r.value.1.(otps := s.otps) == s
  {
    if req.orderId !in s.orders then Err(NotFound("Order not found"))
    else
      var phone := s.orders[req.orderId].customerPhone;
      var token := OtpToken(req.orderId, GenerateOtp(draws), req.otpType, phone, false, now + OtpLifetime);
      Ok((OtpResponse(true, "OTP sent to " + Mask(phone), Some(now + OtpLifetime)),
          s.(otps := Supersede(s.otps, req.orderId, req.otpType) + [token])))
  }

  /** After a send, the new token is the one active token for
      (order, type): every earlier one is inactive, and the new one carries
      a six-digit code, the customer's phone and an expiry ten minutes on.
      Tokens of other pairs are untouched; earlier tokens of the pair
      differ at most in their verified flag. */
  lemma SendOtpToken(s: Store, req: OtpSendRequest, draws: seq<nat>, now: Time)
    requires |draws| == 6 && IsDigitDraw(draws)
    requires SendOtp(s, req, draws, now).Ok?
    ensures |SendOtp(s, req, draws, now).value.1.otps| == |s.otps| + 1
    ensures forall i :: 0 <= i < |s.otps| ==> !Active(SendOtp(s, req, draws, now).value.1.otps[i], req.orderId, req.otpType)
    ensures Active(SendOtp(s, req, draws, now).value.1.otps[|s.otps|], req.orderId, req.otpType)
    ensures Latest(SendOtp(s, req, draws, now).value.1.otps, req.orderId, req.otpType) == Some(|s.otps|)
    ensures SendOtp(s, req, draws, now).value.1.otps[|s.otps|].code == GenerateOtp(draws)
    ensures IsOtpCode(SendOtp(s, req, draws, now).value.1.otps[|s.otps|].code)
    ensures SendOtp(s, req, draws, now).value.1.otps[|s.otps|].sentTo == s.orders[req.orderId].customerPhone
    ensures SendOtp(s, req, draws, now).value.1.otps[|s.otps|].expiresAt == now + OtpLifetime
    ensures forall i :: 0 <= i < |s.otps| && !Active(s.otps[i], req.orderId, req.otpType) ==>
      SendOtp(s, req, draws, now).value.1.otps[i] == s.otps[i]
    ensures forall i :: 0 <= i < |s.otps| ==>
      SendOtp(s, req, draws, now).value.1.otps[i].(verified := s.otps[i].verified) == s.otps[i]
  {
    var t := SendOtp(s, req, draws, now).value.1.otps;
    assert t == Supersede(s.otps, req.orderId, req.otpType) + [t[|s.otps|]];
  }

  /** A send keeps "at most one active token per pair". */
  lemma SendKeepsOneActive(s: Store, req: OtpSendRequest, draws: seq<nat>, now: Time)
    requires |draws| == 6 && IsDigitDraw(draws)
    requires OneActive(s.otps)
    requires SendOtp(s, req, draws, now).Ok?
    ensures OneActive(SendOtp(s, req, draws, now).value.1.otps)
  {
    var t := SendOtp(s, req, draws, now).value.1.otps;
    SendOtpToken(s, req, draws, now);
    forall i, j | 0 <= i < j < |t|
      ensures !Active(t[j], t[i].orderId, t[i].otpType) || t[i].verified
    {
      if j < |s.otps| && !t[i].verified {
        assert t[i] == s.otps[i];
      }
    }
  }

  /** `POST /delivery/otp/verify`. With no active token for
      (order, type) the request fails. The latest active token is then
      checked in order: a different code is "Invalid OTP", an expiry
      strictly before `now` is "OTP has expired" (neither writes
      anything); otherwise that token becomes verified. */
  function VerifyOtp(s: Store, req: OtpVerifyRequest, now: Time): (r: Result<(OtpResponse, Store), Error>)
    ensures r.Err? <==> forall j :: 0 <= j < |s.otps| ==> !Active(s.otps[j], req.orderId, req.otpType)
    ensures r.Err? ==> r.error == BadRequest("No active OTP found")
    ensures r.Ok? ==> r.value.0.expiresAt.None?
    ensures r.Ok? && !r.value.0.success ==> r.value.1 == s
    ensures r.Ok? ==> r.value.1.(otps := s.otps) == s
  {
    match Latest(s.otps, req.orderId, req.otpType)
    case None => Err(BadRequest("No active OTP found"))
    case Some(k) =>
      var token := s.otps[k];
      if token.code != req.otpCode then Ok((OtpResponse(false, "Invalid OTP", None), s))
      else if token.expiresAt < now then Ok((OtpResponse(false, "OTP has expired", None), s))
      else Ok((OtpResponse(true, "OTP verified successfully", None),
               s.(otps := s.otps[k := token.(verified := true)])))
  }

  /** The outcome of a verify against the latest active token: success
      exactly when the code matches and the token has not expired, in which
      case that token, and only it, becomes verified. */
  lemma VerifyOtpOutcome(s: Store, req: OtpVerifyRequest, now: Time)
    requires Latest(s.otps, req.orderId, req.otpType).Some?
    ensures VerifyOtp(s, req, now).Ok?
    ensures VerifyOtp(s, req, now).value.0.success <==>
      && s.otps[Latest(s.otps, req.orderId, req.otpType).value].code == req.otpCode
      && now <= s.otps[Latest(s.otps, req.orderId, req.otpType).value].expiresAt
    ensures s.otps[Latest(s.otps, req.orderId, req.otpType).value].code != req.otpCode ==>
      VerifyOtp(s, req, now).value.0.message == "Invalid OTP"
    ensures (s.otps[Latest(s.otps, req.orderId, req.otpType).value].code == req.otpCode
             && s.otps[Latest(s.otps, req.orderId, req.otpType).value].expiresAt < now) ==>
      VerifyOtp(s, req, now).value.0.message == "OTP has expired"
    ensures VerifyOtp(s, req, now).value.0.success ==>
      && VerifyOtp(s, req, now).value.0.message == "OTP verified successfully"
      && |VerifyOtp(s, req, now).value.1.otps| == |s.otps|
      && VerifyOtp(s, req, now).value.1.otps[Latest(s.otps, req.orderId, req.otpType).value].verified
      && (forall i :: 0 <= i < |s.otps| && i != Latest(s.otps, req.orderId, req.otpType).value ==>
            VerifyOtp(s, req, now).value.1.otps[i] == s.otps[i])
  {
  }

  /** Verification keeps "at most one active token per pair". */
  lemma VerifyKeepsOneActive(s: Store, req: OtpVerifyRequest, now: Time)
    requires OneActive(s.otps)
    requires VerifyOtp(s, req, now).Ok?
    ensures OneActive(VerifyOtp(s, req, now).value.1.otps)
  {
  }

  /** Once a code has been accepted, the same request finds no active
      token any more, provided the pair had only that one. */
  lemma VerifyTwice(s: Store, req: OtpVerifyRequest, now: Time, later: Time)
    requires OneActive(s.otps)
    requires VerifyOtp(s, req, now).Ok? && VerifyOtp(s, req, now).value.0.success
    ensures VerifyOtp(VerifyOtp(s, req, now).value.1, req, later) == Err(BadRequest("No active OTP found"))
  {
    var k := Latest(s.otps, req.orderId, req.otpType).value;
    var t := VerifyOtp(s, req, now).value.1.otps;
    forall j | 0 <= j < |t|
      ensures !Active(t[j], req.orderId, req.otpType)
    {
    }
  }

  /** Send followed by verify: the code just sent is accepted until its
      expiry and refused as expired after it; any other code is invalid. */
  lemma SendThenVerify(s: Store, send: OtpSendRequest, draws: seq<nat>, now: Time, code: string, later: Time)
    requires |draws| == 6 && IsDigitDraw(draws)
    requires SendOtp(s, send, draws, now).Ok?
    ensures VerifyOtp(SendOtp(s, send, draws, now).value.1, OtpVerifyRequest(send.orderId, code, send.otpType), later).Ok?
    ensures VerifyOtp(SendOtp(s, send, draws, now).value.1, OtpVerifyRequest(send.orderId, code, send.otpType), later).value.0.success
      <==> code == GenerateOtp(draws) && later <= now + OtpLifetime
    ensures code != GenerateOtp(draws) ==>
      VerifyOtp(SendOtp(s, send, draws, now).value.1, OtpVerifyRequest(send.orderId, code, send.otpType), later).value.0.message == "Invalid OTP"
    ensures code == GenerateOtp(draws) && later > now + OtpLifetime ==>
      VerifyOtp(SendOtp(s, send, draws, now).value.1, OtpVerifyRequest(send.orderId, code, send.otpType), later).value.0.message == "OTP has expired"
  {
    SendOtpToken(s, send, draws, now);
    VerifyOtpOutcome(SendOtp(s, send, draws, now).value.1, OtpVerifyRequest(send.orderId, code, send.otpType), later);
  }

  /** `POST /delivery/return-otp/send`: a send with the type forced to
      `return`. */
  function SendReturnOtp(s: Store, req: OtpSendRequest, draws: seq<nat>, now: Time): (r: Result<(OtpResponse, Store), Error>)
    requires |draws| == 6 && IsDigitDraw(draws)
    ensures r.Ok? ==> |r.value.1.otps| == |s.otps| + 1 && r.value.1.otps[|s.otps|].otpType == "return"
  {
    SendOtp(s, req.(otpType := "return"), draws, now)
  }

  /** `POST /delivery/return-otp/verify`: a verify with the type forced to
      `return`. */
  function VerifyReturnOtp(s: Store, req: OtpVerifyRequest, now: Time): (r: Result<(OtpResponse, Store), Error>)
    ensures r.Err? <==> forall j :: 0 <= j < |s.otps| ==> !Active(s.otps[j], req.orderId, "return")
  {
    VerifyOtp(s, req.(otpType := "return"), now)
  }

  /** The return endpoints ignore the type the request names. */
  lemma ReturnOtpIgnoresType(s: Store, send: OtpSendRequest, verify: OtpVerifyRequest, draws: seq<nat>, now: Time, t: string)
    requires |draws| == 6 && IsDigitDraw(draws)
    ensures SendReturnOtp(s, send.(otpType := t), draws, now) == SendReturnOtp(s, send, draws, now)
    ensures VerifyReturnOtp(s, verify.(otpType := t), now) == VerifyReturnOtp(s, verify, now)
  {
  }

  // ---------------------------------------------------------------
  // Delivery attempts
  // ---------------------------------------------------------------

  /** The highest attempt number recorded for an order, 0 when there is
      none. */
  function MaxAttempt(attempts: seq<Attempt>, orderId: Id): (m: nat)
    ensures forall i :: 0 <= i < |attempts| && attempts[i].orderId == orderId ==> attempts[i].attemptNumber <= m
    ensures m == 0 || exists i :: 0 <= i < |attempts| && attempts[i].orderId == orderId && attempts[i].attemptNumber == m
    decreases |attempts|
  {
    if attempts == [] then 0
    else
      var rest := MaxAttempt(attempts[..|attempts| - 1], orderId);
      var last := attempts[|attempts| - 1];
      if last.orderId == orderId && last.attemptNumber > rest then last.attemptNumber else rest
  }

  /** The number the next attempt on an order gets: one more than the
      highest so far, or 1 for the first. It exceeds every earlier
      number of that order. */
  function NextAttemptNumber(attempts: seq<Attempt>, orderId: Id): (n: nat)
    ensures n >= 1
    ensures forall i :: 0 <= i < |attempts| && attempts[i].orderId == orderId ==> attempts[i].attemptNumber < n
    ensures n == 1 || exists i :: 0 <= i < |attempts| && attempts[i].orderId == orderId && attempts[i].attemptNumber == n - 1
  {
    MaxAttempt(attempts, orderId) + 1
  }

  /** The order update an attempt triggers: `delivered` and `failed` set
      the order's status and matching timestamp; any other status leaves
      the table alone, as does an order id with no row. */
  function AttemptOrders(orders: map<Id, DeliveryOrder>, orderId: Id, status: string, now: Time): (r: map<Id, DeliveryOrder>)
    ensures r.Keys == orders.Keys
    ensures forall k :: k in orders && k != orderId ==> r[k] == orders[k]
    ensures status != "delivered" && status != "failed" ==> r == orders
  {
    if orderId !in orders then orders
    else if status == "delivered" then orders[orderId := orders[orderId].(status := Delivered, deliveredAt := Some(now))]
    else if status == "failed" then orders[orderId := orders[orderId].(status := Failed, failedAt := Some(now))]
    else orders
  }

  /** The stop update an attempt triggers when it names a stop: the stop
      takes the attempt's status and departs now. */
  function AttemptStops(stops: map<Id, RouteStop>, stopId: Option<Id>, status: string, now: Time): (r: map<Id, RouteStop>)
    ensures r.Keys == stops.Keys
    ensures forall k :: k in stops && (stopId.None? || k != stopId.value) ==> r[k] == stops[k]
  {
    if stopId.Some? && stopId.value in stops then
      stops[stopId.value := stops[stopId.value].(status := status, actualDeparture := Some(now))]
    else stops
  }

  /** `POST /delivery/attempt`. The caller must have a driver row. The
      attempt is appended with the next number for its order, then the
      order and the named stop are updated. */
  function RecordAttempt(s: Store, caller: Caller, req: AttemptRequest, now: Time): (r: Result<(Attempt, Store), Error>)
    ensures r.Err? <==> DriverOf(s.drivers, caller.id).None?
    ensures r.Err? ==> r.error == NotFound("Driver profile not found")
    ensures r.Ok? ==> r.value.1.attempts == s.attempts + [r.value.0]
    ensures r.Ok? ==> r.value.0.orderId == req.orderId && r.value.0.status == req.status
    ensures r.Ok? ==> Some(r.value.0.driverId) == DriverOf(s.drivers, caller.id)
    ensures r.Ok? ==> r.value.0.attemptNumber == NextAttemptNumber(s.attempts, req.orderId)
    ensures r.Ok? ==> r.value.1.(attempts := s.attempts, orders := s.orders, stops := s.stops) == s
  {
    match DriverOf(s.drivers, caller.id)
    case None => Err(NotFound("Driver profile not found"))
    case Some(driverId) =>
      var attempt := Attempt(req.orderId, req.routeStopId, driverId, NextAttemptNumber(s.attempts, req.orderId),
                             req.status, req.failureReason, req.codCollected, req.codAmount);
      Ok((attempt, s.(attempts := s.attempts + [attempt],
                      orders := AttemptOrders(s.orders, req.orderId, req.status, now),
                      stops := AttemptStops(s.stops, req.routeStopId, req.status, now))))
  }

  /** The cascade of an attempt: a `delivered` attempt on an existing order
      makes it delivered with `delivered_at`, a `failed` one makes it failed
      with `failed_at`, and any other status leaves every order as it was;
      a named, existing stop takes the attempt's status and departs now;
      every other order and stop is untouched. */
  lemma RecordAttemptCascade(s: Store, caller: Caller, req: AttemptRequest, now: Time)
    requires RecordAttempt(s, caller, req, now).Ok?
    ensures RecordAttempt(s, caller, req, now).value.1.orders.Keys == s.orders.Keys
    ensures req.status == "delivered" && req.orderId in s.orders ==>
      RecordAttempt(s, caller, req, now).value.1.orders[req.orderId]
        == s.orders[req.orderId].(status := Delivered, deliveredAt := Some(now))
    ensures req.status == "failed" && req.orderId in s.orders ==>
      RecordAttempt(s, caller, req, now).value.1.orders[req.orderId]
        == s.orders[req.orderId].(status := Failed, failedAt := Some(now))
    ensures req.status != "delivered" && req.status != "failed" ==>
      RecordAttempt(s, caller, req, now).value.1.orders == s.orders
    ensures forall k :: k in s.orders && k != req.orderId ==> RecordAttempt(s, caller, req, now).value.1.orders[k] == s.orders[k]
    ensures RecordAttempt(s, caller, req, now).value.1.stops.Keys == s.stops.Keys
    ensures req.routeStopId.Some? && req.routeStopId.value in s.stops ==>
      && RecordAttempt(s, caller, req, now).value.1.stops[req.routeStopId.value].status == req.status
      && RecordAttempt(s, caller, req, now).value.1.stops[req.routeStopId.value].actualDeparture == Some(now)
      && RecordAttempt(s, caller, req, now).value.1.stops[req.routeStopId.value].actualArrival
           == s.stops[req.routeStopId.value].actualArrival
    ensures forall k :: k in s.stops && (req.routeStopId.None? || k != req.routeStopId.value) ==>
      RecordAttempt(s, caller, req, now).value.1.stops[k] == s.stops[k]
  {
  }

  /** Two attempts in a row on one order are numbered consecutively. */
  lemma AttemptNumbersIncrease(s: Store, caller: Caller, a: AttemptRequest, b: AttemptRequest, now: Time, later: Time)
    requires RecordAttempt(s, caller, a, now).Ok?
    requires b.orderId == a.orderId
    ensures RecordAttempt(RecordAttempt(s, caller, a, now).value.1, caller, b, later).Ok?
    ensures RecordAttempt(RecordAttempt(s, caller, a, now).value.1, caller, b, later).value.0.attemptNumber
      == RecordAttempt(s, caller, a, now).value.0.attemptNumber + 1
  {
    var t := RecordAttempt(s, caller, a, now).value;
    var n := t.0.attemptNumber;
    assert t.1.drivers == s.drivers;
    var m := MaxAttempt(t.1.attempts, a.orderId);
    assert t.1.attempts[|t.1.attempts| - 1] == t.0;
    assert n <= m;
  }

  // ---------------------------------------------------------------
  // Unguarded updates
  // ---------------------------------------------------------------

  /** `POST /delivery/return-to-hub`: whatever its status, an existing
      order becomes returned to hub with `returned_at`; only a missing
      order fails. */
  function ReturnToHub(s: Store, orderId: Id, now: Time): (r: Result<(string, Store), Error>)
    ensures r.Err? <==> orderId !in s.orders
    ensures r.Err? ==> r.error == NotFound("Order not found")
    ensures r.Ok? ==> r.value.0 == "Order marked as returned to hub"
    ensures r.Ok? ==> r.value.1.orders.Keys == s.orders.Keys
    ensures r.Ok? ==> r.value.1.orders[orderId].status == ReturnedToHub
    ensures r.Ok? ==> r.value.1.orders[orderId].returnedAt == Some(now)
    ensures r.Ok? ==> r.value.1.orders[orderId].(status := s.orders[orderId].status, returnedAt := s.orders[orderId].returnedAt) == s.orders[orderId]
    ensures r.Ok? ==> forall k :: k in s.orders && k != orderId ==> r.value.1.orders[k] == s.orders[k]
    ensures r.Ok? ==> r.value.1.(orders := s.orders) == s
  {
    if orderId !in s.orders then Err(NotFound("Order not found"))
    else Ok(("Order marked as returned to hub",
             s.(orders := s.orders[orderId := s.orders[orderId].(status := ReturnedToHub, returnedAt := Some(now))])))
  }

  /** `POST /delivery/stop/{id}/arrive`: an existing stop, whatever its
      status, becomes `arrived` with `actual_arrival`; only a missing stop
      fails. */
  function ArriveAtStop(s: Store, stopId: Id, now: Time): (r: Result<(string, Store), Error>)
    ensures r.Err? <==> stopId !in s.stops
    ensures r.Err? ==> r.error == NotFound("Stop not found")
    ensures r.Ok? ==> r.value.0 == "Arrived at stop"
    ensures r.Ok? ==> r.value.1.stops.Keys == s.stops.Keys
    ensures r.Ok? ==> r.value.1.stops[stopId].status == "arrived" && r.value.1.stops[stopId].actualArrival == Some(now)
    ensures r.Ok? ==> r.value.1.stops[stopId].(status := s.stops[stopId].status, actualArrival := s.stops[stopId].actualArrival) == s.stops[stopId]
    ensures r.Ok? ==> forall k :: k in s.stops && k != stopId ==> r.value.1.stops[k] == s.stops[k]
    ensures r.Ok? ==> r.value.1.(stops := s.stops) == s
  {
    if stopId !in s.stops then Err(NotFound("Stop not found"))
    else Ok(("Arrived at stop",
             s.(stops := s.stops[stopId := s.stops[stopId].(status := "arrived", actualArrival := Some(now))])))
  }

  /** `POST /delivery/stop/{id}/complete`: an existing stop, whatever its
      status, takes the given status (by default `delivered`) with
      `actual_departure`; only a missing stop fails. */
  function CompleteStop(s: Store, stopId: Id, statusValue: string, now: Time): (r: Result<(string, Store), Error>)
    ensures r.Err? <==> stopId !in s.stops
    ensures r.Err? ==> r.error == NotFound("Stop not found")
    ensures r.Ok? ==> r.value.0 == "Stop marked as " + statusValue
    ensures r.Ok? ==> r.value.1.stops.Keys == s.stops.Keys
    ensures r.Ok? ==> r.value.1.stops[stopId].status == statusValue && r.value.1.stops[stopId].actualDeparture == Some(now)
    ensures r.Ok? ==> r.value.1.stops[stopId].(status := s.stops[stopId].status, actualDeparture := s.stops[stopId].actualDeparture) == s.stops[stopId]
    ensures r.Ok? ==> forall k :: k in s.stops && k != stopId ==> r.value.1.stops[k] == s.stops[k]
    ensures r.Ok? ==> r.value.1.(stops := s.stops) == s
  {
    if stopId !in s.stops then Err(NotFound("Stop not found"))
    else Ok(("Stop marked as " + statusValue,
             s.(stops := s.stops[stopId := s.stops[stopId].(status := statusValue, actualDeparture := Some(now))])))
  }

  /** The updates overwrite rather than check: returning an order twice
      leaves the state of the last run. */
  lemma ReturnTwice(s: Store, orderId: Id, t1: Time, t2: Time)
    requires orderId in s.orders
    ensures ReturnToHub(ReturnToHub(s, orderId, t1).value.1, orderId, t2) == ReturnToHub(s, orderId, t2)
  {
    var o := s.orders[orderId].(status := ReturnedToHub, returnedAt := Some(t2));
    var s1 := ReturnToHub(s, orderId, t1).value.1;
    assert s1.orders[orderId].(status := ReturnedToHub, returnedAt := Some(t2)) == o;
    assert s1.orders[orderId := o] == s.orders[orderId := o];
  }

  /** Arriving at a stop twice leaves the state of the last run. */
  lemma ArriveTwice(s: Store, stopId: Id, t1: Time, t2: Time)
    requires stopId in s.stops
    ensures ArriveAtStop(ArriveAtStop(s, stopId, t1).value.1, stopId, t2) == ArriveAtStop(s, stopId, t2)
  {
    var st := s.stops[stopId].(status := "arrived", actualArrival := Some(t2));
    var s1 := ArriveAtStop(s, stopId, t1).value.1;
    assert s1.stops[stopId].(status := "arrived", actualArrival := Some(t2)) == st;
    assert s1.stops[stopId := st] == s.stops[stopId := st];
  }

  /** Completing a stop twice leaves the state of the last run, whatever
      status the first run set. */
  lemma CompleteTwice(s: Store, stopId: Id, a: string, b: string, t1: Time, t2: Time)
    requires stopId in s.stops
    ensures CompleteStop(CompleteStop(s, stopId, a, t1).value.1, stopId, b, t2) == CompleteStop(s, stopId, b, t2)
  {
    var st := s.stops[stopId].(status := b, actualDeparture := Some(t2));
    var s1 := CompleteStop(s, stopId, a, t1).value.1;
    assert s1.stops[stopId].(status := b, actualDeparture := Some(t2)) == st;
    assert s1.stops[stopId := st] == s.stops[stopId := st];
  }

  /** Completing a stop after arriving at it keeps the arrival time. */
  lemma CompleteAfterArrive(s: Store, stopId: Id, b: string, t1: Time, t2: Time)
    requires stopId in s.stops
    ensures CompleteStop(ArriveAtStop(s, stopId, t1).value.1, stopId, b, t2).value.1.stops[stopId].actualArrival == Some(t1)
    ensures CompleteStop(ArriveAtStop(s, stopId, t1).value.1, stopId, b, t2).value.1.stops[stopId].status == b
  {
  }
}

=== FILE: hub_models.dfy ===
/** Records and enumerations of the hub, vehicle, route and stop schema
    (packages/api-python/app/models/hub.py) and the driver status borrowed
    from packages/api-python/app/models/driver.py. */
module HubModels {
  import opened Wrappers
  import opened DeliveryModels

  datatype RouteStatus = Planned | RouteAssigned | InProgress | Completed | RouteCancelled {
    function Name(): string {
      match this
      case Planned => "planned"
      case RouteAssigned => "assigned"
      case InProgress => "in_progress"
      case Completed => "completed"
      case RouteCancelled => "cancelled"
    }
  }

  /** Exactly the five route-status names are accepted. */
  function ParseRouteStatus(n: string): (r: Option<RouteStatus>)
    ensures r.Some? ==> r.value.Name() == n
    ensures forall s: RouteStatus :: s.Name() == n ==> r == Some(s)
  {
    if n == "planned" then Some(Planned)
    else if n == "assigned" then Some(RouteAssigned)
    else if n == "in_progress" then Some(InProgress)
    else if n == "completed" then Some(Completed)
    else if n == "cancelled" then Some(RouteCancelled)
    else None
  }

  datatype VehicleStatus = Available | OnRoute | Maintenance | Inactive {
    function Name(): string {
      match this
      case Available => "available"
      case OnRoute => "on_route"
      case Maintenance => "maintenance"
      case Inactive => "inactive"
    }
  }

  /** Exactly the four vehicle-status names are accepted. */
  function ParseVehicleStatus(n: string): (r: Option<VehicleStatus>)
    ensures r.Some? ==> r.value.Name() == n
    ensures forall s: VehicleStatus :: s.Name() == n ==> r == Some(s)
  {
    if n == "available" then Some(Available)
    else if n == "on_route" then Some(OnRoute)
    else if n == "maintenance" then Some(Maintenance)
    else if n == "inactive" then Some(Inactive)
    else None
  }

  datatype DriverStatus = Offline | Online | Busy | OnDelivery {
    function Name(): string {
      match this
      case Offline => "offline"
      case Online => "online"
      case Busy => "busy"
      case OnDelivery => "on_delivery"
    }
  }

  /** A row of `hubs`. */
  datatype Hub = Hub(name: string, code: string, city: string, managerId: Option<UserId>, isActive: bool)

  /** A row of `hub_vehicles`; a missing capacity is allowed. */
  datatype Vehicle = Vehicle(
    hubId: Id,
    plateNumber: string,
    capacityKg: Option<real>,
    status: VehicleStatus,
    assignedDriverId: Option<Id>,
    isActive: bool)

  /** A vehicle as registered: status `available`, no driver, active. */
  function NewVehicle(hubId: Id, plateNumber: string, capacityKg: Option<real>): (v: Vehicle)
    ensures v.hubId == hubId && v.capacityKg == capacityKg
    ensures v.status == Available && v.assignedDriverId.None? && v.isActive
  {
    Vehicle(hubId, plateNumber, capacityKg, Available, None, true)
  }

  /** A row of `drivers` (shared by the hub and the marketplace flows). */
  datatype Driver = Driver(userId: UserId, hubId: Option<Id>, status: DriverStatus, isActive: bool)

  /** A row of `driver_earnings`: the driver it pays, the whole amount
      earned for one delivery and the tip inside it. */
  datatype DriverEarning = DriverEarning(driverId: Id, totalEarnings: real, tipAmount: real)

  /** A row of `delivery_routes`. */
  datatype Route = Route(
    hubId: Id,
    name: string,
    vehicleId: Option<Id>,
    driverId: Option<Id>,
    date: Date,
    status: RouteStatus,
    totalStops: nat,
    totalWeightKg: Option<real>,
    startTime: Option<Time>,
    createdBy: UserId)

  /** The route row as inserted by a manual creation: no status given, so
      the column default `planned` applies, and no weight. */
  function NewRoute(hubId: Id, name: string, vehicleId: Option<Id>, driverId: Option<Id>,
                    date: Date, totalStops: nat, createdBy: UserId): (r: Route)
    ensures r.hubId == hubId && r.name == name && r.vehicleId == vehicleId && r.driverId == driverId
    ensures r.status == Planned && r.totalStops == totalStops && r.totalWeightKg.None?
    ensures r.startTime.None?
  {
    Route(hubId, name, vehicleId, driverId, date, Planned, totalStops, None, None, createdBy)
  }

  /** A row of `route_stops`. The status is free text ('pending' by default,
      then whatever the driver reports). */
  datatype RouteStop = RouteStop(
    routeId: Id,
    orderId: Id,
    sequence: int,
    status: string,
    actualArrival: Option<Time>,
    actualDeparture: Option<Time>)

  function NewStop(routeId: Id, orderId: Id, sequence: int): (s: RouteStop)
    ensures s.routeId == routeId && s.orderId == orderId && s.sequence == sequence
    ensures s.status == "pending" && s.actualArrival.None? && s.actualDeparture.None?
  {
    RouteStop(routeId, orderId, sequence, "pending", None, None)
  }

  /** `RouteCreate`; `order_ids` defaults to the empty list. */
  datatype RouteCreate = RouteCreate(
    hubId: Id,
    routeName: Option<string>,
    vehicleId: Option<Id>,
    driverId: Option<Id>,
    routeDate: Date,
    orderIds: seq<Id>)

  function RouteCreateWithDefaults(hubId: Id, routeDate: Date): (r: RouteCreate)
    ensures r.hubId == hubId && r.routeDate == routeDate
    ensures r.orderIds == [] && r.routeName.None? && r.vehicleId.None? && r.driverId.None?
  {
    RouteCreate(hubId, None, None, None, routeDate, [])
  }

  /** `RouteAssign`: both ids are required, so neither is optional here. */
  datatype RouteAssign = RouteAssign(driverId: Id, vehicleId: Id)

  /** `AutoPlanRequest`: the date is required, the vehicle list optional. */
  datatype AutoPlanRequest = AutoPlanRequest(hubId: Id, routeDate: Date, vehicleIds: Option<seq<Id>>)

  /** `AutoPlanResponse`, with the ids of the created routes. */
  datatype AutoPlanResponse = AutoPlanResponse(
    routesCreated: nat, totalOrdersAssigned: nat, unassignedOrders: nat, routes: seq<Id>)
}

=== FILE: hub_orders.dfy ===
/** The hub-order handlers of packages/api-python/app/routers/hub_orders.py
    that write: manual creation, cancellation and the bulk CSV upload. The
    upload reads each data row through an alias table, rejects the row on
    the first missing required field or the first optional value that will
    not coerce, inserts the others, and records counters and a status on
    the import batch. */
module HubOrders {
  import opened Wrappers
  import opened Text
  import opened DeliveryModels
  import opened Tables

  // ---------------------------------------------------------------
  // Order numbers and create_order
  // ---------------------------------------------------------------

  /** Eight lower-case hex digits: the first eight of a fresh `uuid4().hex`. */
  predicate IsHexDraw(h: string) {
    |h| == 8 && forall i :: 0 <= i < 8 ==> IsLowerHex(h[i])
  }

  /** `DH-` and eight upper-case hex digits. */
  predicate IsOrderNumber(n: string) {
    |n| == 11 && n[..3] == "DH-" && forall i :: 3 <= i < 11 ==> IsUpperHex(n[i])
  }

  /** `f"DH-{uuid.uuid4().hex[:8].upper()}"`: the draw, upper-cased, behind
      the `DH-` prefix. */
  function OrderNumber(hex8: string): (n: string)
    requires IsHexDraw(hex8)
    ensures IsOrderNumber(n)
  {
    "DH-" + Upper(hex8)
  }

  /** The number keeps the whole draw: lower-casing its last eight
      characters gives the draw back, so distinct draws give distinct
      numbers. */
  lemma OrderNumberKeepsDraw(hex8: string)
    requires IsHexDraw(hex8)
    ensures Lower(OrderNumber(hex8)[3..]) == hex8
  {
    var n := OrderNumber(hex8);
    assert n[3..] == Upper(hex8);
    forall i | 0 <= i < 8
      ensures Lower(n[3..])[i] == hex8[i]
    {
      assert IsLowerHex(hex8[i]);
    }
  }

  /** `POST /hub-orders`: the request is inserted as a new `pending` order
      under a fresh id with a generated number; nothing else changes. */
  function CreateOrder(s: Store, req: OrderCreate, hex8: string): (r: (Id, Store))
    requires Valid(s) && IsHexDraw(hex8)
    ensures r.0 !in s.orders && r.0 in r.1.orders
    ensures forall id :: id in r.1.orders <==> id in s.orders || id == r.0
    ensures forall id :: id in s.orders ==> r.1.orders[id] == s.orders[id]
    ensures r.1.orders[r.0] == NewDeliveryOrder(req, r.1.orders[r.0].orderNumber, None)
    ensures IsOrderNumber(r.1.orders[r.0].orderNumber)
    ensures Valid(r.1) && r.1.(orders := s.orders, nextId := s.nextId) == s
  {
    var id := s.nextId;
    (id, s.(orders := s.orders[id := NewDeliveryOrder(req, OrderNumber(hex8), None)], nextId := id + 1))
  }

  // ---------------------------------------------------------------
  // cancel_order
  // ---------------------------------------------------------------

  /** `DELETE /hub-orders/{id}`: a missing order is not found; a delivered
      or cancelled one is refused; any other order becomes `cancelled`,
      with no timestamp and no other column written. */
  function CancelOrder(s: Store, id: Id): (r: Result<Store, Error>)
    ensures id !in s.orders ==> r == Err(NotFound("Order not found"))
    ensures id in s.orders && s.orders[id].status in {Delivered, Cancelled} ==>
      r == Err(BadRequest("Cannot cancel order with status: " + s.orders[id].status.Name()))
    ensures r.Ok? <==> id in s.orders && s.orders[id].status !in {Delivered, Cancelled}
    ensures r.Ok? ==> id in r.value.orders && r.value.orders[id].status == Cancelled
    ensures r.Ok? ==> r.value.orders[id].(status := s.orders[id].status) == s.orders[id]
    ensures r.Ok? ==> forall k :: k in r.value.orders <==> k in s.orders
    ensures r.Ok? ==> forall k :: k in s.orders && k != id ==> r.value.orders[k] == s.orders[k]
    ensures r.Ok? ==> r.value.(orders := s.orders) == s
  {
    if id !in s.orders then Err(NotFound("Order not found"))
    else
      var o := s.orders[id];
      if o.status == Delivered || o.status == Cancelled then
        Err(BadRequest("Cannot cancel order with status: " + o.status.Name()))
      else
        Ok(s.(orders := s.orders[id := o.(status := Cancelled)]))
  }

  /** Cancelling twice: the second call is refused, naming the status the
      first one wrote. */
  lemma CancelTwice(s: Store, id: Id)
    requires CancelOrder(s, id).Ok?
    ensures CancelOrder(CancelOrder(s, id).value, id) == Err(BadRequest("Cannot cancel order with status: cancelled"))
  {
    var t := CancelOrder(s, id).value;
    assert t.orders[id].status == Cancelled;
    assert CancelOrder(t, id) == Err(BadRequest("Cannot cancel order with status: " + Cancelled.Name()));
    assert "Cannot cancel order with status: " + Cancelled.Name() == "Cannot cancel order with status: cancelled";
  }

  // ---------------------------------------------------------------
  // CSV rows and the alias lookup
  // ---------------------------------------------------------------

  /** One data row as the CSV reader yields it: the items of the row's
      dict, header names paired with the row's cells in header order
      (`None` where the row is shorter than the header), and whether the
      row has cells beyond the header, which the reader files under the key
      `None`. Being a dict's items, the names are distinct: a header name
      repeated verbatim has already been merged into one entry, at the
      position of its first occurrence and holding its last cell. */
  datatype CsvRow = CsvRow(cells: seq<(string, Option<string>)>, overflow: bool)

  /** `k.lower().strip()`. */
  function NormalizeHeader(h: string): string {
    Strip(Lower(h))
  }

  /** `row_lower`: the row with every header lower-cased and stripped. */
  function RowLower(cells: seq<(string, Option<string>)>): (r: seq<(string, Option<string>)>)
    ensures |r| == |cells|
    ensures forall i :: 0 <= i < |cells| ==> r[i] == (NormalizeHeader(cells[i].0), cells[i].1)
  {
    if cells == [] then [] else [(NormalizeHeader(cells[0].0), cells[0].1)] + RowLower(cells[1..])
  }

  /** The value under `key` in a row of normalised headers. When several
      headers normalise alike, the dictionary keeps the last one's value. */
  function Lookup(row: seq<(string, Option<string>)>, key: string): Option<Option<string>> {
    if row == [] then None
    else
      var rest := Lookup(row[1..], key);
      if rest.Some? then rest
      else if row[0].0 == key then Some(row[0].1)
      else None
  }

  /** The lookup finds a value exactly when some header is the key, and
      then it is the cell of the last such header. */
  lemma {:induction false} LookupLast(row: seq<(string, Option<string>)>, key: string)
    ensures (forall i :: 0 <= i < |row| ==> row[i].0 != key) <==> Lookup(row, key).None?
    ensures forall i :: 0 <= i < |row| && row[i].0 == key && (forall j :: i < j < |row| ==> row[j].0 != key) ==>
      Lookup(row, key) == Some(row[i].1)
  {
    if row != [] {
      LookupLast(row[1..], key);
      assert forall i :: 1 <= i < |row| ==> row[1..][i - 1] == row[i];
    }
  }

  /** The first alias, in list order, that the row has a header for gives
      the value; `None` when there is none. A header present with no cell
      gives `None` too, without trying later aliases. Every alias of the
      upload is written in lower case, so `alias.lower()` is the alias. */
  function FindIn(row: seq<(string, Option<string>)>, aliases: seq<string>): Option<string> {
    if aliases == [] then None
    else
      match Lookup(row, aliases[0])
      case Some(v) => v
      case None => FindIn(row, aliases[1..])
  }

  /** `find_field`. */
  function FindField(cells: seq<(string, Option<string>)>, aliases: seq<string>): Option<string> {
    FindIn(RowLower(cells), aliases)
  }

  /** `aliases[k]` is the first alias the row has a header for. */
  predicate FirstAlias(row: seq<(string, Option<string>)>, aliases: seq<string>, k: int) {
    && 0 <= k < |aliases|
    && Lookup(row, aliases[k]).Some?
    && forall j :: 0 <= j < k ==> Lookup(row, aliases[j]).None?
  }

  /** The alias order decides: the first alias with a header gives the
      value, and with no alias present there is none. */
  lemma {:induction false} FindInFirst(row: seq<(string, Option<string>)>, aliases: seq<string>)
    ensures (forall k :: 0 <= k < |aliases| ==> Lookup(row, aliases[k]).None?) ==> FindIn(row, aliases).None?
    ensures forall k :: FirstAlias(row, aliases, k) ==> FindIn(row, aliases) == Lookup(row, aliases[k]).value
  {
    if aliases != [] {
      var rest := aliases[1..];
      FindInFirst(row, rest);
      forall k | FirstAlias(row, aliases, k)
        ensures FindIn(row, aliases) == Lookup(row, aliases[k]).value
      {
        if k > 0 {
          assert rest[k - 1] == aliases[k];
          forall j | 0 <= j < k - 1
            ensures Lookup(row, rest[j]).None?
          {
            assert rest[j] == aliases[j + 1];
          }
          assert FirstAlias(row, rest, k - 1);
        }
      }
      if forall k :: 0 <= k < |aliases| ==> Lookup(row, aliases[k]).None? {
        forall k | 0 <= k < |rest|
          ensures Lookup(row, rest[k]).None?
        {
          assert rest[k] == aliases[k + 1];
        }
      }
    }
  }

  // ---------------------------------------------------------------
  // One CSV row
  // ---------------------------------------------------------------

  /** How an optional column's value is coerced. */
  datatype Kind = TextKind | FlagKind | IntKind | NumKind

  /** `int(value)`, `float(value)` and the store's cast of a date column,
      as partial functions: `None` where Python or the store rejects the
      text. */
  datatype Parsers = Parsers(toInt: string -> Option<int>, toFloat: string -> Option<real>, toDate: string -> Option<Date>)

  const NameAliases: seq<string> := ["customer_name", "customer name", "name", "recipient_name", "recipient name"]
  const PhoneAliases: seq<string> := ["customer_phone", "customer phone", "phone", "mobile", "contact"]
  const AddressAliases: seq<string> := ["delivery_address", "delivery address", "address", "drop_address", "drop address"]
  const ProductAliases: seq<string> := ["product_description", "product description", "product", "item", "items", "description"]

  const CityAliases: seq<string> := ["delivery_city", "city"]
  const PostalAliases: seq<string> := ["delivery_postal_code", "postal_code", "pincode", "zip"]
  const PackageAliases: seq<string> := ["package_count", "packages", "qty", "quantity"]
  const WeightAliases: seq<string> := ["total_weight_kg", "weight", "weight_kg"]
  const VolumeAliases: seq<string> := ["total_volume_cft", "volume", "volume_cft"]
  const CodAliases: seq<string> := ["is_cod", "cod", "payment_mode"]
  const CodAmountAliases: seq<string> := ["cod_amount", "cod_value"]
  const ValueAliases: seq<string> := ["declared_value", "value", "order_value"]
  const PriorityAliases: seq<string> := ["priority"]
  const DateAliases: seq<string> := ["scheduled_date", "delivery_date", "date"]

  const EmailAliases: seq<string> := ["customer_email", "customer email", "email"]
  const AltPhoneAliases: seq<string> := ["customer_alt_phone", "alt_phone", "alternate phone"]
  const StateAliases: seq<string> := ["delivery_state", "state"]
  const SellerAliases: seq<string> := ["seller_name", "seller", "vendor"]
  const SellerRefAliases: seq<string> := ["seller_order_ref", "order_ref", "awb", "reference", "order_id"]
  const MarketplaceAliases: seq<string> := ["marketplace", "channel", "source_marketplace"]
  const SkuAliases: seq<string> := ["product_sku", "sku"]
  const CategoryAliases: seq<string> := ["product_category", "category"]
  const SlotAliases: seq<string> := ["delivery_slot", "slot", "time_slot"]

  /** The optional columns the core only copies as text. */
  const TextColumns: seq<(string, seq<string>)> := [
    ("customer_email", EmailAliases),
    ("customer_alt_phone", AltPhoneAliases),
    ("delivery_state", StateAliases),
    ("seller_name", SellerAliases),
    ("seller_order_ref", SellerRefAliases),
    ("marketplace", MarketplaceAliases),
    ("product_sku", SkuAliases),
    ("product_category", CategoryAliases),
    ("delivery_slot", SlotAliases)]

  /** The optional columns in the order the upload visits them, with the
      coercion each gets. */
  const OptionalColumns: seq<(string, seq<string>, Kind)> := [
    ("customer_email", EmailAliases, TextKind),
    ("customer_alt_phone", AltPhoneAliases, TextKind),
    ("delivery_city", CityAliases, TextKind),
    ("delivery_state", StateAliases, TextKind),
    ("delivery_postal_code", PostalAliases, TextKind),
    ("seller_name", SellerAliases, TextKind),
    ("seller_order_ref", SellerRefAliases, TextKind),
    ("marketplace", MarketplaceAliases, TextKind),
    ("product_sku", SkuAliases, TextKind),
    ("product_category", CategoryAliases, TextKind),
    ("package_count", PackageAliases, IntKind),
    ("total_weight_kg", WeightAliases, NumKind),
    ("total_volume_cft", VolumeAliases, NumKind),
    ("is_cod", CodAliases, FlagKind),
    ("cod_amount", CodAmountAliases, NumKind),
    ("declared_value", ValueAliases, NumKind),
    ("priority", PriorityAliases, TextKind),
    ("scheduled_date", DateAliases, TextKind),
    ("delivery_slot", SlotAliases, TextKind)]

  /** The lower-cased values that make `is_cod` true. */
  const CodWords: seq<string> := ["true", "yes", "1", "cod"]

  /** `if not value`: a required field is missing when absent or empty;
      a whitespace-only value passes. */
  predicate Missing(v: Option<string>) {
    v.None? || v.value == ""
  }

  /** `if value and value.strip()`: an optional value is used only when it
      has a non-blank character. */
  predicate Present(v: Option<string>) {
    v.Some? && Strip(v.value) != ""
  }

  /** The error coercing an optional column raises, if any: only the
      integer and number columns can fail, on the stripped value. */
  function CoerceError(cells: seq<(string, Option<string>)>, col: (string, seq<string>, Kind), p: Parsers): Option<RowError> {
    var v := FindField(cells, col.1);
    if !Present(v) then None
    else if col.2 == IntKind && p.toInt(Strip(v.value)).None? then Some(NotAnInteger(Strip(v.value)))
    else if col.2 == NumKind && p.toFloat(Strip(v.value)).None? then Some(NotANumber(Strip(v.value)))
    else None
  }

  /** The loop over the optional columns raises at the first column whose
      coercion fails. */
  function FirstFailure(cells: seq<(string, Option<string>)>, cols: seq<(string, seq<string>, Kind)>, p: Parsers): Option<RowError> {
    if cols == [] then None
    else if CoerceError(cells, cols[0], p).Some? then CoerceError(cells, cols[0], p)
    else FirstFailure(cells, cols[1..], p)
  }

  /** `cols[k]` is the first column whose coercion fails. */
  predicate FirstFailing(cells: seq<(string, Option<string>)>, cols: seq<(string, seq<string>, Kind)>, p: Parsers, k: int) {
    && 0 <= k < |cols|
    && CoerceError(cells, cols[k], p).Some?
    && forall j :: 0 <= j < k ==> CoerceError(cells, cols[j], p).None?
  }

  /** The loop fails exactly when some column fails, and with the error of
      the first one that does. */
  lemma {:induction false} FirstFailureFirst(cells: seq<(string, Option<string>)>, cols: seq<(string, seq<string>, Kind)>, p: Parsers)
    ensures FirstFailure(cells, cols, p).None? <==> forall k :: 0 <= k < |cols| ==> CoerceError(cells, cols[k], p).None?
    ensures forall k :: FirstFailing(cells, cols, p, k) ==> FirstFailure(cells, cols, p) == CoerceError(cells, cols[k], p)
  {
    if cols != [] {
      var rest := cols[1..];
      FirstFailureFirst(cells, rest, p);
      forall k | FirstFailing(cells, cols, p, k)
        ensures FirstFailure(cells, cols, p) == CoerceError(cells, cols[k], p)
      {
        if k > 0 {
          assert rest[k - 1] == cols[k];
          forall j | 0 <= j < k - 1
            ensures CoerceError(cells, rest[j], p).None?
          {
            assert rest[j] == cols[j + 1];
          }
          assert FirstFailing(cells, rest, p, k - 1);
        }
      }
      assert forall k :: 1 <= k < |cols| ==> rest[k - 1] == cols[k];
    }
  }

  /** The stripped value of an optional column, when it is used. */
  function OptText(cells: seq<(string, Option<string>)>, aliases: seq<string>): Option<string> {
    var v := FindField(cells, aliases);
    if Present(v) then Some(Strip(v.value)) else None
  }

  /** `value.lower() in ("true", "yes", "1", "cod")` on a used value; an
      unused column leaves the flag at its default, false. */
  function CodFlag(cells: seq<(string, Option<string>)>): bool {
    var v := OptText(cells, CodAliases);
    v.Some? && Lower(v.value) in CodWords
  }

  function OptInt(cells: seq<(string, Option<string>)>, aliases: seq<string>, p: Parsers, default: int): int {
    match OptText(cells, aliases)
    case None => default
    case Some(t) => p.toInt(t).GetOr(default)
  }

  function OptNum(cells: seq<(string, Option<string>)>, aliases: seq<string>, p: Parsers): Option<real> {
    match OptText(cells, aliases)
    case None => None
    case Some(t) => p.toFloat(t)
  }

  /** The free-text columns a row sets. */
  function TextMap(cells: seq<(string, Option<string>)>, cols: seq<(string, seq<string>)>): TextFields {
    if cols == [] then map[]
    else
      var m := TextMap(cells, cols[1..]);
      match OptText(cells, cols[0].1)
      case None => m
      case Some(t) => m[cols[0].0 := t]
  }

  /** The `delivery_orders` column defaults a row receives for the keys it
      leaves out of the insert. The table's schema is not part of this
      model: these values are assumed, taken equal to the defaults of the
      creation request; the other omitted columns are assumed null, and
      `is_cod` false. */
  const TableDefaultPackageCount: int := 1
  const TableDefaultCodAmount: real := 0.0
  const TableDefaultPriority: string := "normal"

  /** The creation request a row amounts to once its fields are found;
      columns the row leaves unset take the assumed table defaults. */
  function RowRequest(cells: seq<(string, Option<string>)>, hubId: Id, p: Parsers, date: Option<Date>): OrderCreate
    requires !Missing(FindField(cells, NameAliases)) && !Missing(FindField(cells, PhoneAliases))
    requires !Missing(FindField(cells, AddressAliases)) && !Missing(FindField(cells, ProductAliases))
  {
    OrderCreate(
      hubId, "csv",
      Strip(FindField(cells, NameAliases).value),
      Strip(FindField(cells, PhoneAliases).value),
      Strip(FindField(cells, AddressAliases).value),
      Strip(FindField(cells, ProductAliases).value),
      OptText(cells, CityAliases), OptText(cells, PostalAliases),
      TextMap(cells, TextColumns),
      OptInt(cells, PackageAliases, p, TableDefaultPackageCount),
      OptNum(cells, WeightAliases, p), OptNum(cells, VolumeAliases, p),
      CodFlag(cells),
      if OptText(cells, CodAmountAliases).Some? then OptNum(cells, CodAmountAliases, p) else Some(TableDefaultCodAmount),
      OptNum(cells, ValueAliases, p),
      OptText(cells, PriorityAliases).GetOr(TableDefaultPriority),
      date)
  }

  /** One iteration of the upload loop: the order the row inserts, or the
      one error it is logged with. The checks run in the source's order:
      a cell beyond the header, then the four required fields, then the
      optional coercions, then the store's cast of the date column. */
  function ProcessRow(row: CsvRow, hubId: Id, batchId: Id, hex8: string, p: Parsers): (r: Result<DeliveryOrder, RowError>)
    requires IsHexDraw(hex8)
    ensures row.overflow ==> r == Err(HeaderlessCell)
    ensures !row.overflow && Missing(FindField(row.cells, NameAliases)) ==> r == Err(MissingField("customer_name"))
    ensures !row.overflow && !Missing(FindField(row.cells, NameAliases)) && Missing(FindField(row.cells, PhoneAliases)) ==>
      r == Err(MissingField("customer_phone"))
    ensures (!row.overflow && !Missing(FindField(row.cells, NameAliases)) && !Missing(FindField(row.cells, PhoneAliases))
      && Missing(FindField(row.cells, AddressAliases))) ==> r == Err(MissingField("delivery_address"))
    ensures (!row.overflow && !Missing(FindField(row.cells, NameAliases)) && !Missing(FindField(row.cells, PhoneAliases))
      && !Missing(FindField(row.cells, AddressAliases)) && Missing(FindField(row.cells, ProductAliases)))
      ==> r == Err(MissingField("product_description"))
    ensures r.Ok? <==>
      && !row.overflow
      && !Missing(FindField(row.cells, NameAliases)) && !Missing(FindField(row.cells, PhoneAliases))
      && !Missing(FindField(row.cells, AddressAliases)) && !Missing(FindField(row.cells, ProductAliases))
      && FirstFailure(row.cells, OptionalColumns, p).None?
      && (OptText(row.cells, DateAliases).None? || p.toDate(OptText(row.cells, DateAliases).value).Some?)
    ensures (&& !row.overflow
      && !Missing(FindField(row.cells, NameAliases)) && !Missing(FindField(row.cells, PhoneAliases))
      && !Missing(FindField(row.cells, AddressAliases)) && !Missing(FindField(row.cells, ProductAliases))
      && FirstFailure(row.cells, OptionalColumns, p).None?
      && OptText(row.cells, DateAliases).Some? && p.toDate(OptText(row.cells, DateAliases).value).None?)
      ==> r == Err(RejectedByStore("scheduled_date"))
    ensures r.Ok? ==> r.value.hubId == hubId && r.value.source == "csv" && r.value.importBatchId == Some(batchId)
    ensures r.Ok? ==> IsOrderNumber(r.value.orderNumber) && r.value.status == Pending && r.value.routeId.None?
    ensures r.Ok? ==> r.value.customerName == Strip(FindField(row.cells, NameAliases).value)
    ensures r.Ok? ==> r.value.isCod == CodFlag(row.cells)
  {
    if row.overflow then Err(HeaderlessCell)
    else if Missing(FindField(row.cells, NameAliases)) then Err(MissingField("customer_name"))
    else if Missing(FindField(row.cells, PhoneAliases)) then Err(MissingField("customer_phone"))
    else if Missing(FindField(row.cells, AddressAliases)) then Err(MissingField("delivery_address"))
    else if Missing(FindField(row.cells, ProductAliases)) then Err(MissingField("product_description"))
    else match FirstFailure(row.cells, OptionalColumns, p)
      case Some(e) => Err(e)
      case None =>
        var date := OptText(row.cells, DateAliases);
        if date.Some? && p.toDate(date.value).None? then Err(RejectedByStore("scheduled_date"))
        else Ok(NewDeliveryOrder(RowRequest(row.cells, hubId, p, DateOf(row.cells, p)), OrderNumber(hex8), Some(batchId)))
  }

  /** The date the store reads from a used `scheduled_date` value. */
  function DateOf(cells: seq<(string, Option<string>)>, p: Parsers): Option<Date> {
    match OptText(cells, DateAliases)
    case None => None
    case Some(t) => p.toDate(t)
  }

  /** An inserted row is the row's creation request with the generated
      number, after every optional column coerced. */
  lemma {:induction false} RowAccepted(row: CsvRow, hubId: Id, batchId: Id, hex8: string, p: Parsers)
    requires IsHexDraw(hex8) && ProcessRow(row, hubId, batchId, hex8, p).Ok?
    ensures !Missing(FindField(row.cells, NameAliases)) && !Missing(FindField(row.cells, PhoneAliases))
    ensures !Missing(FindField(row.cells, AddressAliases)) && !Missing(FindField(row.cells, ProductAliases))
    ensures FirstFailure(row.cells, OptionalColumns, p).None?
    ensures OptText(row.cells, DateAliases).Some? ==> DateOf(row.cells, p).Some?
    ensures ProcessRow(row, hubId, batchId, hex8, p).value
      == NewDeliveryOrder(RowRequest(row.cells, hubId, p, DateOf(row.cells, p)), OrderNumber(hex8), Some(batchId))
  {
  }

  /** With no failing column, column `k` does not fail. */
  lemma {:induction false} NoFailureAt(cells: seq<(string, Option<string>)>, cols: seq<(string, seq<string>, Kind)>, p: Parsers, k: nat)
    requires FirstFailure(cells, cols, p).None? && k < |cols|
    ensures CoerceError(cells, cols[k], p).None?
  {
    FirstFailureFirst(cells, cols, p);
  }

  /** A row that passes the required checks but whose optional column
      `OptionalColumns[k]` is the first not to coerce fails with that
      column's error: a bad integer or number fails only its own row. */
  lemma RowFailsAtFirstBadColumn(row: CsvRow, hubId: Id, batchId: Id, hex8: string, p: Parsers, k: nat)
    requires IsHexDraw(hex8) && !row.overflow
    requires !Missing(FindField(row.cells, NameAliases)) && !Missing(FindField(row.cells, PhoneAliases))
    requires !Missing(FindField(row.cells, AddressAliases)) && !Missing(FindField(row.cells, ProductAliases))
    requires FirstFailing(row.cells, OptionalColumns, p, k)
    ensures ProcessRow(row, hubId, batchId, hex8, p) == Err(CoerceError(row.cells, OptionalColumns[k], p).value)
  {
    FirstFailureFirst(row.cells, OptionalColumns, p);
  }

  /** The coerced columns of an inserted row: a used integer or number
      value parsed (it must have, or the row would have failed); a blank or
      absent one left out of the insert, so the column keeps the table
      default (the assumed `TableDefault` values). */
  lemma RowOptionalValues(row: CsvRow, hubId: Id, batchId: Id, hex8: string, p: Parsers)
    requires IsHexDraw(hex8) && ProcessRow(row, hubId, batchId, hex8, p).Ok?
    ensures OptText(row.cells, PackageAliases).None? ==> ProcessRow(row, hubId, batchId, hex8, p).value.packageCount == TableDefaultPackageCount
    ensures OptText(row.cells, PackageAliases).Some? ==>
      p.toInt(OptText(row.cells, PackageAliases).value) == Some(ProcessRow(row, hubId, batchId, hex8, p).value.packageCount)
    ensures OptText(row.cells, WeightAliases).None? ==> ProcessRow(row, hubId, batchId, hex8, p).value.totalWeightKg.None?
    ensures OptText(row.cells, WeightAliases).Some? ==>
      && ProcessRow(row, hubId, batchId, hex8, p).value.totalWeightKg.Some?
      && p.toFloat(OptText(row.cells, WeightAliases).value) == ProcessRow(row, hubId, batchId, hex8, p).value.totalWeightKg
    ensures OptText(row.cells, CodAmountAliases).None? ==> ProcessRow(row, hubId, batchId, hex8, p).value.codAmount == Some(TableDefaultCodAmount)
    ensures OptText(row.cells, CodAmountAliases).Some? ==>
      && ProcessRow(row, hubId, batchId, hex8, p).value.codAmount.Some?
      && p.toFloat(OptText(row.cells, CodAmountAliases).value) == ProcessRow(row, hubId, batchId, hex8, p).value.codAmount
    ensures ProcessRow(row, hubId, batchId, hex8, p).value.deliveryCity == OptText(row.cells, CityAliases)
    ensures ProcessRow(row, hubId, batchId, hex8, p).value.priority == OptText(row.cells, PriorityAliases).GetOr(TableDefaultPriority)
    ensures OptText(row.cells, DateAliases).Some? <==> ProcessRow(row, hubId, batchId, hex8, p).value.scheduledDate.Some?
    ensures OptText(row.cells, DateAliases).Some? ==>
      p.toDate(OptText(row.cells, DateAliases).value) == ProcessRow(row, hubId, batchId, hex8, p).value.scheduledDate
  {
    RowAccepted(row, hubId, batchId, hex8, p);
    RowColumnsParse(row, hubId, batchId, hex8, p);
  }

  /** In an inserted row every used integer and number column parsed. */
  lemma RowColumnsParse(row: CsvRow, hubId: Id, batchId: Id, hex8: string, p: Parsers)
    requires IsHexDraw(hex8) && ProcessRow(row, hubId, batchId, hex8, p).Ok?
    ensures OptText(row.cells, PackageAliases).Some? ==> p.toInt(OptText(row.cells, PackageAliases).value).Some?
    ensures OptText(row.cells, WeightAliases).Some? ==> p.toFloat(OptText(row.cells, WeightAliases).value).Some?
    ensures OptText(row.cells, CodAmountAliases).Some? ==> p.toFloat(OptText(row.cells, CodAmountAliases).value).Some?
  {
    assert FirstFailure(row.cells, OptionalColumns, p).None?;
    NumericColumns();
    ColumnParses(row.cells, p, 10);
    ColumnParses(row.cells, p, 11);
    ColumnParses(row.cells, p, 14);
  }

  /** Where the package count, weight and COD amount sit among the
      optional columns. */
  lemma NumericColumns()
    ensures |OptionalColumns| == 19
    ensures OptionalColumns[10] == ("package_count", PackageAliases, IntKind)
    ensures OptionalColumns[11] == ("total_weight_kg", WeightAliases, NumKind)
    ensures OptionalColumns[14] == ("cod_amount", CodAmountAliases, NumKind)
  {
  }

  /** With no failing column, the `k`-th optional column, when used and
      an integer or number column, parses. */
  lemma {:induction false} ColumnParses(cells: seq<(string, Option<string>)>, p: Parsers, k: nat)
    requires FirstFailure(cells, OptionalColumns, p).None? && k < |OptionalColumns|
    ensures OptionalColumns[k].2 == IntKind && OptText(cells, OptionalColumns[k].1).Some? ==>
      p.toInt(OptText(cells, OptionalColumns[k].1).value).Some?
    ensures OptionalColumns[k].2 == NumKind && OptText(cells, OptionalColumns[k].1).Some? ==>
      p.toFloat(OptText(cells, OptionalColumns[k].1).value).Some?
  {
    NoFailureAt(cells, OptionalColumns, p, k);
  }



  // ---------------------------------------------------------------
  // upload_csv
  // ---------------------------------------------------------------

  /** The outcome of every data row, the `i`-th with the `i`-th draw. */
  function Outcomes(rows: seq<CsvRow>, hubId: Id, batchId: Id, hexes: seq<string>, p: Parsers): (outs: seq<Result<DeliveryOrder, RowError>>)
    requires |hexes| == |rows| && forall i :: 0 <= i < |rows| ==> IsHexDraw(hexes[i])
    ensures |outs| == |rows|
    ensures forall i :: 0 <= i < |rows| ==> outs[i] == ProcessRow(rows[i], hubId, batchId, hexes[i], p)
  {
    seq(|rows|, i requires 0 <= i < |rows| => ProcessRow(rows[i], hubId, batchId, hexes[i], p))
  }

  /** The orders of the rows that succeeded, in row order. */
  function Accepted(outs: seq<Result<DeliveryOrder, RowError>>): seq<DeliveryOrder> {
    if outs == [] then []
    else if outs[0].Ok? then [outs[0].value] + Accepted(outs[1..])
    else Accepted(outs[1..])
  }

  /** `errors`: one entry per failed row, numbered from `first`, in row
      order. */
  function ErrorLog(outs: seq<Result<DeliveryOrder, RowError>>, first: nat): seq<ImportError> {
    if outs == [] then []
    else if outs[0].Err? then [ImportError(first, outs[0].error)] + ErrorLog(outs[1..], first + 1)
    else ErrorLog(outs[1..], first + 1)
  }

  /** Every row is counted once: as processed or as failed. */
  lemma {:induction false} AcceptedPlusErrors(outs: seq<Result<DeliveryOrder, RowError>>, first: nat)
    ensures |Accepted(outs)| + |ErrorLog(outs, first)| == |outs|
  {
    if outs != [] {
      AcceptedPlusErrors(outs[1..], first + 1);
    }
  }

  /** The accepted orders are exactly the values of the rows that
      succeeded. */
  lemma {:induction false} AcceptedRows(outs: seq<Result<DeliveryOrder, RowError>>)
    ensures forall k :: 0 <= k < |Accepted(outs)| ==> Ok(Accepted(outs)[k]) in outs
    ensures forall i :: 0 <= i < |outs| && outs[i].Ok? ==> outs[i].value in Accepted(outs)
  {
    if outs != [] {
      AcceptedRows(outs[1..]);
      assert forall i :: 1 <= i < |outs| ==> outs[1..][i - 1] == outs[i];
      if outs[0].Ok? {
        var acc := Accepted(outs);
        assert acc == [outs[0].value] + Accepted(outs[1..]);
        forall k | 1 <= k < |acc|
          ensures acc[k] == Accepted(outs[1..])[k - 1]
        {
        }
      }
    }
  }

  /** The log names failed rows only, each with its own error. */
  lemma {:induction false} ErrorLogRows(outs: seq<Result<DeliveryOrder, RowError>>, first: nat)
    ensures forall k :: 0 <= k < |ErrorLog(outs, first)| ==>
      && first <= ErrorLog(outs, first)[k].row < first + |outs|
      && outs[ErrorLog(outs, first)[k].row - first] == Err(ErrorLog(outs, first)[k].error)
  {
    if outs != [] {
      var rest := ErrorLog(outs[1..], first + 1);
      ErrorLogRows(outs[1..], first + 1);
      var log := ErrorLog(outs, first);
      forall k | 0 <= k < |log|
        ensures first <= log[k].row < first + |outs| && outs[log[k].row - first] == Err(log[k].error)
      {
        if outs[0].Err? {
          assert log == [ImportError(first, outs[0].error)] + rest;
          if k > 0 {
            assert log[k] == rest[k - 1];
            assert outs[log[k].row - first] == outs[1..][log[k].row - (first + 1)];
          }
        } else {
          assert log == rest;
          assert outs[log[k].row - first] == outs[1..][log[k].row - (first + 1)];
        }
      }
    }
  }

  /** The entries' rows ascend strictly. */
  ghost predicate RowsAscend(log: seq<ImportError>) {
    forall k, l :: 0 <= k < l < |log| ==> log[k].row < log[l].row
  }

  /** The log lists its rows in strictly ascending order. */
  lemma {:induction false} ErrorLogAscend(outs: seq<Result<DeliveryOrder, RowError>>, first: nat)
    ensures RowsAscend(ErrorLog(outs, first))
  {
    if outs != [] {
      var rest := ErrorLog(outs[1..], first + 1);
      ErrorLogAscend(outs[1..], first + 1);
      if outs[0].Err? {
        ErrorLogRows(outs[1..], first + 1);
        assert forall k :: 0 <= k < |rest| ==> first < rest[k].row;
        PrependAscend(ImportError(first, outs[0].error), rest);
        assert ErrorLog(outs, first) == [ImportError(first, outs[0].error)] + rest;
      } else {
        assert ErrorLog(outs, first) == rest;
      }
    }
  }

  /** An entry below every row of an ascending log keeps it ascending. */
  lemma PrependAscend(e: ImportError, rest: seq<ImportError>)
    requires RowsAscend(rest)
    requires forall k :: 0 <= k < |rest| ==> e.row < rest[k].row
    ensures RowsAscend([e] + rest)
  {
    var log := [e] + rest;
    forall k, l | 0 <= k < l < |log|
      ensures log[k].row < log[l].row
    {
      assert log[l] == rest[l - 1];
      if k > 0 {
        assert log[k] == rest[k - 1];
      }
    }
  }

  /** The log names every failed row. */
  lemma {:induction false} ErrorLogCovers(outs: seq<Result<DeliveryOrder, RowError>>, first: nat)
    ensures forall i :: 0 <= i < |outs| && outs[i].Err? ==> ImportError(first + i, outs[i].error) in ErrorLog(outs, first)
  {
    if outs != [] {
      var rest := ErrorLog(outs[1..], first + 1);
      ErrorLogCovers(outs[1..], first + 1);
      var log := ErrorLog(outs, first);
      assert outs[0].Err? ==> log == [ImportError(first, outs[0].error)] + rest;
      assert outs[0].Ok? ==> log == rest;
      forall i | 0 <= i < |outs| && outs[i].Err?
        ensures ImportError(first + i, outs[i].error) in log
      {
        if i > 0 {
          assert outs[1..][i - 1] == outs[i];
          assert ImportError(first + 1 + (i - 1), outs[1..][i - 1].error) in rest;
        }
      }
    }
  }

  /** The accepted orders inserted in turn from id `next` on. */
  function InsertOrders(orders: map<Id, DeliveryOrder>, next: Id, acc: seq<DeliveryOrder>): map<Id, DeliveryOrder>
    decreases |acc|
  {
    if acc == [] then orders else InsertOrders(orders[next := acc[0]], next + 1, acc[1..])
  }

  /** The table gains exactly the ids `next .. next + |acc| - 1`, holding
      the accepted orders in row order; every existing row stays. */
  lemma {:induction false} InsertOrdersRows(orders: map<Id, DeliveryOrder>, next: Id, acc: seq<DeliveryOrder>)
    requires Below(orders.Keys, next)
    ensures forall k :: k in InsertOrders(orders, next, acc) <==> k in orders || next <= k < next + |acc|
    ensures forall k :: k in orders ==> InsertOrders(orders, next, acc)[k] == orders[k]
    ensures forall i :: 0 <= i < |acc| ==> InsertOrders(orders, next, acc)[next + i] == acc[i]
    decreases |acc|
  {
    if acc != [] {
      InsertOrdersRows(orders[next := acc[0]], next + 1, acc[1..]);
      forall i | 1 <= i < |acc|
        ensures InsertOrders(orders, next, acc)[next + i] == acc[i]
      {
        assert acc[1..][i - 1] == acc[i];
      }
    }
  }

  /** `"completed" if failed == 0 else ("completed" if processed > 0 else "failed")`. */
  function BatchStatus(processed: nat, failed: nat): string {
    if failed == 0 then "completed" else if processed > 0 then "completed" else "failed"
  }

  /** A batch fails only when some row failed and none was processed; so
      an empty file completes. */
  lemma BatchStatusFailed(processed: nat, failed: nat)
    ensures BatchStatus(processed, failed) == "failed" <==> failed > 0 && processed == 0
    ensures BatchStatus(processed, failed) != "failed" ==> BatchStatus(processed, failed) == "completed"
  {
  }

  /** The reply of an upload; `errors` holds at most the first 20 entries
      of the log. */
  /** The number of error entries the reply carries. */
  function Shown(n: nat): nat {
    if n < 20 then n else 20
  }

  datatype UploadReply = UploadReply(importId: Id, totalRecords: nat, processed: nat, failed: nat, errors: seq<ImportError>)

  /** `POST /hub-orders/upload-csv`. A file whose name does not end in
      `.csv` is refused before anything is written. Otherwise a batch row
      is inserted, every data row is processed in turn (the `i`-th with
      the `i`-th draw), the accepted orders are inserted, and the batch
      gets its counters, error log, status and completion time. */
  function UploadCsv(s: Store, caller: Caller, hubId: Id, fileName: Option<string>, rows: seq<CsvRow>,
                     hexes: seq<string>, p: Parsers, now: Time): (r: Result<(UploadReply, Store), Error>)
    requires Valid(s)
    requires |hexes| == |rows| && forall i :: 0 <= i < |rows| ==> IsHexDraw(hexes[i])
    ensures r.Err? <==> fileName.None? || !EndsWith(fileName.value, ".csv")
    ensures r.Err? ==> r.error == BadRequest("File must be a CSV")
  {
    if fileName.None? || fileName.value == "" || !EndsWith(fileName.value, ".csv") then
      Err(BadRequest("File must be a CSV"))
    else
      var outs := Outcomes(rows, hubId, s.nextId, hexes, p);
      var batch := FinishedBatch(hubId, caller.id, fileName.value, |rows|, outs, now);
      Ok((UploadReply(s.nextId, |rows|, batch.processed, batch.failed, ErrorLog(outs, 1)[..Shown(batch.failed)]),
          UploadStore(s, batch, Accepted(outs))))
  }

  /** The batch row as the upload leaves it. */
  function FinishedBatch(hubId: Id, uploadedBy: UserId, fileName: string, total: nat,
                         outs: seq<Result<DeliveryOrder, RowError>>, now: Time): ImportBatch
  {
    NewImportBatch(hubId, uploadedBy, fileName).(
      totalRecords := total, processed := |Accepted(outs)|, failed := |ErrorLog(outs, 1)|,
      errorLog := if ErrorLog(outs, 1) == [] then None else Some(ErrorLog(outs, 1)),
      status := BatchStatus(|Accepted(outs)|, |ErrorLog(outs, 1)|), completedAt := Some(now))
  }

  /** The store after an upload: the batch under the next id, the accepted
      orders under the ids after it. */
  function UploadStore(s: Store, batch: ImportBatch, acc: seq<DeliveryOrder>): Store {
    s.(imports := s.imports[s.nextId := batch],
       orders := InsertOrders(s.orders, s.nextId + 1, acc),
       nextId := s.nextId + 1 + |acc|)
  }

  /** A successful upload in terms of the row outcomes. */
  lemma UploadUnfold(s: Store, caller: Caller, hubId: Id, fileName: Option<string>, rows: seq<CsvRow>, hexes: seq<string>, p: Parsers, now: Time)
    requires Valid(s)
    requires |hexes| == |rows| && forall i :: 0 <= i < |rows| ==> IsHexDraw(hexes[i])
    requires UploadCsv(s, caller, hubId, fileName, rows, hexes, p, now).Ok?
    ensures fileName.Some?
    ensures UploadCsv(s, caller, hubId, fileName, rows, hexes, p, now).value.0 == UploadReply(s.nextId, |rows|, |Accepted(Outcomes(rows, hubId, s.nextId, hexes, p))|, |ErrorLog(Outcomes(rows, hubId, s.nextId, hexes, p), 1)|,
      ErrorLog(Outcomes(rows, hubId, s.nextId, hexes, p), 1)[..Shown(|ErrorLog(Outcomes(rows, hubId, s.nextId, hexes, p), 1)|)])
    ensures UploadCsv(s, caller, hubId, fileName, rows, hexes, p, now).value.1 == UploadStore(s, FinishedBatch(hubId, caller.id, fileName.value, |rows|, Outcomes(rows, hubId, s.nextId, hexes, p), now), Accepted(Outcomes(rows, hubId, s.nextId, hexes, p)))
  {
  }

  /** The counters: every data row is counted once, as processed or
      failed, and the new batch row records the same counts. */
  lemma UploadCounts(s: Store, caller: Caller, hubId: Id, fileName: Option<string>, rows: seq<CsvRow>, hexes: seq<string>, p: Parsers, now: Time)
    requires Valid(s)
    requires |hexes| == |rows| && forall i :: 0 <= i < |rows| ==> IsHexDraw(hexes[i])
    requires UploadCsv(s, caller, hubId, fileName, rows, hexes, p, now).Ok?
    ensures UploadCsv(s, caller, hubId, fileName, rows, hexes, p, now).value.0.processed + UploadCsv(s, caller, hubId, fileName, rows, hexes, p, now).value.0.failed == UploadCsv(s, caller, hubId, fileName, rows, hexes, p, now).value.0.totalRecords == |rows|
    ensures UploadCsv(s, caller, hubId, fileName, rows, hexes, p, now).value.0.importId !in s.imports && UploadCsv(s, caller, hubId, fileName, rows, hexes, p, now).value.0.importId in UploadCsv(s, caller, hubId, fileName, rows, hexes, p, now).value.1.imports
    ensures UploadCsv(s, caller, hubId, fileName, rows, hexes, p, now).value.1.imports[UploadCsv(s, caller, hubId, fileName, rows, hexes, p, now).value.0.importId].totalRecords == |rows|
    ensures UploadCsv(s, caller, hubId, fileName, rows, hexes, p, now).value.1.imports[UploadCsv(s, caller, hubId, fileName, rows, hexes, p, now).value.0.importId].processed == UploadCsv(s, caller, hubId, fileName, rows, hexes, p, now).value.0.processed
    ensures UploadCsv(s, caller, hubId, fileName, rows, hexes, p, now).value.1.imports[UploadCsv(s, caller, hubId, fileName, rows, hexes, p, now).value.0.importId].failed == UploadCsv(s, caller, hubId, fileName, rows, hexes, p, now).value.0.failed
  {
    UploadUnfold(s, caller, hubId, fileName, rows, hexes, p, now);
    AcceptedPlusErrors(Outcomes(rows, hubId, s.nextId, hexes, p), 1);
    BatchStatusFailed(|Accepted(Outcomes(rows, hubId, s.nextId, hexes, p))|, |ErrorLog(Outcomes(rows, hubId, s.nextId, hexes, p), 1)|);
  }

  /** The batch row an upload stores: hub, uploader, source and file name,
      the completion time, an error log only when some row failed, and the
      status `failed` exactly when rows failed and none was processed; the
      reply shows the first 20 log entries. */
  lemma UploadBatchRow(s: Store, caller: Caller, hubId: Id, fileName: Option<string>, rows: seq<CsvRow>, hexes: seq<string>, p: Parsers, now: Time)
    requires Valid(s)
    requires |hexes| == |rows| && forall i :: 0 <= i < |rows| ==> IsHexDraw(hexes[i])
    requires UploadCsv(s, caller, hubId, fileName, rows, hexes, p, now).Ok?
    ensures UploadCsv(s, caller, hubId, fileName, rows, hexes, p, now).value.0.importId !in s.imports && UploadCsv(s, caller, hubId, fileName, rows, hexes, p, now).value.0.importId in UploadCsv(s, caller, hubId, fileName, rows, hexes, p, now).value.1.imports
    ensures UploadCsv(s, caller, hubId, fileName, rows, hexes, p, now).value.1.imports[UploadCsv(s, caller, hubId, fileName, rows, hexes, p, now).value.0.importId].hubId == hubId && UploadCsv(s, caller, hubId, fileName, rows, hexes, p, now).value.1.imports[UploadCsv(s, caller, hubId, fileName, rows, hexes, p, now).value.0.importId].uploadedBy == caller.id
    ensures UploadCsv(s, caller, hubId, fileName, rows, hexes, p, now).value.1.imports[UploadCsv(s, caller, hubId, fileName, rows, hexes, p, now).value.0.importId].source == "csv" && UploadCsv(s, caller, hubId, fileName, rows, hexes, p, now).value.1.imports[UploadCsv(s, caller, hubId, fileName, rows, hexes, p, now).value.0.importId].fileName == fileName
    ensures UploadCsv(s, caller, hubId, fileName, rows, hexes, p, now).value.1.imports[UploadCsv(s, caller, hubId, fileName, rows, hexes, p, now).value.0.importId].completedAt == Some(now)
    ensures UploadCsv(s, caller, hubId, fileName, rows, hexes, p, now).value.1.imports[UploadCsv(s, caller, hubId, fileName, rows, hexes, p, now).value.0.importId].status == "failed" <==> UploadCsv(s, caller, hubId, fileName, rows, hexes, p, now).value.0.failed > 0 && UploadCsv(s, caller, hubId, fileName, rows, hexes, p, now).value.0.processed == 0
    ensures UploadCsv(s, caller, hubId, fileName, rows, hexes, p, now).value.1.imports[UploadCsv(s, caller, hubId, fileName, rows, hexes, p, now).value.0.importId].status != "failed" ==> UploadCsv(s, caller, hubId, fileName, rows, hexes, p, now).value.1.imports[UploadCsv(s, caller, hubId, fileName, rows, hexes, p, now).value.0.importId].status == "completed"
    ensures UploadCsv(s, caller, hubId, fileName, rows, hexes, p, now).value.1.imports[UploadCsv(s, caller, hubId, fileName, rows, hexes, p, now).value.0.importId].errorLog.None? <==> UploadCsv(s, caller, hubId, fileName, rows, hexes, p, now).value.0.failed == 0
    ensures UploadCsv(s, caller, hubId, fileName, rows, hexes, p, now).value.1.imports[UploadCsv(s, caller, hubId, fileName, rows, hexes, p, now).value.0.importId].errorLog.Some? ==>
      && |UploadCsv(s, caller, hubId, fileName, rows, hexes, p, now).value.1.imports[UploadCsv(s, caller, hubId, fileName, rows, hexes, p, now).value.0.importId].errorLog.value| == UploadCsv(s, caller, hubId, fileName, rows, hexes, p, now).value.0.failed
      && UploadCsv(s, caller, hubId, fileName, rows, hexes, p, now).value.0.errors == UploadCsv(s, caller, hubId, fileName, rows, hexes, p, now).value.1.imports[UploadCsv(s, caller, hubId, fileName, rows, hexes, p, now).value.0.importId].errorLog.value[..Shown(UploadCsv(s, caller, hubId, fileName, rows, hexes, p, now).value.0.failed)]
    ensures UploadCsv(s, caller, hubId, fileName, rows, hexes, p, now).value.0.failed == 0 ==> UploadCsv(s, caller, hubId, fileName, rows, hexes, p, now).value.0.errors == []
  {
    UploadUnfold(s, caller, hubId, fileName, rows, hexes, p, now);
    AcceptedPlusErrors(Outcomes(rows, hubId, s.nextId, hexes, p), 1);
    BatchStatusFailed(|Accepted(Outcomes(rows, hubId, s.nextId, hexes, p))|, |ErrorLog(Outcomes(rows, hubId, s.nextId, hexes, p), 1)|);
  }

  /** The entries of an upload's error log ascend by row. */
  lemma UploadErrorsAscend(rows: seq<CsvRow>, hubId: Id, batchId: Id, hexes: seq<string>, p: Parsers)
    requires |hexes| == |rows| && forall i :: 0 <= i < |rows| ==> IsHexDraw(hexes[i])
    ensures forall k, l :: 0 <= k < l < |ErrorLog(Outcomes(rows, hubId, batchId, hexes, p), 1)| ==>
      ErrorLog(Outcomes(rows, hubId, batchId, hexes, p), 1)[k].row < ErrorLog(Outcomes(rows, hubId, batchId, hexes, p), 1)[l].row
  {
    ErrorLogAscend(Outcomes(rows, hubId, batchId, hexes, p), 1);
  }

  /** Every row that fails has its entry, 1-based, in the error log. */
  lemma UploadErrorsCover(rows: seq<CsvRow>, hubId: Id, batchId: Id, hexes: seq<string>, p: Parsers)
    requires |hexes| == |rows| && forall i :: 0 <= i < |rows| ==> IsHexDraw(hexes[i])
    ensures forall i :: 0 <= i < |rows| && ProcessRow(rows[i], hubId, batchId, hexes[i], p).Err? ==>
      ImportError(i + 1, ProcessRow(rows[i], hubId, batchId, hexes[i], p).error) in ErrorLog(Outcomes(rows, hubId, batchId, hexes, p), 1)
  {
    forall i | 0 <= i < |rows| && ProcessRow(rows[i], hubId, batchId, hexes[i], p).Err?
      ensures ImportError(i + 1, ProcessRow(rows[i], hubId, batchId, hexes[i], p).error) in ErrorLog(Outcomes(rows, hubId, batchId, hexes, p), 1)
    {
      RowErrorLogged(Outcomes(rows, hubId, batchId, hexes, p), i);
    }
  }

  lemma {:induction false} RowErrorLogged(outs: seq<Result<DeliveryOrder, RowError>>, i: nat)
    requires i < |outs| && outs[i].Err?
    ensures ImportError(i + 1, outs[i].error) in ErrorLog(outs, 1)
  {
    ErrorLogCovers(outs, 1);
  }

  /** The batch an upload stores keeps that error log, and none when no
      row failed. */
  lemma UploadErrors(s: Store, caller: Caller, hubId: Id, fileName: Option<string>, rows: seq<CsvRow>, hexes: seq<string>, p: Parsers, now: Time)
    requires Valid(s)
    requires |hexes| == |rows| && forall i :: 0 <= i < |rows| ==> IsHexDraw(hexes[i])
    requires UploadCsv(s, caller, hubId, fileName, rows, hexes, p, now).Ok?
    ensures UploadCsv(s, caller, hubId, fileName, rows, hexes, p, now).value.1.imports[UploadCsv(s, caller, hubId, fileName, rows, hexes, p, now).value.0.importId].errorLog == if ErrorLog(Outcomes(rows, hubId, s.nextId, hexes, p), 1) == [] then None else Some(ErrorLog(Outcomes(rows, hubId, s.nextId, hexes, p), 1))
  {
    UploadUnfold(s, caller, hubId, fileName, rows, hexes, p, now);
  }

  /** What every order an upload stores looks like: a pending csv order
      of the hub and batch, on no route, with a well-formed number. */
  predicate CsvOrder(o: DeliveryOrder, hubId: Id, batchId: Id) {
    && o.hubId == hubId && o.source == "csv" && o.importBatchId == Some(batchId)
    && o.status == Pending && o.routeId.None? && IsOrderNumber(o.orderNumber)
  }

  /** Each accepted row of an upload is such an order. */
  lemma AcceptedShape(rows: seq<CsvRow>, hubId: Id, batchId: Id, hexes: seq<string>, p: Parsers)
    requires |hexes| == |rows| && forall i :: 0 <= i < |rows| ==> IsHexDraw(hexes[i])
    ensures forall k :: 0 <= k < |Accepted(Outcomes(rows, hubId, batchId, hexes, p))| ==>
      CsvOrder(Accepted(Outcomes(rows, hubId, batchId, hexes, p))[k], hubId, batchId)
  {
    var outs := Outcomes(rows, hubId, batchId, hexes, p);
    AcceptedRows(outs);
    forall k | 0 <= k < |Accepted(outs)|
      ensures CsvOrder(Accepted(outs)[k], hubId, batchId)
    {
      var i :| 0 <= i < |outs| && outs[i] == Ok(Accepted(outs)[k]);
    }
  }

  /** The store an upload leaves: the orders gain the accepted rows
      after the batch id; only orders, batches and the counter change. */
  lemma UploadStoreOrders(s: Store, batch: ImportBatch, acc: seq<DeliveryOrder>)
    requires Valid(s)
    ensures forall id :: id in UploadStore(s, batch, acc).orders <==> id in s.orders || s.nextId < id <= s.nextId + |acc|
    ensures forall id :: id in s.orders ==> UploadStore(s, batch, acc).orders[id] == s.orders[id]
    ensures forall k :: 0 <= k < |acc| ==> UploadStore(s, batch, acc).orders[s.nextId + 1 + k] == acc[k]
    ensures UploadStore(s, batch, acc).(imports := s.imports, orders := s.orders, nextId := s.nextId) == s
  {
    InsertOrdersRows(s.orders, s.nextId + 1, acc);
  }

  /** The orders table after an upload: every existing order stays; the
      accepted rows' orders take the ids right after the batch, in row
      order; every row that succeeded has its order stored. Nothing but
      the orders, the batches and the id counter changes. */
  lemma UploadOrders(s: Store, caller: Caller, hubId: Id, fileName: Option<string>, rows: seq<CsvRow>, hexes: seq<string>, p: Parsers, now: Time)
    requires Valid(s)
    requires |hexes| == |rows| && forall i :: 0 <= i < |rows| ==> IsHexDraw(hexes[i])
    requires UploadCsv(s, caller, hubId, fileName, rows, hexes, p, now).Ok?
    ensures forall id :: id in UploadCsv(s, caller, hubId, fileName, rows, hexes, p, now).value.1.orders <==> id in s.orders || s.nextId < id <= s.nextId + UploadCsv(s, caller, hubId, fileName, rows, hexes, p, now).value.0.processed
    ensures forall id :: id in s.orders ==> UploadCsv(s, caller, hubId, fileName, rows, hexes, p, now).value.1.orders[id] == s.orders[id]
    ensures UploadCsv(s, caller, hubId, fileName, rows, hexes, p, now).value.0.processed == |Accepted(Outcomes(rows, hubId, s.nextId, hexes, p))|
    ensures forall k :: 0 <= k < |Accepted(Outcomes(rows, hubId, s.nextId, hexes, p))| ==> UploadCsv(s, caller, hubId, fileName, rows, hexes, p, now).value.1.orders[s.nextId + 1 + k] == Accepted(Outcomes(rows, hubId, s.nextId, hexes, p))[k]
    ensures forall k :: 0 <= k < |Accepted(Outcomes(rows, hubId, s.nextId, hexes, p))| ==> Ok(Accepted(Outcomes(rows, hubId, s.nextId, hexes, p))[k]) in Outcomes(rows, hubId, s.nextId, hexes, p)
    ensures forall i :: 0 <= i < |rows| && ProcessRow(rows[i], hubId, s.nextId, hexes[i], p).Ok? ==>
      ProcessRow(rows[i], hubId, s.nextId, hexes[i], p).value in Accepted(Outcomes(rows, hubId, s.nextId, hexes, p))
    ensures UploadCsv(s, caller, hubId, fileName, rows, hexes, p, now).value.1.(imports := s.imports, orders := s.orders, nextId := s.nextId) == s
  {
    UploadUnfold(s, caller, hubId, fileName, rows, hexes, p, now);
    var outs := Outcomes(rows, hubId, s.nextId, hexes, p);
    AcceptedRows(outs);
    UploadStoreOrders(s, FinishedBatch(hubId, caller.id, fileName.value, |rows|, outs, now), Accepted(outs));
  }

  /** Orders of one shape inserted by an upload keep the store valid. */
  lemma UploadStoreShape(s: Store, batch: ImportBatch, acc: seq<DeliveryOrder>, hubId: Id)
    requires Valid(s)
    requires forall k :: 0 <= k < |acc| ==> CsvOrder(acc[k], hubId, s.nextId)
    ensures forall id :: id in UploadStore(s, batch, acc).orders && id !in s.orders ==>
      CsvOrder(UploadStore(s, batch, acc).orders[id], hubId, s.nextId)
    ensures Valid(UploadStore(s, batch, acc))
  {
    UploadStoreOrders(s, batch, acc);
    var t := UploadStore(s, batch, acc);
    forall id | id in t.orders && id !in s.orders
      ensures CsvOrder(t.orders[id], hubId, s.nextId)
    {
      assert t.orders[s.nextId + 1 + (id - s.nextId - 1)] == acc[id - s.nextId - 1];
    }
  }

  /** Every order an upload adds is a pending csv order of the hub and
      batch with a well-formed number, and the store stays valid. */
  lemma UploadNewOrders(s: Store, caller: Caller, hubId: Id, fileName: Option<string>, rows: seq<CsvRow>, hexes: seq<string>, p: Parsers, now: Time)
    requires Valid(s)
    requires |hexes| == |rows| && forall i :: 0 <= i < |rows| ==> IsHexDraw(hexes[i])
    requires UploadCsv(s, caller, hubId, fileName, rows, hexes, p, now).Ok?
    ensures forall id :: id in UploadCsv(s, caller, hubId, fileName, rows, hexes, p, now).value.1.orders && id !in s.orders ==>
      CsvOrder(UploadCsv(s, caller, hubId, fileName, rows, hexes, p, now).value.1.orders[id], hubId, s.nextId)
    ensures Valid(UploadCsv(s, caller, hubId, fileName, rows, hexes, p, now).value.1)
  {
    UploadUnfold(s, caller, hubId, fileName, rows, hexes, p, now);
    var outs := Outcomes(rows, hubId, s.nextId, hexes, p);
    AcceptedShape(rows, hubId, s.nextId, hexes, p);
    UploadStoreShape(s, FinishedBatch(hubId, caller.id, fileName.value, |rows|, outs, now), Accepted(outs), hubId);
  }
}

=== FILE: hub_routes.dfy ===
/** The route handlers of packages/api-python/app/routers/hub_routes.py:
    manual creation, assignment, dispatch, deletion and the auto-planner,
    each as a transition of the table store. Every error is raised before
    the first write, so a failed call leaves the store as it was. */
module HubRoutes {
  import opened Wrappers
  import opened Text
  import opened DeliveryModels
  import opened HubModels
  import opened Tables
  import opened RoutePlanner

  /** The hub's code, or `HUB` when the hub row is missing. */
  function HubCode(s: Store, hubId: Id): string {
    if hubId in s.hubs then s.hubs[hubId].code else "HUB"
  }

  /** `{hub_code}-R{tag}-{YYYYMMDD}`, the shape of a generated route name. */
  function RouteName(code: string, tag: string, d: Date): string {
    code + "-R" + tag + "-" + DateStamp(d)
  }

  /** Inserts one `route_stops` row per listed order, the `i`-th under id
      `next + i` and numbered `first + i`. */
  function AddStops(stops: map<Id, RouteStop>, next: Id, routeId: Id, orderIds: seq<Id>, first: int): map<Id, RouteStop>
    decreases |orderIds|
  {
    if orderIds == [] then stops
    else AddStops(stops[next := NewStop(routeId, orderIds[0], first)], next + 1, routeId, orderIds[1..], first + 1)
  }

  /** The stops table gains exactly the ids `next .. next + |orderIds| - 1`,
      holding the listed orders' stops in list order; every other row stays. */
  lemma {:induction false} AddStopsRows(stops: map<Id, RouteStop>, next: Id, routeId: Id, orderIds: seq<Id>, first: int)
    ensures var r := AddStops(stops, next, routeId, orderIds, first);
      forall k :: k in r <==> k in stops || next <= k < next + |orderIds|
    ensures var r := AddStops(stops, next, routeId, orderIds, first);
      forall k :: k in stops && !(next <= k < next + |orderIds|) ==> r[k] == stops[k]
    ensures var r := AddStops(stops, next, routeId, orderIds, first);
      forall i :: 0 <= i < |orderIds| ==> r[next + i] == NewStop(routeId, orderIds[i], first + i)
    decreases |orderIds|
  {
    if orderIds != [] {
      var s1 := stops[next := NewStop(routeId, orderIds[0], first)];
      AddStopsRows(s1, next + 1, routeId, orderIds[1..], first + 1);
      var r := AddStops(s1, next + 1, routeId, orderIds[1..], first + 1);
      forall i | 0 < i < |orderIds|
        ensures r[next + i] == NewStop(routeId, orderIds[i], first + i)
      {
        assert orderIds[i] == orderIds[1..][i - 1];
      }
    }
  }

  /** The orders after `patch` for route `routeId` has been applied to
      each listed one that exists (an update matching no row changes
      nothing). The source updates them one by one; every patch here sets
      fixed columns, so each listed order ends up as the patch of its row
      before the loop, whatever the order of the updates and however often
      an id repeats. */
  function PatchOrders(orders: map<Id, DeliveryOrder>, ids: seq<Id>, patch: (DeliveryOrder, Id) -> DeliveryOrder, routeId: Id): (r: map<Id, DeliveryOrder>)
    decreases |ids|
  {
    if ids == [] then orders
    else
      var rest := PatchOrders(orders, ids[1..], patch, routeId);
      if ids[0] in orders then rest[ids[0] := patch(orders[ids[0]], routeId)] else rest
  }

  /** Patching keeps the key set; listed orders are patched, the others
      stay as they were. */
  lemma {:induction false} PatchOrdersRows(orders: map<Id, DeliveryOrder>, ids: seq<Id>, patch: (DeliveryOrder, Id) -> DeliveryOrder, routeId: Id)
    ensures forall id :: id in PatchOrders(orders, ids, patch, routeId) <==> id in orders
    ensures forall id :: id in orders && id in ids ==> PatchOrders(orders, ids, patch, routeId)[id] == patch(orders[id], routeId)
    ensures forall id :: id in orders && id !in ids ==> PatchOrders(orders, ids, patch, routeId)[id] == orders[id]
    decreases |ids|
  {
    if ids != [] {
      PatchOrdersRows(orders, ids[1..], patch, routeId);
    }
  }


  /** The tables a route creation writes, with the id counter. */
  datatype RouteTables = RouteTables(
    routes: map<Id, Route>,
    stops: map<Id, RouteStop>,
    orders: map<Id, DeliveryOrder>,
    nextId: Id)

  function TablesOf(s: Store): RouteTables {
    RouteTables(s.routes, s.stops, s.orders, s.nextId)
  }

  /** The store with its route tables replaced; every other table stays. */
  function WithTables(s: Store, r: RouteTables): Store {
    s.(routes := r.routes, stops := r.stops, orders := r.orders, nextId := r.nextId)
  }

  /** `Valid` restricted to the route tables. */
  predicate TablesValid(r: RouteTables) {
    && Below(r.routes.Keys, r.nextId)
    && Below(r.stops.Keys, r.nextId)
    && Below(r.orders.Keys, r.nextId)
    && StopRoutesBelow(r.stops, r.nextId)
    && OrderRoutesBelow(r.orders, r.nextId)
  }

  /** Well-formed route tables whose counter has not gone back make a
      well-formed store. */
  lemma WithTablesValid(s: Store, r: RouteTables)
    requires Valid(s) && TablesValid(r) && s.nextId <= r.nextId
    ensures Valid(WithTables(s, r))
  {
  }

  /** Inserts `route` under the next id, one `route_stops` row per listed
      order under the ids that follow (numbered from 1), and applies
      `patch` to each listed order that exists. Both handlers that create
      routes do exactly this. */
  function AddRoute(r: RouteTables, route: Route, orderIds: seq<Id>, patch: (DeliveryOrder, Id) -> DeliveryOrder): (a: (Id, RouteTables))
    ensures a.0 == r.nextId && a.1.routes == r.routes[a.0 := route]
    ensures a.1.nextId == a.0 + 1 + |orderIds|
  {
    var rid := r.nextId;
    var stops := AddStops(r.stops, rid + 1, rid, orderIds, 1);
    var orders := PatchOrders(r.orders, orderIds, patch, rid);
    (rid, RouteTables(r.routes[rid := route], stops, orders, rid + 1 + |orderIds|))
  }

  /** What adding a route does to the stops: one new row per listed order
      under the ids after the route's, numbered from 1; no other row
      changes. */
  lemma AddRouteStops(r: RouteTables, route: Route, orderIds: seq<Id>, patch: (DeliveryOrder, Id) -> DeliveryOrder)
    ensures var rid := r.nextId; var t := AddRoute(r, route, orderIds, patch).1.stops;
      && (forall k :: k in t <==> k in r.stops || rid < k <= rid + |orderIds|)
      && (forall k :: k in r.stops && !(rid < k <= rid + |orderIds|) ==> t[k] == r.stops[k])
      && (forall i :: 0 <= i < |orderIds| ==> t[rid + 1 + i] == NewStop(rid, orderIds[i], i + 1))
  {
    AddStopsRows(r.stops, r.nextId + 1, r.nextId, orderIds, 1);
  }

  /** What adding a route does to the orders: each listed order that
      exists is patched and no other order changes. */
  lemma AddRouteOrders(r: RouteTables, route: Route, orderIds: seq<Id>, patch: (DeliveryOrder, Id) -> DeliveryOrder)
    ensures forall id :: id in AddRoute(r, route, orderIds, patch).1.orders <==> id in r.orders
    ensures forall id :: id in r.orders && id in orderIds ==>
      AddRoute(r, route, orderIds, patch).1.orders[id] == patch(r.orders[id], r.nextId)
    ensures forall id :: id in r.orders && id !in orderIds ==>
      AddRoute(r, route, orderIds, patch).1.orders[id] == r.orders[id]
  {
    PatchOrdersRows(r.orders, orderIds, patch, r.nextId);
  }

  /** Adding a route keeps the tables well formed when the patch puts each
      listed order on the new route. */
  lemma AddRouteValid(r: RouteTables, route: Route, orderIds: seq<Id>, patch: (DeliveryOrder, Id) -> DeliveryOrder)
    requires TablesValid(r)
    requires forall o: DeliveryOrder, x: Id :: patch(o, x).routeId == Some(x)
    ensures TablesValid(AddRoute(r, route, orderIds, patch).1)
  {
    var (rid, t) := AddRoute(r, route, orderIds, patch);
    AddRouteStops(r, route, orderIds, patch);
    AddRouteOrders(r, route, orderIds, patch);
    forall k | k in t.stops
      ensures t.stops[k].routeId < t.nextId
    {
      if k !in r.stops || rid < k {
        var i := k - rid - 1;
        assert t.stops[rid + 1 + i] == NewStop(rid, orderIds[i], i + 1);
      }
    }
    assert StopRoutesBelow(t.stops, t.nextId);
    assert OrderRoutesBelow(t.orders, t.nextId);
  }

  // ---------------------------------------------------------------
  // create_route
  // ---------------------------------------------------------------

  /** What creating a manual route does to each listed order: it joins the
      route, takes the route's driver, and is `assigned` (stamped now) when
      there is a driver, `pending` (unstamped) otherwise. */
  function JoinRoute(o: DeliveryOrder, routeId: Id, driverId: Option<Id>, now: Time): (r: DeliveryOrder)
    ensures r.routeId == Some(routeId) && r.driverId == driverId
    ensures r.status == (if driverId.Some? then Assigned else Pending)
    ensures r.assignedAt == (if driverId.Some? then Some(now) else None)
    ensures r.(routeId := o.routeId, driverId := o.driverId, status := o.status, assignedAt := o.assignedAt) == o
  {
    o.(routeId := Some(routeId), driverId := driverId,
       status := if driverId.Some? then Assigned else Pending,
       assignedAt := if driverId.Some? then Some(now) else None)
  }

  /** The name a manual route gets: the requested one when it is non-empty,
      otherwise one built from the hub code and four random hex digits. */
  function ManualRouteName(s: Store, req: RouteCreate, hex4: string): string {
    if req.routeName.Some? && req.routeName.value != "" then req.routeName.value
    else RouteName(HubCode(s, req.hubId), Upper(hex4), req.routeDate)
  }

  /** `POST /routes`. `hex4` is `uuid4().hex[:4]`. The new route gets a
      fresh id and one stop per listed order, numbered from 1; listed
      orders join it; nothing else changes. */
  function CreateRoute(s: Store, caller: Caller, req: RouteCreate, hex4: string, now: Time): (r: (Id, Store))
    requires Valid(s)
    requires |hex4| == 4 && forall i :: 0 <= i < 4 ==> IsLowerHex(hex4[i])
    ensures var (rid, t) := r;
      && rid !in s.routes && t.routes.Keys == s.routes.Keys + {rid}
      && (forall k :: k in s.routes ==> t.routes[k] == s.routes[k])
      && t.routes[rid].hubId == req.hubId
      && t.routes[rid].status == Planned
      && t.routes[rid].totalStops == |req.orderIds|
      && t.routes[rid].driverId == req.driverId && t.routes[rid].vehicleId == req.vehicleId
      && t.routes[rid].createdBy == caller.id
    ensures var (rid, t) := r;
      && t.orders.Keys == s.orders.Keys
      && (forall id :: id in s.orders && id in req.orderIds ==> t.orders[id] == JoinRoute(s.orders[id], rid, req.driverId, now))
      && (forall id :: id in s.orders && id !in req.orderIds ==> t.orders[id] == s.orders[id])
  {
    var route := NewRoute(req.hubId, ManualRouteName(s, req, hex4), req.vehicleId, req.driverId,
                          req.routeDate, |req.orderIds|, caller.id);
    var patch := (o: DeliveryOrder, x: Id) => JoinRoute(o, x, req.driverId, now);
    AddRouteOrders(TablesOf(s), route, req.orderIds, patch);
    var a := AddRoute(TablesOf(s), route, req.orderIds, patch);
    (a.0, WithTables(s, a.1))
  }

  /** The new route's stops: the old ones are kept, every new one belongs
      to the new route, and each listed order has one, numbered by its
      position in the list from 1. */
  lemma CreateRouteStops(s: Store, caller: Caller, req: RouteCreate, hex4: string, now: Time)
    requires Valid(s)
    requires |hex4| == 4 && forall i :: 0 <= i < 4 ==> IsLowerHex(hex4[i])
    ensures var (rid, t) := CreateRoute(s, caller, req, hex4, now);
      && (forall k :: k in s.stops ==> k in t.stops && t.stops[k] == s.stops[k])
      && (forall k :: k in t.stops && k !in s.stops ==> t.stops[k].routeId == rid)
      && (forall i :: 0 <= i < |req.orderIds| ==> HasNewStop(s.stops, t.stops, NewStop(rid, req.orderIds[i], i + 1)))
  {
    var route := NewRoute(req.hubId, ManualRouteName(s, req, hex4), req.vehicleId, req.driverId,
                          req.routeDate, |req.orderIds|, caller.id);
    var patch := (o: DeliveryOrder, x: Id) => JoinRoute(o, x, req.driverId, now);
    var stops := AddRoute(TablesOf(s), route, req.orderIds, patch).1.stops;
    assert CreateRoute(s, caller, req, hex4, now).1.stops == stops;
    AddRouteStops(TablesOf(s), route, req.orderIds, patch);
    StopsOfNewRoute(s.stops, stops, s.nextId, req.orderIds);
  }

  /** `after` holds the stop row `st` under an id `before` does not have. */
  predicate HasNewStop(before: map<Id, RouteStop>, after: map<Id, RouteStop>, st: RouteStop) {
    exists k :: k in after && k !in before && after[k] == st
  }

  /** The stop table `after` extends `before` by the stops `AddRoute`
      numbers: every new stop belongs to the route, and each listed order
      has one numbered by its position from 1. */
  lemma StopsOfNewRoute(before: map<Id, RouteStop>, after: map<Id, RouteStop>, rid: Id, orderIds: seq<Id>)
    requires forall k :: k in after <==> k in before || rid < k <= rid + |orderIds|
    requires Below(before.Keys, rid + 1)
    requires forall k :: k in before ==> after[k] == before[k]
    requires forall i :: 0 <= i < |orderIds| ==> after[rid + 1 + i] == NewStop(rid, orderIds[i], i + 1)
    ensures forall k :: k in before ==> k in after && after[k] == before[k]
    ensures forall k :: k in after && k !in before ==> after[k].routeId == rid
    ensures forall i :: 0 <= i < |orderIds| ==> HasNewStop(before, after, NewStop(rid, orderIds[i], i + 1))
  {
    forall k | k in after && k !in before
      ensures after[k].routeId == rid
    {
      var i := k - rid - 1;
      assert after[rid + 1 + i] == NewStop(rid, orderIds[i], i + 1);
    }
    forall i | 0 <= i < |orderIds|
      ensures HasNewStop(before, after, NewStop(rid, orderIds[i], i + 1))
    {
      var w := rid + 1 + i;
      assert w in after && w !in before && after[w] == NewStop(rid, orderIds[i], i + 1);
    }
  }

  /** The new route's name: the requested one when it is non-empty,
      otherwise the hub code (or `HUB`), `-R`, four upper-case hex digits,
      `-` and the route date as YYYYMMDD. */
  lemma CreateRouteName(s: Store, caller: Caller, req: RouteCreate, hex4: string, now: Time)
    requires Valid(s)
    requires |hex4| == 4 && forall i :: 0 <= i < 4 ==> IsLowerHex(hex4[i])
    ensures var (rid, t) := CreateRoute(s, caller, req, hex4, now);
      req.routeName.Some? && req.routeName.value != "" ==> t.routes[rid].name == req.routeName.value
    ensures var (rid, t) := CreateRoute(s, caller, req, hex4, now);
      (req.routeName.None? || req.routeName == Some("")) ==>
        exists tag :: |tag| == 4 && (forall i :: 0 <= i < 4 ==> IsUpperHex(tag[i]))
                      && t.routes[rid].name == RouteName(HubCode(s, req.hubId), tag, req.routeDate)
  {
    var (rid, t) := CreateRoute(s, caller, req, hex4, now);
    assert t.routes[rid].name == ManualRouteName(s, req, hex4);
    UpperHexDigits(hex4);
  }

  /** Creating a route touches no table besides routes, stops and orders,
      and keeps the store well formed. */
  lemma CreateRouteFrame(s: Store, caller: Caller, req: RouteCreate, hex4: string, now: Time)
    requires Valid(s)
    requires |hex4| == 4 && forall i :: 0 <= i < 4 ==> IsLowerHex(hex4[i])
    ensures var (rid, t) := CreateRoute(s, caller, req, hex4, now);
      t.(routes := s.routes, stops := s.stops, orders := s.orders, nextId := s.nextId) == s
    ensures Valid(CreateRoute(s, caller, req, hex4, now).1)
  {
    var route := NewRoute(req.hubId, ManualRouteName(s, req, hex4), req.vehicleId, req.driverId,
                          req.routeDate, |req.orderIds|, caller.id);
    var patch := (o: DeliveryOrder, x: Id) => JoinRoute(o, x, req.driverId, now);
    AddRouteValid(TablesOf(s), route, req.orderIds, patch);
    WithTablesValid(s, AddRoute(TablesOf(s), route, req.orderIds, patch).1);
  }

  lemma {:induction false} UpperHexDigits(hex: string)
    requires forall i :: 0 <= i < |hex| ==> IsLowerHex(hex[i])
    ensures forall i :: 0 <= i < |hex| ==> IsUpperHex(Upper(hex)[i])
  {
  }

  // ---------------------------------------------------------------
  // assign_route / dispatch_route / delete_route
  // ---------------------------------------------------------------

  predicate IsOnRoute(o: DeliveryOrder, routeId: Id) {
    o.routeId == Some(routeId)
  }

  /** The orders after `patch` has been applied to every order on the
      route, as the handlers' select-then-update loops do. */
  function PatchRoute(orders: map<Id, DeliveryOrder>, routeId: Id, patch: DeliveryOrder -> DeliveryOrder): (r: map<Id, DeliveryOrder>)
    ensures r.Keys == orders.Keys
    ensures forall id :: id in orders && IsOnRoute(orders[id], routeId) ==> r[id] == patch(orders[id])
    ensures forall id :: id in orders && !IsOnRoute(orders[id], routeId) ==> r[id] == orders[id]
  {
    map id | id in orders :: if IsOnRoute(orders[id], routeId) then patch(orders[id]) else orders[id]
  }

  /** The order patch of an assignment. */
  function AssignOrder(o: DeliveryOrder, driverId: Id, now: Time): (r: DeliveryOrder)
    ensures r.driverId == Some(driverId) && r.status == Assigned && r.assignedAt == Some(now)
    ensures r.(driverId := o.driverId, status := o.status, assignedAt := o.assignedAt) == o
  {
    o.(driverId := Some(driverId), status := Assigned, assignedAt := Some(now))
  }

  /** The vehicle patch of an assignment. */
  function AssignVehicle(v: Vehicle, driverId: Id): (r: Vehicle)
    ensures r.status == OnRoute && r.assignedDriverId == Some(driverId)
    ensures r.(status := v.status, assignedDriverId := v.assignedDriverId) == v
  {
    v.(status := OnRoute, assignedDriverId := Some(driverId))
  }

  /** The route patch of an assignment: driver, vehicle, status `assigned`. */
  function AssignedRoute(r: Route, req: RouteAssign): (a: Route)
    ensures a.driverId == Some(req.driverId) && a.vehicleId == Some(req.vehicleId) && a.status == RouteAssigned
    ensures a.(driverId := r.driverId, vehicleId := r.vehicleId, status := r.status) == r
  {
    r.(driverId := Some(req.driverId), vehicleId := Some(req.vehicleId), status := RouteAssigned)
  }

  /** Applies `f` to the row `id` when it exists; an update matching no row
      changes nothing. */
  function UpdateRow<T>(rows: map<Id, T>, id: Id, f: T -> T): (r: map<Id, T>)
    ensures r.Keys == rows.Keys
    ensures id in rows ==> r[id] == f(rows[id])
    ensures forall k :: k in rows && k != id ==> r[k] == rows[k]
  {
    if id in rows then rows[id := f(rows[id])] else rows
  }

  /** `POST /routes/{id}/assign`. Unknown route: 404 and nothing changes.
      Otherwise the route takes the driver and vehicle and becomes
      `assigned`, and every order on it is `assigned` to the driver
      (stamped now). The route's current status is not checked. */
  function AssignRoute(s: Store, routeId: Id, req: RouteAssign, now: Time): (r: Result<Store, Error>)
    ensures r.Err? <==> routeId !in s.routes
    ensures r.Err? ==> r.error == NotFound("Route not found")
    ensures r.Ok? ==> var t := r.value;
      && t.routes.Keys == s.routes.Keys
      && t.routes[routeId] == AssignedRoute(s.routes[routeId], req)
      && (forall k :: k in s.routes && k != routeId ==> t.routes[k] == s.routes[k])
    ensures r.Ok? ==> var t := r.value;
      && t.orders.Keys == s.orders.Keys
      && (forall id :: id in s.orders && IsOnRoute(s.orders[id], routeId) ==>
            t.orders[id] == AssignOrder(s.orders[id], req.driverId, now))
      && (forall id :: id in s.orders && !IsOnRoute(s.orders[id], routeId) ==> t.orders[id] == s.orders[id])
  {
    if routeId !in s.routes then Err(NotFound("Route not found"))
    else
      var orders := PatchRoute(s.orders, routeId, (o: DeliveryOrder) => AssignOrder(o, req.driverId, now));
      var vehicles := UpdateRow(s.vehicles, req.vehicleId, (v: Vehicle) => AssignVehicle(v, req.driverId));
      Ok(s.(routes := s.routes[routeId := AssignedRoute(s.routes[routeId], req)], orders := orders, vehicles := vehicles))
  }

  /** The rest of an assignment: the vehicle, if it exists, goes
      `on_route` with the driver; no other table changes, and the store
      stays well formed. */
  lemma AssignRouteFrame(s: Store, routeId: Id, req: RouteAssign, now: Time)
    requires Valid(s)
    requires AssignRoute(s, routeId, req, now).Ok?
    ensures var t := AssignRoute(s, routeId, req, now).value;
      && t.vehicles.Keys == s.vehicles.Keys
      && (req.vehicleId in s.vehicles ==> t.vehicles[req.vehicleId] == AssignVehicle(s.vehicles[req.vehicleId], req.driverId))
      && (forall k :: k in s.vehicles && k != req.vehicleId ==> t.vehicles[k] == s.vehicles[k])
    ensures var t := AssignRoute(s, routeId, req, now).value;
      t.(routes := s.routes, orders := s.orders, vehicles := s.vehicles) == s
    ensures Valid(AssignRoute(s, routeId, req, now).value)
  {
  }

  /** The order patch of a dispatch. */
  function DispatchOrder(o: DeliveryOrder, now: Time): (r: DeliveryOrder)
    ensures r.status == OutForDelivery && r.outForDeliveryAt == Some(now)
    ensures r.(status := o.status, outForDeliveryAt := o.outForDeliveryAt) == o
  {
    o.(status := OutForDelivery, outForDeliveryAt := Some(now))
  }

  /** The route patch of a dispatch. */
  function DispatchedRoute(r: Route, now: Time): (a: Route)
    ensures a.status == InProgress && a.startTime == Some(now)
    ensures a.(status := r.status, startTime := r.startTime) == r
  {
    r.(status := InProgress, startTime := Some(now))
  }

  /** `POST /routes/{id}/dispatch`. Unknown route: 404; a route without a
      driver or a vehicle: 400; neither changes anything. Otherwise the
      route goes `in_progress` starting now and every order on it goes
      `out_for_delivery` (stamped now). The route's current status is not
      checked. */
  function DispatchRoute(s: Store, routeId: Id, now: Time): (r: Result<Store, Error>)
    ensures r.Err? <==> routeId !in s.routes || s.routes[routeId].driverId.None? || s.routes[routeId].vehicleId.None?
    ensures routeId !in s.routes ==> r == Err(NotFound("Route not found"))
    ensures routeId in s.routes && r.Err? ==>
      r.error == BadRequest("Route must have driver and vehicle assigned before dispatch")
    ensures r.Ok? ==> var t := r.value;
      && t.routes == s.routes[routeId := DispatchedRoute(s.routes[routeId], now)]
      && t.orders.Keys == s.orders.Keys
      && (forall id :: id in s.orders && IsOnRoute(s.orders[id], routeId) ==>
            t.orders[id] == DispatchOrder(s.orders[id], now))
      && (forall id :: id in s.orders && !IsOnRoute(s.orders[id], routeId) ==> t.orders[id] == s.orders[id])
  {
    if routeId !in s.routes then Err(NotFound("Route not found"))
    else
      var route := s.routes[routeId];
      if route.driverId.None? || route.vehicleId.None? then
        Err(BadRequest("Route must have driver and vehicle assigned before dispatch"))
      else
        var orders := PatchRoute(s.orders, routeId, (o: DeliveryOrder) => DispatchOrder(o, now));
        var drivers := UpdateRow(s.drivers, route.driverId.value, (d: Driver) => d.(status := OnDelivery));
        Ok(s.(routes := s.routes[routeId := DispatchedRoute(route, now)], orders := orders, drivers := drivers))
  }

  /** The rest of a dispatch: the route's driver, if the row exists, goes
      `on_delivery`; no other table changes, and the store stays well
      formed. */
  lemma DispatchRouteFrame(s: Store, routeId: Id, now: Time)
    requires Valid(s)
    requires DispatchRoute(s, routeId, now).Ok?
    ensures var t := DispatchRoute(s, routeId, now).value; var d := s.routes[routeId].driverId.value;
      && t.drivers.Keys == s.drivers.Keys
      && (d in s.drivers ==> t.drivers[d] == s.drivers[d].(status := OnDelivery))
      && (forall k :: k in s.drivers && k != d ==> t.drivers[k] == s.drivers[k])
    ensures var t := DispatchRoute(s, routeId, now).value;
      t.(routes := s.routes, orders := s.orders, drivers := s.drivers) == s
    ensures Valid(DispatchRoute(s, routeId, now).value)
  {
  }

  /** Assignment is what dispatch needs: right after a successful
      assignment, dispatching the same route succeeds. */
  lemma AssignEnablesDispatch(s: Store, routeId: Id, req: RouteAssign, now: Time, later: Time)
    requires AssignRoute(s, routeId, req, now).Ok?
    ensures DispatchRoute(AssignRoute(s, routeId, req, now).value, routeId, later).Ok?
  {
  }

  /** An order released from a deleted route: back to `pending`, with no
      route, driver or assignment time. */
  function Release(o: DeliveryOrder): (r: DeliveryOrder)
    ensures r.routeId.None? && r.driverId.None? && r.status == Pending && r.assignedAt.None?
    ensures r.(routeId := o.routeId, driverId := o.driverId, status := o.status, assignedAt := o.assignedAt) == o
  {
    o.(routeId := None, driverId := None, status := Pending, assignedAt := None)
  }

  /** The stops table without the route's stops. */
  function DropStops(stops: map<Id, RouteStop>, routeId: Id): (r: map<Id, RouteStop>)
    ensures forall k :: k in r <==> k in stops && stops[k].routeId != routeId
    ensures forall k :: k in r ==> r[k] == stops[k]
  {
    map k | k in stops && stops[k].routeId != routeId :: stops[k]
  }

  /** `DELETE /routes/{id}`. Whether or not the route exists, its orders are
      released, its stops deleted and its row deleted; it never fails. */
  function DeleteRoute(s: Store, routeId: Id): (t: Store)
    ensures t.routes == s.routes - {routeId}
    ensures forall k :: k in t.stops <==> k in s.stops && s.stops[k].routeId != routeId
    ensures forall k :: k in t.stops ==> t.stops[k] == s.stops[k]
    ensures t.orders.Keys == s.orders.Keys
    ensures forall id :: id in s.orders && IsOnRoute(s.orders[id], routeId) ==> t.orders[id] == Release(s.orders[id])
    ensures forall id :: id in s.orders && !IsOnRoute(s.orders[id], routeId) ==> t.orders[id] == s.orders[id]
  {
    var orders := PatchRoute(s.orders, routeId, Release);
    var stops := DropStops(s.stops, routeId);
    s.(routes := s.routes - {routeId}, stops := stops, orders := orders)
  }

  /** Deleting a route touches no other table and keeps the store well
      formed. */
  lemma DeleteRouteFrame(s: Store, routeId: Id)
    requires Valid(s)
    ensures DeleteRoute(s, routeId).(routes := s.routes, stops := s.stops, orders := s.orders) == s
    ensures Valid(DeleteRoute(s, routeId))
  {
  }

  /** Deleting a freshly created route restores the route and stop tables
      exactly. */
  lemma CreateThenDeleteTables(s: Store, caller: Caller, req: RouteCreate, hex4: string, now: Time)
    requires Valid(s)
    requires |hex4| == 4 && forall i :: 0 <= i < 4 ==> IsLowerHex(hex4[i])
    ensures var (rid, t) := CreateRoute(s, caller, req, hex4, now);
      DeleteRoute(t, rid).routes == s.routes && DeleteRoute(t, rid).stops == s.stops
  {
    var (rid, t) := CreateRoute(s, caller, req, hex4, now);
    var u := DeleteRoute(t, rid);
    CreateRouteStops(s, caller, req, hex4, now);
    assert u.routes == s.routes;
    assert u.stops == s.stops;
  }

  /** Deleting a freshly created route leaves every order that was not
      listed as it was before the creation; listed orders are released
      rather than restored. */
  lemma CreateThenDeleteOrders(s: Store, caller: Caller, req: RouteCreate, hex4: string, now: Time)
    requires Valid(s)
    requires |hex4| == 4 && forall i :: 0 <= i < 4 ==> IsLowerHex(hex4[i])
    ensures var (rid, t) := CreateRoute(s, caller, req, hex4, now);
      var u := DeleteRoute(t, rid);
      && u.orders.Keys == s.orders.Keys
      && (forall id :: id in s.orders && id !in req.orderIds ==> u.orders[id] == s.orders[id])
      && (forall id :: id in s.orders && id in req.orderIds ==> u.orders[id] == Release(s.orders[id]))
  {
  }

  // ---------------------------------------------------------------
  // auto_plan_routes: the store writes
  // ---------------------------------------------------------------

  /** The row of a route the planner creates: on the plan's vehicle, status
      `planned`, no driver, with the plan's stop count and weight. */
  function PlanRow(req: AutoPlanRequest, name: string, createdBy: UserId, p: PlannedRoute): Route {
    Route(req.hubId, name, Some(p.vehicleId), None, req.routeDate, Planned, |p.orders|, Some(p.weight), None, createdBy)
  }

  /** The planner's order patch: only the route id is written; the order
      stays `pending` and gets no driver. */
  function SetRoute(o: DeliveryOrder, routeId: Id): (r: DeliveryOrder)
    ensures r.routeId == Some(routeId) && r.(routeId := o.routeId) == o
  {
    o.(routeId := Some(routeId))
  }

  /** Adds the routes in turn, each with the stops of its order list and
      those orders moved onto it, as the planner's loop does. */
  function AddRoutes(r: RouteTables, rows: seq<(Route, seq<Id>)>): (a: (seq<Id>, RouteTables))
    ensures |a.0| == |rows|
    decreases |rows|
  {
    if rows == [] then ([], r)
    else
      var a := AddRoute(r, rows[0].0, rows[0].1, SetRoute);
      var rest := AddRoutes(a.1, rows[1..]);
      ([a.0] + rest.0, rest.1)
  }

  /** Adding the routes keeps the tables well formed, and the counter only
      grows. */
  lemma {:induction false} AddRoutesValid(r: RouteTables, rows: seq<(Route, seq<Id>)>)
    requires TablesValid(r)
    ensures TablesValid(AddRoutes(r, rows).1) && r.nextId <= AddRoutes(r, rows).1.nextId
    decreases |rows|
  {
    if rows != [] {
      AddRouteValid(r, rows[0].0, rows[0].1, SetRoute);
      AddRoutesValid(AddRoute(r, rows[0].0, rows[0].1, SetRoute).1, rows[1..]);
    }
  }

  /** The routes added: the `i`-th id holds the `i`-th row; existing routes
      stay as they were and no other route appears. */
  lemma {:induction false} AddRoutesRoutes(r: RouteTables, rows: seq<(Route, seq<Id>)>)
    requires TablesValid(r)
    ensures forall x :: x in AddRoutes(r, rows).1.routes <==> x in r.routes || x in AddRoutes(r, rows).0
    ensures forall x :: x in r.routes ==> AddRoutes(r, rows).1.routes[x] == r.routes[x]
    ensures forall i :: 0 <= i < |rows| ==>
      AddRoutes(r, rows).0[i] in AddRoutes(r, rows).1.routes && AddRoutes(r, rows).1.routes[AddRoutes(r, rows).0[i]] == rows[i].0
    decreases |rows|
  {
    if rows != [] {
      AddRouteValid(r, rows[0].0, rows[0].1, SetRoute);
      var a := AddRoute(r, rows[0].0, rows[0].1, SetRoute);
      AddRoutesRoutes(a.1, rows[1..]);
      var rest := AddRoutes(a.1, rows[1..]);
      var ids, t := [a.0] + rest.0, rest.1;
      assert AddRoutes(r, rows) == (ids, t);
      forall x
        ensures x in t.routes <==> x in r.routes || x in ids
      {
        assert x in ids <==> x == a.0 || x in rest.0;
      }
      forall i | 0 <= i < |ids|
        ensures ids[i] in t.routes && t.routes[ids[i]] == rows[i].0
      {
        if i > 0 {
          assert ids[i] == rest.0[i - 1] && rows[i] == rows[1..][i - 1];
        }
      }
    }
  }

  /** The ids handed out are fresh and ascending. */
  lemma {:induction false} AddRoutesFresh(r: RouteTables, rows: seq<(Route, seq<Id>)>)
    requires TablesValid(r)
    ensures forall i :: 0 <= i < |rows| ==> r.nextId <= AddRoutes(r, rows).0[i] && AddRoutes(r, rows).0[i] !in r.routes
    ensures forall i, j :: 0 <= i < j < |rows| ==> AddRoutes(r, rows).0[i] < AddRoutes(r, rows).0[j]
  {
    AddRoutesIds(r, rows);
    RouteIdsAscend(r.nextId, Lists(rows));
  }

  /** The order lists of the rows. */
  function Lists(rows: seq<(Route, seq<Id>)>): (ls: seq<seq<Id>>)
    ensures |ls| == |rows|
    ensures forall i :: 0 <= i < |rows| ==> ls[i] == rows[i].1
  {
    if rows == [] then [] else [rows[0].1] + Lists(rows[1..])
  }

  /** The ids `AddRoutes` hands out from `next` on: each route takes one
      id and its stops the ones that follow. */
  function RouteIds(next: Id, lists: seq<seq<Id>>): (ids: seq<Id>)
    ensures |ids| == |lists|
    decreases |lists|
  {
    if lists == [] then [] else [next] + RouteIds(next + 1 + |lists[0]|, lists[1..])
  }

  /** The orders table after the routes from `next` on have taken their
      listed orders. */
  function MoveOrders(orders: map<Id, DeliveryOrder>, next: Id, lists: seq<seq<Id>>): map<Id, DeliveryOrder>
    decreases |lists|
  {
    if lists == [] then orders
    else MoveOrders(PatchOrders(orders, lists[0], SetRoute, next), next + 1 + |lists[0]|, lists[1..])
  }

  /** The stops table after the routes from `next` on have added theirs. */
  function InsertStops(stops: map<Id, RouteStop>, next: Id, lists: seq<seq<Id>>): map<Id, RouteStop>
    decreases |lists|
  {
    if lists == [] then stops
    else InsertStops(AddStops(stops, next + 1, next, lists[0], 1), next + 1 + |lists[0]|, lists[1..])
  }

  /** Adding the routes one by one hands out the ids `RouteIds` lists. */
  lemma {:induction false} AddRoutesIds(r: RouteTables, rows: seq<(Route, seq<Id>)>)
    ensures AddRoutes(r, rows).0 == RouteIds(r.nextId, Lists(rows))
    decreases |rows|
  {
    if rows != [] {
      AddRoutesIds(AddRoute(r, rows[0].0, rows[0].1, SetRoute).1, rows[1..]);
      assert Lists(rows)[1..] == Lists(rows[1..]);
    }
  }

  /** Adding the routes one by one moves the orders as `MoveOrders` does. */
  lemma {:induction false} AddRoutesMoves(r: RouteTables, rows: seq<(Route, seq<Id>)>)
    ensures AddRoutes(r, rows).1.orders == MoveOrders(r.orders, r.nextId, Lists(rows))
    decreases |rows|
  {
    if rows != [] {
      AddRoutesMoves(AddRoute(r, rows[0].0, rows[0].1, SetRoute).1, rows[1..]);
      assert Lists(rows)[1..] == Lists(rows[1..]);
    }
  }

  /** Adding the routes one by one inserts the stops as `InsertStops` does. */
  lemma {:induction false} AddRoutesInserts(r: RouteTables, rows: seq<(Route, seq<Id>)>)
    ensures AddRoutes(r, rows).1.stops == InsertStops(r.stops, r.nextId, Lists(rows))
    decreases |rows|
  {
    if rows != [] {
      AddRoutesInserts(AddRoute(r, rows[0].0, rows[0].1, SetRoute).1, rows[1..]);
      assert Lists(rows)[1..] == Lists(rows[1..]);
    }
  }

  /** The ids `RouteIds` hands out lie at or above `next`, and each route's
      stops fit between its id and the next route's. */
  lemma {:induction false} RouteIdsAscend(next: Id, lists: seq<seq<Id>>)
    ensures forall i :: 0 <= i < |lists| ==> next <= RouteIds(next, lists)[i]
    ensures forall i, j :: 0 <= i < j < |lists| ==> RouteIds(next, lists)[i] + |lists[i]| < RouteIds(next, lists)[j]
    decreases |lists|
  {
    if lists != [] {
      var n1 := next + 1 + |lists[0]|;
      RouteIdsAscend(n1, lists[1..]);
      var ids := RouteIds(next, lists);
      var rest := RouteIds(n1, lists[1..]);
      assert ids == [next] + rest;
      forall i | 1 <= i < |lists|
        ensures ids[i] == rest[i - 1] && lists[i] == lists[1..][i - 1]
      {
      }
    }
  }

  /** Moving orders keeps the key set, and an order no list names stays
      as it was. */
  lemma {:induction false} MoveOrdersFrame(orders: map<Id, DeliveryOrder>, next: Id, lists: seq<seq<Id>>)
    ensures forall id :: id in MoveOrders(orders, next, lists) <==> id in orders
    ensures forall id :: id in orders && id !in Flatten(lists) ==> MoveOrders(orders, next, lists)[id] == orders[id]
    decreases |lists|
  {
    if lists != [] {
      var o1 := PatchOrders(orders, lists[0], SetRoute, next);
      PatchOrdersRows(orders, lists[0], SetRoute, next);
      MoveOrdersFrame(o1, next + 1 + |lists[0]|, lists[1..]);
      forall id | id in orders && id !in Flatten(lists)
        ensures MoveOrders(orders, next, lists)[id] == orders[id]
      {
        assert Flatten(lists) == lists[0] + Flatten(lists[1..]);
        assert o1[id] == orders[id];
      }
    }
  }

  /** With disjoint lists, every order the `i`-th list names ends up on the
      `i`-th route, and nothing else about it changes. */
  lemma {:induction false} MoveOrdersRoutes(orders: map<Id, DeliveryOrder>, next: Id, lists: seq<seq<Id>>)
    requires DisjointLists(lists)
    ensures forall i, id :: 0 <= i < |lists| && id in lists[i] && id in orders ==>
      id in MoveOrders(orders, next, lists) &&
      MoveOrders(orders, next, lists)[id] == SetRoute(orders[id], RouteIds(next, lists)[i])
    decreases |lists|
  {
    if lists != [] {
      var n1 := next + 1 + |lists[0]|;
      var o1 := PatchOrders(orders, lists[0], SetRoute, next);
      PatchOrdersRows(orders, lists[0], SetRoute, next);
      MoveOrdersRoutes(o1, n1, lists[1..]);
      MoveOrdersFrame(o1, n1, lists[1..]);
      var m := MoveOrders(orders, next, lists);
      var ids := RouteIds(next, lists);
      var rest := RouteIds(n1, lists[1..]);
      assert ids == [next] + rest;
      forall id | id in lists[0] && id in orders
        ensures id in m && m[id] == SetRoute(orders[id], next)
      {
        assert id !in Flatten(lists[1..]);
        assert o1[id] == SetRoute(orders[id], next);
      }
      forall i, id | 1 <= i < |lists| && id in lists[i] && id in orders
        ensures id in m && m[id] == SetRoute(orders[id], ids[i])
      {
        assert id in lists[1..][i - 1] && ids[i] == rest[i - 1];
        InFlatten(lists[1..], i - 1, id);
        assert o1[id] == orders[id];
      }
    }
  }

  /** Inserting the stops keeps every existing row. */
  lemma {:induction false} InsertStopsKeeps(stops: map<Id, RouteStop>, next: Id, lists: seq<seq<Id>>)
    requires Below(stops.Keys, next)
    ensures forall k :: k in stops ==> k in InsertStops(stops, next, lists) && InsertStops(stops, next, lists)[k] == stops[k]
    decreases |lists|
  {
    if lists != [] {
      var s1 := AddStops(stops, next + 1, next, lists[0], 1);
      AddStopsRows(stops, next + 1, next, lists[0], 1);
      InsertStopsKeeps(s1, next + 1 + |lists[0]|, lists[1..]);
    }
  }

  /** Every inserted stop belongs to one of the added routes. */
  lemma {:induction false} InsertStopsRoutes(stops: map<Id, RouteStop>, next: Id, lists: seq<seq<Id>>)
    requires Below(stops.Keys, next)
    ensures forall k :: k in InsertStops(stops, next, lists) && k !in stops ==>
      InsertStops(stops, next, lists)[k].routeId in RouteIds(next, lists)
    decreases |lists|
  {
    if lists != [] {
      var n1 := next + 1 + |lists[0]|;
      var s1 := AddStops(stops, next + 1, next, lists[0], 1);
      AddStopsRows(stops, next + 1, next, lists[0], 1);
      InsertStopsRoutes(s1, n1, lists[1..]);
      InsertStopsKeeps(s1, n1, lists[1..]);
      var m := InsertStops(stops, next, lists);
      assert m == InsertStops(s1, n1, lists[1..]);
      assert RouteIds(next, lists) == [next] + RouteIds(n1, lists[1..]);
      forall k | k in m && k !in stops
        ensures m[k].routeId in RouteIds(next, lists)
      {
        if k in s1 {
          var i := k - next - 1;
          assert s1[next + 1 + i] == NewStop(next, lists[0][i], 1 + i);
          assert m[k] == s1[k];
        } else {
          assert m[k].routeId in RouteIds(n1, lists[1..]);
        }
      }
    }
  }

  /** `after` extends `before`, which extends `first`: a stop new in `after`
      against `before` is new against `first` too. */
  lemma HasNewStopEarlier(first: map<Id, RouteStop>, before: map<Id, RouteStop>, after: map<Id, RouteStop>, st: RouteStop)
    requires forall k :: k in first ==> k in before
    requires HasNewStop(before, after, st)
    ensures HasNewStop(first, after, st)
  {
  }

  /** Every listed order gets a new stop on its route, numbered by its
      position in the list from 1. */
  lemma {:induction false} InsertStopsHas(stops: map<Id, RouteStop>, next: Id, lists: seq<seq<Id>>)
    requires Below(stops.Keys, next)
    ensures forall i, j :: 0 <= i < |lists| && 0 <= j < |lists[i]| ==>
      HasNewStop(stops, InsertStops(stops, next, lists), NewStop(RouteIds(next, lists)[i], lists[i][j], j + 1))
    decreases |lists|
  {
    if lists != [] {
      var n1 := next + 1 + |lists[0]|;
      var s1 := AddStops(stops, next + 1, next, lists[0], 1);
      AddStopsRows(stops, next + 1, next, lists[0], 1);
      InsertStopsHas(s1, n1, lists[1..]);
      InsertStopsKeeps(s1, n1, lists[1..]);
      var m := InsertStops(stops, next, lists);
      var ids := RouteIds(next, lists);
      var rest := RouteIds(n1, lists[1..]);
      assert ids == [next] + rest;
      forall j | 0 <= j < |lists[0]|
        ensures HasNewStop(stops, m, NewStop(next, lists[0][j], j + 1))
      {
        var k := next + 1 + j;
        assert k in m && k !in stops && m[k] == NewStop(next, lists[0][j], 1 + j);
      }
      forall i, j | 1 <= i < |lists| && 0 <= j < |lists[i]|
        ensures HasNewStop(stops, m, NewStop(ids[i], lists[i][j], j + 1))
      {
        assert lists[i] == lists[1..][i - 1] && ids[i] == rest[i - 1];
        HasNewStopEarlier(stops, s1, m, NewStop(ids[i], lists[i][j], j + 1));
      }
    }
  }

  // ---------------------------------------------------------------
  // auto_plan_routes
  // ---------------------------------------------------------------

  /** Some order of the store is eligible for the plan. */
  predicate HasEligible(s: Store, req: AutoPlanRequest) {
    exists id :: id in s.orders && Eligible(s.orders[id], req)
  }

  /** Some vehicle of the store is usable for the plan. */
  predicate HasUsableVehicle(s: Store, req: AutoPlanRequest) {
    exists id :: id in s.vehicles && UsableVehicle(id, s.vehicles[id], req)
  }

  /** The planner's result for the store: the routes it fills, in vehicle
      order, and the orders no vehicle took. */
  function Plan(s: Store, req: AutoPlanRequest): (seq<PlannedRoute>, seq<Candidate>) {
    PlanRoutes(ToVehicles(VehicleIds(s.vehicles, req), s.vehicles), Pool(s.orders, req))
  }

  /** The name of the `n`-th route the planner creates. */
  function PlanName(s: Store, req: AutoPlanRequest, n: nat): string {
    RouteName(HubCode(s, req.hubId), NatToString(n), req.routeDate)
  }

  /** The route rows and order lists of the plans; the `i`-th route is
      numbered `i + 1`, since only vehicles that took orders make a
      route. */
  function PlanRows(s: Store, caller: Caller, req: AutoPlanRequest, plans: seq<PlannedRoute>): (r: seq<(Route, seq<Id>)>)
    ensures |r| == |plans|
    ensures forall i :: 0 <= i < |plans| ==> r[i].0 == PlanRow(req, PlanName(s, req, i + 1), caller.id, plans[i])
    ensures forall i :: 0 <= i < |plans| ==> r[i].1 == Ids(plans[i].orders)
  {
    seq(|plans|, i requires 0 <= i < |plans| =>
      (PlanRow(req, PlanName(s, req, i + 1), caller.id, plans[i]), Ids(plans[i].orders)))
  }

  /** `POST /routes/auto-plan`. With no eligible order it creates nothing
      and reports zeros; with eligible orders but no usable vehicle it
      fails with 400 and changes nothing; otherwise it creates one route
      per vehicle that took orders, with their stops, and moves those
      orders onto it. */
  function AutoPlan(s: Store, caller: Caller, req: AutoPlanRequest): (r: Result<(AutoPlanResponse, Store), Error>)
    requires Valid(s)
    ensures r.Err? <==> HasEligible(s, req) && !HasUsableVehicle(s, req)
    ensures r.Err? ==> r.error == BadRequest("No available vehicles at this hub")
    ensures !HasEligible(s, req) ==> r == Ok((AutoPlanResponse(0, 0, 0, []), s))
  {
    var cids := CandidateIds(s.orders, req);
    var vids := VehicleIds(s.vehicles, req);
    if cids == [] then
      Ok((AutoPlanResponse(0, 0, 0, []), s))
    else if vids == [] then
      assert HasEligible(s, req) by { assert cids[0] in cids; }
      Err(BadRequest("No available vehicles at this hub"))
    else
      assert HasEligible(s, req) && HasUsableVehicle(s, req) by { assert cids[0] in cids && vids[0] in vids; }
      var p := Plan(s, req);
      var a := AddRoutes(TablesOf(s), PlanRows(s, caller, req, p.0));
      Ok((AutoPlanResponse(|p.0|, TotalOrders(p.0), |p.1|, a.0), WithTables(s, a.1)))
  }

  /** What a successful plan over eligible orders returns and writes, in
      terms of the planner's result and `AddRoutes`. */
  lemma AutoPlanUnfold(s: Store, caller: Caller, req: AutoPlanRequest)
    requires Valid(s) && HasEligible(s, req) && AutoPlan(s, caller, req).Ok?
    ensures AutoPlan(s, caller, req).value.0 == AutoPlanResponse(
      |Plan(s, req).0|, TotalOrders(Plan(s, req).0), |Plan(s, req).1|,
      AddRoutes(TablesOf(s), PlanRows(s, caller, req, Plan(s, req).0)).0)
    ensures AutoPlan(s, caller, req).value.1 == WithTables(s, AddRoutes(TablesOf(s), PlanRows(s, caller, req, Plan(s, req).0)).1)
  {
    var id :| id in s.orders && Eligible(s.orders[id], req);
    assert id in CandidateIds(s.orders, req);
  }

  lemma {:induction false} ListsOfPlanRows(s: Store, caller: Caller, req: AutoPlanRequest, plans: seq<PlannedRoute>)
    ensures Lists(PlanRows(s, caller, req, plans)) == IdLists(plans)
  {
  }

  /** The counts: every eligible order is either assigned or reported
      unassigned, and there is at most one route per usable vehicle. */
  lemma AutoPlanCounts(s: Store, caller: Caller, req: AutoPlanRequest)
    requires Valid(s) && AutoPlan(s, caller, req).Ok?
    ensures AutoPlan(s, caller, req).value.0.totalOrdersAssigned + AutoPlan(s, caller, req).value.0.unassignedOrders
      == |EligibleIds(s.orders, req)|
    ensures AutoPlan(s, caller, req).value.0.routesCreated == |AutoPlan(s, caller, req).value.0.routes|
    ensures AutoPlan(s, caller, req).value.0.routesCreated <= |UsableIds(s.vehicles, req)|
  {
    if HasEligible(s, req) {
      AutoPlanUnfold(s, caller, req);
      PoolRows(s.orders, req);
      PlanRoutesConserves(ToVehicles(VehicleIds(s.vehicles, req), s.vehicles), Pool(s.orders, req));
    }
  }

  /** With no eligible order the planner fills nothing. */
  lemma NoEligibleNoPlan(s: Store, req: AutoPlanRequest)
    requires !HasEligible(s, req)
    ensures Plan(s, req).0 == []
  {
    PoolRows(s.orders, req);
    assert EligibleIds(s.orders, req) == {};
  }

  /** Every planned route belongs to a usable vehicle of the hub and
      respects that vehicle's effective capacity and the stop limit. */
  lemma PlanShape(s: Store, req: AutoPlanRequest)
    ensures forall i :: 0 <= i < |Plan(s, req).0| ==> WithinLimits(Plan(s, req).0[i])
    ensures forall i :: 0 <= i < |Plan(s, req).0| ==>
      && Plan(s, req).0[i].vehicleId in s.vehicles
      && UsableVehicle(Plan(s, req).0[i].vehicleId, s.vehicles[Plan(s, req).0[i].vehicleId], req)
      && Plan(s, req).0[i].capacity == CapacityOf(s.vehicles[Plan(s, req).0[i].vehicleId])
  {
    PlanVehiclesFrom(VehicleIds(s.vehicles, req), s.vehicles, Pool(s.orders, req));
  }

  /** The planned routes follow ascending vehicle id order, so no vehicle
      gets two routes. */
  lemma PlanOrder(s: Store, req: AutoPlanRequest)
    ensures forall i, j :: 0 <= i < j < |Plan(s, req).0| ==> Plan(s, req).0[i].vehicleId < Plan(s, req).0[j].vehicleId
  {
    PlanVehiclesAscend(ToVehicles(VehicleIds(s.vehicles, req), s.vehicles), Pool(s.orders, req));
  }

  /** Every order on a planned route is the current row of an eligible
      order. */
  lemma PlanEligible(s: Store, req: AutoPlanRequest)
    ensures EligibleRows(Plan(s, req).0, s.orders, req)
  {
    PlannedRows(ToVehicles(VehicleIds(s.vehicles, req), s.vehicles), s.orders, req);
  }

  /** The routes a plan creates: fresh ids in ascending order, one per
      planned route. */
  lemma AutoPlanRoutes(s: Store, caller: Caller, req: AutoPlanRequest)
    requires Valid(s) && AutoPlan(s, caller, req).Ok?
    ensures |AutoPlan(s, caller, req).value.0.routes| == |Plan(s, req).0|
    ensures forall i :: 0 <= i < |AutoPlan(s, caller, req).value.0.routes| ==> s.nextId <= AutoPlan(s, caller, req).value.0.routes[i] && AutoPlan(s, caller, req).value.0.routes[i] !in s.routes
    ensures forall i, j :: 0 <= i < j < |AutoPlan(s, caller, req).value.0.routes| ==> AutoPlan(s, caller, req).value.0.routes[i] < AutoPlan(s, caller, req).value.0.routes[j]
  {
    if HasEligible(s, req) {
      AutoPlanUnfold(s, caller, req);
      var rows := PlanRows(s, caller, req, Plan(s, req).0);
      AddRoutesRoutes(TablesOf(s), rows);
      AddRoutesFresh(TablesOf(s), rows);
    } else {
      NoEligibleNoPlan(s, req);
    }
  }

  /** The routes table gains exactly the new routes, the `i`-th holding
      the row of the `i`-th plan named with number `i + 1`, and keeps every
      stored route. */
  lemma AutoPlanRouteRows(s: Store, caller: Caller, req: AutoPlanRequest)
    requires Valid(s) && AutoPlan(s, caller, req).Ok?
    ensures forall x :: x in AutoPlan(s, caller, req).value.1.routes <==> x in s.routes || x in AutoPlan(s, caller, req).value.0.routes
    ensures forall x :: x in s.routes ==> AutoPlan(s, caller, req).value.1.routes[x] == s.routes[x]
    ensures forall i :: 0 <= i < |AutoPlan(s, caller, req).value.0.routes| ==>
      AutoPlan(s, caller, req).value.0.routes[i] in AutoPlan(s, caller, req).value.1.routes && AutoPlan(s, caller, req).value.1.routes[AutoPlan(s, caller, req).value.0.routes[i]] == PlanRow(req, PlanName(s, req, i + 1), caller.id, Plan(s, req).0[i])
  {
    if HasEligible(s, req) {
      AutoPlanUnfold(s, caller, req);
      var rows := PlanRows(s, caller, req, Plan(s, req).0);
      AddRoutesRoutes(TablesOf(s), rows);
      var ids := AddRoutes(TablesOf(s), rows).0;
      var t := AddRoutes(TablesOf(s), rows).1;
      assert AutoPlan(s, caller, req).value.0.routes == ids;
      assert AutoPlan(s, caller, req).value.1.routes == t.routes;
      forall i | 0 <= i < |ids|
        ensures ids[i] in t.routes && t.routes[ids[i]] == PlanRow(req, PlanName(s, req, i + 1), caller.id, Plan(s, req).0[i])
      {
        assert rows[i].0 == PlanRow(req, PlanName(s, req, i + 1), caller.id, Plan(s, req).0[i]);
      }
    } else {
      NoEligibleNoPlan(s, req);
    }
  }

  /** A plan's new route ids and order rows, as `RouteIds` and
      `MoveOrders` give them over the plan's order lists. */
  lemma AutoPlanMoves(s: Store, caller: Caller, req: AutoPlanRequest)
    requires Valid(s) && HasEligible(s, req) && AutoPlan(s, caller, req).Ok?
    ensures AutoPlan(s, caller, req).value.0.routes == RouteIds(s.nextId, IdLists(Plan(s, req).0))
    ensures AutoPlan(s, caller, req).value.1.orders == MoveOrders(s.orders, s.nextId, IdLists(Plan(s, req).0))
  {
    AutoPlanUnfold(s, caller, req);
    var rows := PlanRows(s, caller, req, Plan(s, req).0);
    AddRoutesIds(TablesOf(s), rows);
    AddRoutesMoves(TablesOf(s), rows);
    ListsOfPlanRows(s, caller, req, Plan(s, req).0);
  }

  /** `after` puts every stored order the `i`-th list names onto route
      `routes[i]`. */
  predicate MovedBy(before: map<Id, DeliveryOrder>, after: map<Id, DeliveryOrder>, lists: seq<seq<Id>>, routes: seq<Id>)
    requires |routes| == |lists|
  {
    forall i, id :: 0 <= i < |lists| && id in lists[i] && id in before ==>
      id in after && after[id] == SetRoute(before[id], routes[i])
  }

  /** `after` puts every order of the `i`-th route of `ps` onto route
      `routes[i]`, as a patch of its row in `before`; every routed order
      is stored in `before`. */
  predicate OnRoutes(before: map<Id, DeliveryOrder>, after: map<Id, DeliveryOrder>, ps: seq<PlannedRoute>, routes: seq<Id>) {
    && |routes| == |ps|
    && (forall i, id :: 0 <= i < |ps| && id in Ids(ps[i].orders) ==> id in before)
    && MovedBy(before, after, IdLists(ps), routes)
  }

  /** Every planned order moves onto its route's new id, and nothing
      else about it changes. */
  lemma AutoPlanOrders(s: Store, caller: Caller, req: AutoPlanRequest)
    requires Valid(s) && AutoPlan(s, caller, req).Ok?
    ensures OnRoutes(s.orders, AutoPlan(s, caller, req).value.1.orders, Plan(s, req).0, AutoPlan(s, caller, req).value.0.routes)
  {
    if HasEligible(s, req) {
      var lists := IdLists(Plan(s, req).0);
      AutoPlanMoves(s, caller, req);
      PlanIdsDisjoint(ToVehicles(VehicleIds(s.vehicles, req), s.vehicles), s.orders, req);
      PlanIdsIn(s, req);
      MoveOrdersMoved(s.orders, s.nextId, lists);
    } else {
      NoEligibleNoPlan(s, req);
    }
  }

  /** Every id a plan routes is a key of the orders table. */
  lemma PlanIdsIn(s: Store, req: AutoPlanRequest)
    ensures forall i, id :: 0 <= i < |Plan(s, req).0| && id in Ids(Plan(s, req).0[i].orders) ==> id in s.orders
  {
    PlanEligible(s, req);
    RoutedIdsIn(Plan(s, req).0, s.orders, req);
  }

  lemma {:induction false} MoveOrdersMoved(orders: map<Id, DeliveryOrder>, next: Id, lists: seq<seq<Id>>)
    requires DisjointLists(lists)
    ensures MovedBy(orders, MoveOrders(orders, next, lists), lists, RouteIds(next, lists))
  {
    MoveOrdersRoutes(orders, next, lists);
  }

  /** Auto-plan keeps the orders table's key set, and an order no plan
      takes stays as it was. */
  lemma AutoPlanOrdersFrame(s: Store, caller: Caller, req: AutoPlanRequest)
    requires Valid(s) && AutoPlan(s, caller, req).Ok?
    ensures forall id :: id in AutoPlan(s, caller, req).value.1.orders <==> id in s.orders
    ensures forall id :: id in s.orders && id !in Ids(AllOrders(Plan(s, req).0)) ==> AutoPlan(s, caller, req).value.1.orders[id] == s.orders[id]
  {
    if HasEligible(s, req) {
      AutoPlanMoves(s, caller, req);
      MoveOrdersFrame(s.orders, s.nextId, IdLists(Plan(s, req).0));
      FlattenIdLists(Plan(s, req).0);
    } else {
      NoEligibleNoPlan(s, req);
    }
  }

  /** The stops a plan inserts: the stored stops are kept and every new
      stop belongs to one of the new routes. */
  lemma AutoPlanStops(s: Store, caller: Caller, req: AutoPlanRequest)
    requires Valid(s) && AutoPlan(s, caller, req).Ok?
    ensures forall k :: k in s.stops ==> k in AutoPlan(s, caller, req).value.1.stops && AutoPlan(s, caller, req).value.1.stops[k] == s.stops[k]
    ensures forall k :: k in AutoPlan(s, caller, req).value.1.stops && k !in s.stops ==> AutoPlan(s, caller, req).value.1.stops[k].routeId in AutoPlan(s, caller, req).value.0.routes
  {
    if HasEligible(s, req) {
      AutoPlanUnfold(s, caller, req);
      var rows := PlanRows(s, caller, req, Plan(s, req).0);
      var lists := IdLists(Plan(s, req).0);
      AddRoutesIds(TablesOf(s), rows);
      AddRoutesInserts(TablesOf(s), rows);
      ListsOfPlanRows(s, caller, req, Plan(s, req).0);
      InsertStopsKeeps(s.stops, s.nextId, lists);
      InsertStopsRoutes(s.stops, s.nextId, lists);
      InsertStopsHas(s.stops, s.nextId, lists);
    } else {
      NoEligibleNoPlan(s, req);
    }
  }

  /** Every order of the `i`-th planned route gets a stop on that route, in
      plan order and numbered from 1. */
  lemma AutoPlanStopRows(s: Store, caller: Caller, req: AutoPlanRequest)
    requires Valid(s) && AutoPlan(s, caller, req).Ok?
    ensures |AutoPlan(s, caller, req).value.0.routes| == |Plan(s, req).0|
    ensures forall i, j :: 0 <= i < |AutoPlan(s, caller, req).value.0.routes| && 0 <= j < |Plan(s, req).0[i].orders| ==>
      HasNewStop(s.stops, AutoPlan(s, caller, req).value.1.stops, NewStop(AutoPlan(s, caller, req).value.0.routes[i], Plan(s, req).0[i].orders[j].id, j + 1))
  {
    if HasEligible(s, req) {
      AutoPlanUnfold(s, caller, req);
      var rows := PlanRows(s, caller, req, Plan(s, req).0);
      var lists := IdLists(Plan(s, req).0);
      AddRoutesIds(TablesOf(s), rows);
      AddRoutesInserts(TablesOf(s), rows);
      ListsOfPlanRows(s, caller, req, Plan(s, req).0);
      InsertStopsKeeps(s.stops, s.nextId, lists);
      InsertStopsRoutes(s.stops, s.nextId, lists);
      InsertStopsHas(s.stops, s.nextId, lists);
    } else {
      NoEligibleNoPlan(s, req);
    }
  }

  lemma AutoPlanFrame(s: Store, caller: Caller, req: AutoPlanRequest)
    requires Valid(s) && AutoPlan(s, caller, req).Ok?
    ensures Valid(AutoPlan(s, caller, req).value.1)
    ensures AutoPlan(s, caller, req).value.1.(routes := s.routes, stops := s.stops, orders := s.orders, nextId := s.nextId) == s
  {
    if HasEligible(s, req) {
      AutoPlanUnfold(s, caller, req);
      var a := AddRoutes(TablesOf(s), PlanRows(s, caller, req, Plan(s, req).0));
      AddRoutesValid(TablesOf(s), PlanRows(s, caller, req, Plan(s, req).0));
      WithTablesValid(s, a.1);
    }
  }
}

=== FILE: hubs.dfy ===
/** The hub administration endpoints: creating a hub with a fresh code,
    listing and reading hubs under role visibility, patching a hub, and the
    day's counters of one hub. */
module Hubs {
  import opened Wrappers
  import opened DeliveryModels
  import opened HubModels
  import opened Tables
  import HubAnalytics

  /** Some hub already uses `code`. */
  predicate CodeTaken(hubs: map<Id, Hub>, code: string) {
    exists k :: k in hubs && hubs[k].code == code
  }

  /** No two hubs share a code. */
  predicate UniqueCodes(hubs: map<Id, Hub>) {
    forall j, k :: j in hubs && k in hubs && j != k ==> hubs[j].code != hubs[k].code
  }

  /** `create_hub`: a code already in use is refused; otherwise the hub is
      inserted active, under a fresh id. */
  function CreateHub(s: Store, name: string, code: string, city: string, managerId: Option<UserId>)
    : (r: Result<(Id, Store), Error>)
    ensures r.Err? <==> CodeTaken(s.hubs, code)
    ensures r.Err? ==> r.error == BadRequest("Hub code already exists")
    ensures r.Ok? ==>
      && r.value.0 == s.nextId
      && r.value.1.hubs == s.hubs[s.nextId := Hub(name, code, city, managerId, true)]
      && r.value.1.nextId == s.nextId + 1
      && r.value.1.(hubs := s.hubs, nextId := s.nextId) == s
  {
    if CodeTaken(s.hubs, code) then Err(BadRequest("Hub code already exists"))
    else Ok((s.nextId, s.(hubs := s.hubs[s.nextId := Hub(name, code, city, managerId, true)], nextId := s.nextId + 1)))
  }

  /** Creating hubs keeps codes unique and the store valid. */
  lemma CreateKeepsCodesUnique(s: Store, name: string, code: string, city: string, managerId: Option<UserId>)
    requires Valid(s) && UniqueCodes(s.hubs)
    ensures var r := CreateHub(s, name, code, city, managerId);
      r.Ok? ==> Valid(r.value.1) && UniqueCodes(r.value.1.hubs) && r.value.0 !in s.hubs
  {
    var r := CreateHub(s, name, code, city, managerId);
    if r.Ok? {
      var t := r.value.1;
      assert s.nextId !in s.hubs;
      forall j, k | j in t.hubs && k in t.hubs && j != k ensures t.hubs[j].code != t.hubs[k].code {
        if j == s.nextId {
          assert k in s.hubs;
        } else if k == s.nextId {
          assert j in s.hubs;
        }
      }
    }
  }

  /** Whether `caller` is shown hub `h` by `list_hubs`: a hub manager sees
      the hubs naming them as manager, an admin sees every hub. */
  predicate Listed(caller: Caller, h: Hub, isActive: Option<bool>) {
    && (caller.role == "hub_manager" ==> h.managerId == Some(caller.id))
    && (isActive.Some? ==> h.isActive == isActive.value)
  }

  /** `list_hubs`: hub managers and admins get the hubs they may see,
      newest first; any other role is refused. */
  function ListHubs(s: Store, caller: Caller, isActive: Option<bool>): (r: Result<seq<Id>, Error>)
    ensures r.Err? <==> caller.role != "hub_manager" && !IsAdmin(caller.role)
    ensures r.Err? ==> r.error == Forbidden("Insufficient permissions")
    ensures r.Ok? ==> forall k :: k in r.value <==> k in s.hubs && Listed(caller, s.hubs[k], isActive)
    ensures r.Ok? ==> forall i, j :: 0 <= i < j < |r.value| ==> r.value[i] > r.value[j]
  {
    if caller.role == "hub_manager" || IsAdmin(caller.role) then
      Ok(Descending(set k | k in s.hubs && Listed(caller, s.hubs[k], isActive)))
    else Err(Forbidden("Insufficient permissions"))
  }

  /** A hub manager never sees another manager's hub, and an admin without
      a filter sees every hub. */
  lemma ListVisibility(s: Store, caller: Caller, isActive: Option<bool>)
    ensures var r := ListHubs(s, caller, isActive);
      && (caller.role == "hub_manager" ==> forall k :: k in r.value ==> s.hubs[k].managerId == Some(caller.id))
      && (IsAdmin(caller.role) && isActive.None? ==> forall k :: k in s.hubs ==> k in r.value)
  {
  }

  /** The roles `get_hub` serves at all. */
  predicate ReadsHubs(role: string) {
    role == "hub_manager" || IsAdmin(role) || role == "driver"
  }

  /** `get_hub`: a missing hub is reported first, then a hub manager asking
      for a hub they do not manage, then a role that may not read hubs. */
  function GetHub(s: Store, caller: Caller, id: Id): (r: Result<Hub, Error>)
    ensures id !in s.hubs ==> r == Err(NotFound("Hub not found"))
    ensures id in s.hubs && caller.role == "hub_manager" && s.hubs[id].managerId != Some(caller.id) ==>
      r == Err(Forbidden("Access denied"))
    ensures id in s.hubs && !ReadsHubs(caller.role) ==> r == Err(Forbidden("Insufficient permissions"))
    ensures r.Ok? <==>
      id in s.hubs && ReadsHubs(caller.role) && (caller.role == "hub_manager" ==> s.hubs[id].managerId == Some(caller.id))
    ensures r.Ok? ==> r.value == s.hubs[id]
  {
    if id !in s.hubs then Err(NotFound("Hub not found"))
    else if caller.role == "hub_manager" && s.hubs[id].managerId != Some(caller.id) then Err(Forbidden("Access denied"))
    else if !ReadsHubs(caller.role) then Err(Forbidden("Insufficient permissions"))
    else Ok(s.hubs[id])
  }

  /** A hub `get_hub` returns to a hub manager is one `list_hubs` lists for
      them, and the other way round. */
  lemma GetAgreesWithList(s: Store, caller: Caller, id: Id)
    requires caller.role == "hub_manager"
    ensures GetHub(s, caller, id).Ok? <==> id in ListHubs(s, caller, None).value
  {
  }

  /** The fields a `HubUpdate` sets; `None` is a field left unset. Setting
      `managerId` to `Some(None)` clears the manager. `others` records that
      some column this model does not keep (address, phone, coordinates)
      is set. */
  datatype HubPatch = HubPatch(
    name: Option<string>,
    city: Option<string>,
    managerId: Option<Option<UserId>>,
    isActive: Option<bool>,
    others: bool)

  predicate EmptyPatch(p: HubPatch) {
    p.name.None? && p.city.None? && p.managerId.None? && p.isActive.None? && !p.others
  }

  /** The hub with the patch's set fields written over it. */
  function Apply(h: Hub, p: HubPatch): (r: Hub)
    ensures r.code == h.code
    ensures p.name.Some? ==> r.name == p.name.value
    ensures p.name.None? ==> r.name == h.name
    ensures p.city.Some? ==> r.city == p.city.value
    ensures p.city.None? ==> r.city == h.city
    ensures p.managerId.Some? ==> r.managerId == p.managerId.value
    ensures p.managerId.None? ==> r.managerId == h.managerId
    ensures p.isActive.Some? ==> r.isActive == p.isActive.value
    ensures p.isActive.None? ==> r.isActive == h.isActive
  {
    Hub(p.name.GetOr(h.name), h.code, p.city.GetOr(h.city), p.managerId.GetOr(h.managerId), p.isActive.GetOr(h.isActive))
  }

  /** Applying a patch twice is applying it once. */
  lemma ApplyIdempotent(h: Hub, p: HubPatch)
    ensures Apply(Apply(h, p), p) == Apply(h, p)
  {
  }

  /** `update_hub`: a hub manager must manage the hub (a missing hub counts
      as not theirs); only then is an empty patch refused; a missing hub is
      reported last. */
  function UpdateHub(s: Store, caller: Caller, id: Id, p: HubPatch): (r: Result<(Hub, Store), Error>)
    ensures caller.role == "hub_manager" && (id !in s.hubs || s.hubs[id].managerId != Some(caller.id)) ==>
      r == Err(Forbidden("Access denied"))
    ensures r.Err? && r.error.BadRequest? <==>
      EmptyPatch(p) && (caller.role == "hub_manager" ==> id in s.hubs && s.hubs[id].managerId == Some(caller.id))
    ensures r.Err? && r.error.BadRequest? ==> r.error.detail == "No fields to update"
    ensures r.Ok? <==>
      id in s.hubs && !EmptyPatch(p) && (caller.role == "hub_manager" ==> s.hubs[id].managerId == Some(caller.id))
    ensures !EmptyPatch(p) && id !in s.hubs && caller.role != "hub_manager" ==> r == Err(NotFound("Hub not found"))
    ensures r.Ok? ==> r.value.0 == Apply(s.hubs[id], p) && r.value.1 == s.(hubs := s.hubs[id := r.value.0])
  {
    if caller.role == "hub_manager" && (id !in s.hubs || s.hubs[id].managerId != Some(caller.id)) then
      Err(Forbidden("Access denied"))
    else if EmptyPatch(p) then Err(BadRequest("No fields to update"))
    else if id !in s.hubs then Err(NotFound("Hub not found"))
    else
      var h := Apply(s.hubs[id], p);
      Ok((h, s.(hubs := s.hubs[id := h])))
  }

  /** An update keeps the hub's code, so codes stay unique, and leaves every
      other hub as it was. */
  lemma UpdateKeepsCodes(s: Store, caller: Caller, id: Id, p: HubPatch)
    requires UniqueCodes(s.hubs)
    ensures var r := UpdateHub(s, caller, id, p);
      r.Ok? ==>
        && UniqueCodes(r.value.1.hubs)
        && r.value.1.hubs.Keys == s.hubs.Keys
        && forall k :: k in s.hubs && k != id ==> r.value.1.hubs[k] == s.hubs[k]
  {
  }

  /** The counters `get_hub_stats` reports for one hub and day. */
  datatype HubStats = HubStats(
    totalOrdersToday: nat,
    pendingOrders: nat,
    outForDelivery: nat,
    deliveredToday: nat,
    failedToday: nat,
    completionRate: real,
    activeDrivers: nat,
    activeRoutes: nat)

  /** The hub's drivers that are online or on a delivery; unlike the
      dashboards, this count does not look at `is_active`. */
  function WorkingDrivers(drivers: map<Id, Driver>, h: Id): set<Id> {
    set k | k in drivers && drivers[k].hubId == Some(h) && HubAnalytics.OnlineStatus(drivers[k].status)
  }

  /** The analytics dashboards' online drivers are these working drivers
      restricted to the active ones. */
  lemma {:induction false} OnlineAreActiveWorking(drivers: map<Id, Driver>, h: Id)
    ensures HubAnalytics.OnlineDrivers(drivers, h) == WorkingDrivers(drivers, h) * (set k | k in drivers && drivers[k].isActive)
  {
  }

  /** The hub's routes of day `today` that are assigned or under way. */
  function ActiveRoutes(routes: map<Id, Route>, h: Id, today: Date): set<Id> {
    HubAnalytics.RoutesIn(routes, h, today, RouteAssigned) + HubAnalytics.RoutesIn(routes, h, today, InProgress)
  }

  /** Delivered orders as a percentage of all of the day's orders, 0 on a
      day without orders. */
  function CompletionRate(delivered: nat, total: nat): (r: real)
    requires delivered <= total
    ensures 0.0 <= r <= 100.0
    ensures total == 0 ==> r == 0.0
    ensures total > 0 ==> r * total as real == 100.0 * delivered as real
  {
    if total > 0 then
      assert delivered as real / total as real <= 1.0;
      delivered as real / total as real * 100.0
    else 0.0
  }

  /** The counters over the hub's rows `t` of the day. */
  function DayStats(t: seq<HubAnalytics.OrderRow>, drivers: nat, routes: nat): (r: HubStats)
    ensures r.totalOrdersToday == |t|
    ensures r.pendingOrders + r.outForDelivery + r.deliveredToday + r.failedToday <= r.totalOrdersToday
    ensures r.completionRate == CompletionRate(r.deliveredToday, r.totalOrdersToday)
    ensures r.activeDrivers == drivers && r.activeRoutes == routes
  {
    HubAnalytics.StatusCountsPartition(t);
    var delivered := HubAnalytics.CountStatus(t, Delivered);
    HubStats(|t|, HubAnalytics.CountStatus(t, Pending), HubAnalytics.CountStatus(t, OutForDelivery), delivered,
             HubAnalytics.CountStatus(t, Failed), CompletionRate(delivered, |t|), drivers, routes)
  }

  /** `get_hub_stats` for hub `h` on day `today`, over the order rows
      `rows` of the `delivery_orders` table. Any hub id is answered; an
      unknown hub has all counters zero. */
  function GetHubStats(s: Store, rows: seq<HubAnalytics.OrderRow>, h: Id, today: Date): (r: HubStats)
    ensures r.totalOrdersToday == |HubAnalytics.ForHub(HubAnalytics.Today(rows, today), h)|
    ensures r.pendingOrders + r.outForDelivery + r.deliveredToday + r.failedToday <= r.totalOrdersToday
    ensures r.completionRate == CompletionRate(r.deliveredToday, r.totalOrdersToday)
    ensures r.activeDrivers == |WorkingDrivers(s.drivers, h)|
    ensures r.activeRoutes == |ActiveRoutes(s.routes, h, today)|
  {
    DayStats(HubAnalytics.ForHub(HubAnalytics.Today(rows, today), h),
             |WorkingDrivers(s.drivers, h)|, |ActiveRoutes(s.routes, h, today)|)
  }

  /** Each status counter counts exactly the day's rows of the hub in that
      status. */
  lemma {:induction false} StatsCountStatus(s: Store, rows: seq<HubAnalytics.OrderRow>, h: Id, today: Date)
    ensures var r := GetHubStats(s, rows, h, today);
      var t := HubAnalytics.ForHub(HubAnalytics.Today(rows, today), h);
      && r.pendingOrders == |HubAnalytics.StatusPositions(t, Pending)|
      && r.outForDelivery == |HubAnalytics.StatusPositions(t, OutForDelivery)|
      && r.deliveredToday == |HubAnalytics.StatusPositions(t, Delivered)|
      && r.failedToday == |HubAnalytics.StatusPositions(t, Failed)|
  {
    var t := HubAnalytics.ForHub(HubAnalytics.Today(rows, today), h);
    assert GetHubStats(s, rows, h, today) == DayStats(t, |WorkingDrivers(s.drivers, h)|, |ActiveRoutes(s.routes, h, today)|);
    HubAnalytics.CountIsCardinality(t, Pending);
    HubAnalytics.CountIsCardinality(t, OutForDelivery);
    HubAnalytics.CountIsCardinality(t, Delivered);
    HubAnalytics.CountIsCardinality(t, Failed);
  }
}

=== FILE: market_models.dfy ===
/** The marketplace-order records the order and delivery routers touch,
    with the status enumeration of packages/api-python/app/models/order.py. */
module MarketModels {
  import opened Wrappers
  import opened DeliveryModels

  datatype MarketStatus =
    | MPending | Confirmed | Preparing | ReadyForPickup | DriverAssigned
    | PickedUp | InTransit | Arrived | MDelivered | MCancelled | Refunded
  {
    function Name(): string {
      match this
      case MPending => "pending"
      case Confirmed => "confirmed"
      case Preparing => "preparing"
      case ReadyForPickup => "ready_for_pickup"
      case DriverAssigned => "driver_assigned"
      case PickedUp => "picked_up"
      case InTransit => "in_transit"
      case Arrived => "arrived"
      case MDelivered => "delivered"
      case MCancelled => "cancelled"
      case Refunded => "refunded"
    }
  }

  /** A row of `orders`. `stamps` holds the lifecycle timestamp columns
      (`confirmed_at`, `ready_at`, ...) that have been written. */
  datatype MarketOrder = MarketOrder(
    customerId: UserId,
    merchantId: Id,
    status: MarketStatus,
    driverId: Option<Id>,
    stamps: map<string, Time>,
    cancellationReason: Option<string>,
    cancelledBy: Option<UserId>)

  /** A row of `order_status_history`. */
  datatype HistoryEntry = HistoryEntry(orderId: Id, status: MarketStatus, changedBy: UserId, notes: Option<string>)

  /** A row of `coupons`. */
  datatype Coupon = Coupon(isActive: bool, discountType: string, discountValue: real, maxDiscountAmount: Option<real>)

  /** A row of `merchants`. */
  datatype Merchant = Merchant(userId: UserId, businessName: string, slug: string, status: string)
}

=== FILE: market_orders.dfy ===
/** The marketplace-order router (packages/api-python/app/routers/orders.py):
    who may move an order to which status, the timestamp column each
    status writes, the customer cancel guard, and the coupon discount an
    order is created with. */
module MarketOrders {
  import opened Wrappers
  import opened DeliveryModels
  import opened MarketModels
  import opened Tables

  // ---------------------------------------------------------------
  // Status updates
  // ---------------------------------------------------------------

  /** The statuses the `allowed_transitions` table lists for a role that
      is not an administrator; a role missing from it gets none. */
  function RoleTargets(role: string): (r: set<MarketStatus>)
    ensures role != "merchant" && role != "driver" ==> r == {}
  {
    if role == "merchant" then {Confirmed, Preparing, ReadyForPickup}
    else if role == "driver" then {PickedUp, InTransit, Arrived, MDelivered}
    else {}
  }

  /** Whether `role` may set an order to `target`: an administrator may set
      any status, everyone else only those its table row lists. */
  predicate MaySet(role: string, target: MarketStatus) {
    IsAdmin(role) || target in RoleTargets(role)
  }

  /** The timestamp column `timestamp_map` writes for a target status. */
  function StampColumn(target: MarketStatus): (r: Option<string>)
    ensures r.Some? <==> target in {Confirmed, Preparing, ReadyForPickup, PickedUp, MDelivered, MCancelled}
  {
    match target
    case Confirmed => Some("confirmed_at")
    case Preparing => Some("preparing_at")
    case ReadyForPickup => Some("ready_at")
    case PickedUp => Some("picked_up_at")
    case MDelivered => Some("delivered_at")
    case MCancelled => Some("cancelled_at")
    case _ => None
  }

  /** The order after its status is set to `target` at `now`. */
  function Restamp(o: MarketOrder, target: MarketStatus, now: Time): MarketOrder {
    var col := StampColumn(target);
    o.(status := target, stamps := if col.Some? then o.stamps[col.value := now] else o.stamps)
  }

  /** `update_order_status`: the order must exist and the caller's role
      must allow the target; then the status and its timestamp are written
      and one history entry is appended. The reply is the updated order. */
  function UpdateStatus(s: Store, caller: Caller, id: Id, target: MarketStatus, notes: Option<string>, now: Time)
    : (r: Result<(MarketOrder, Store), Error>)
    ensures id !in s.marketOrders ==> r == Err(NotFound("Order not found"))
    ensures id in s.marketOrders && !MaySet(caller.role, target) ==>
      r == Err(Forbidden("Not authorized for this status change"))
    ensures r.Ok? <==> id in s.marketOrders && MaySet(caller.role, target)
    ensures r.Ok? ==> r.value.0.status == target
    ensures r.Ok? ==> r.value.0.(status := s.marketOrders[id].status, stamps := s.marketOrders[id].stamps) == s.marketOrders[id]
    ensures r.Ok? && StampColumn(target).None? ==> r.value.0.stamps == s.marketOrders[id].stamps
    ensures r.Ok? && StampColumn(target).Some? ==>
      r.value.0.stamps.Keys == s.marketOrders[id].stamps.Keys + {StampColumn(target).value}
      && r.value.0.stamps[StampColumn(target).value] == now
      && forall c :: c in s.marketOrders[id].stamps && c != StampColumn(target).value ==>
           r.value.0.stamps[c] == s.marketOrders[id].stamps[c]
    ensures r.Ok? ==> r.value.1.marketOrders == s.marketOrders[id := r.value.0]
    ensures r.Ok? ==> r.value.1.history == s.history + [HistoryEntry(id, target, caller.id, notes)]
    ensures r.Ok? ==> r.value.1.(marketOrders := s.marketOrders, history := s.history) == s
  {
    if id !in s.marketOrders then Err(NotFound("Order not found"))
    else if !IsAdmin(caller.role) && target !in RoleTargets(caller.role) then
      Err(Forbidden("Not authorized for this status change"))
    else
      var o := Restamp(s.marketOrders[id], target, now);
      Ok((o, s.(marketOrders := s.marketOrders[id := o],
                history := s.history + [HistoryEntry(id, target, caller.id, notes)])))
  }

  /** No two statuses write the same timestamp column. */
  lemma StampColumnInjective(a: MarketStatus, b: MarketStatus)
    requires StampColumn(a).Some? && StampColumn(a) == StampColumn(b)
    ensures a == b
  {
  }

  /** The merchant and driver rows share no status, and neither lists
      `pending`, `driver_assigned`, `cancelled` or `refunded`: only an
      administrator can set those through a status update. */
  lemma RoleTargetsShape(role: string, t: MarketStatus)
    ensures !(t in RoleTargets("merchant") && t in RoleTargets("driver"))
    ensures t in {MPending, DriverAssigned, MCancelled, Refunded} ==> (MaySet(role, t) <==> IsAdmin(role))
    ensures MaySet(role, t) ==> role in {"merchant", "driver", "admin", "super_admin"}
  {
  }

  /** The order's current status never decides whether an update is
      allowed: the same call on the same order in any other status
      succeeds or fails alike. */
  lemma UpdateIgnoresCurrent(s: Store, caller: Caller, id: Id, target: MarketStatus, notes: Option<string>, now: Time, other: MarketStatus)
    requires id in s.marketOrders
    ensures UpdateStatus(s, caller, id, target, notes, now).Ok? <==>
            UpdateStatus(s.(marketOrders := s.marketOrders[id := s.marketOrders[id].(status := other)]), caller, id, target, notes, now).Ok?
  {
  }

  // ---------------------------------------------------------------
  // Cancellation
  // ---------------------------------------------------------------

  /** Statuses from which the customer cancel endpoint refuses. */
  predicate NonCancellable(st: MarketStatus) {
    st in {PickedUp, InTransit, Arrived, MDelivered, MCancelled, Refunded}
  }

  /** `cancel_order`: the order must exist, the caller must own it or be an
      administrator, and it must not have been picked up or closed; then it
      becomes cancelled with the time, the reason and the canceller. No
      history entry is written. */
  function CancelOrder(s: Store, caller: Caller, id: Id, reason: string, now: Time)
    : (r: Result<(MarketOrder, Store), Error>)
    ensures id !in s.marketOrders ==> r == Err(NotFound("Order not found"))
    ensures id in s.marketOrders && s.marketOrders[id].customerId != caller.id && !IsAdmin(caller.role) ==>
      r == Err(Forbidden("Not authorized"))
    ensures id in s.marketOrders && (s.marketOrders[id].customerId == caller.id || IsAdmin(caller.role))
            && NonCancellable(s.marketOrders[id].status) ==>
      r == Err(BadRequest("Order cannot be cancelled at this stage"))
    ensures r.Ok? <==> id in s.marketOrders && (s.marketOrders[id].customerId == caller.id || IsAdmin(caller.role))
                       && !NonCancellable(s.marketOrders[id].status)
    ensures r.Ok? ==> r.value.0.status == MCancelled && r.value.0.stamps == s.marketOrders[id].stamps["cancelled_at" := now]
    ensures r.Ok? ==> r.value.0.cancellationReason == Some(reason) && r.value.0.cancelledBy == Some(caller.id)
    ensures r.Ok? ==>
      && r.value.0.customerId == s.marketOrders[id].customerId
      && r.value.0.merchantId == s.marketOrders[id].merchantId
      && r.value.0.driverId == s.marketOrders[id].driverId
    ensures r.Ok? ==> r.value.1 == s.(marketOrders := s.marketOrders[id := r.value.0])
  {
    if id !in s.marketOrders then Err(NotFound("Order not found"))
    else
      var o := s.marketOrders[id];
      if o.customerId != caller.id && !IsAdmin(caller.role) then Err(Forbidden("Not authorized"))
      else if NonCancellable(o.status) then Err(BadRequest("Order cannot be cancelled at this stage"))
      else
        var c := o.(status := MCancelled, stamps := o.stamps["cancelled_at" := now],
                    cancellationReason := Some(reason), cancelledBy := Some(caller.id));
        Ok((c, s.(marketOrders := s.marketOrders[id := c])))
  }

  /** An order can be cancelled exactly while it is still at the merchant
      or waiting for its driver. */
  lemma CancellableStatuses(st: MarketStatus)
    ensures !NonCancellable(st) <==> st in {MPending, Confirmed, Preparing, ReadyForPickup, DriverAssigned}
  {
  }

  /** A cancelled order cannot be cancelled again. */
  lemma CancelTwice(s: Store, caller: Caller, id: Id, reason: string, now: Time, reason2: string, later: Time)
    requires CancelOrder(s, caller, id, reason, now).Ok?
    ensures CancelOrder(CancelOrder(s, caller, id, reason, now).value.1, caller, id, reason2, later)
            == Err(BadRequest("Order cannot be cancelled at this stage"))
  {
  }

  /** Once a driver has picked an order up, its customer can no longer
      cancel it. */
  lemma PickupBlocksCancel(s: Store, driver: Caller, id: Id, notes: Option<string>, now: Time, customer: Caller, reason: string, later: Time)
    requires UpdateStatus(s, driver, id, PickedUp, notes, now).Ok?
    requires customer.id == s.marketOrders[id].customerId
    ensures CancelOrder(UpdateStatus(s, driver, id, PickedUp, notes, now).value.1, customer, id, reason, later)
            == Err(BadRequest("Order cannot be cancelled at this stage"))
  {
  }

  /** A customer cancel moves the order to the same status and writes the
      same timestamp column as an administrator's status update to
      `cancelled`; only the reason, the canceller and the history entry
      differ. */
  lemma CancelAgreesWithUpdate(s: Store, caller: Caller, admin: Caller, id: Id, reason: string, notes: Option<string>, now: Time)
    requires CancelOrder(s, caller, id, reason, now).Ok?
    requires IsAdmin(admin.role)
    ensures UpdateStatus(s, admin, id, MCancelled, notes, now).Ok?
    ensures UpdateStatus(s, admin, id, MCancelled, notes, now).value.0
            == CancelOrder(s, caller, id, reason, now).value.0.(cancellationReason := s.marketOrders[id].cancellationReason,
                                                                 cancelledBy := s.marketOrders[id].cancelledBy)
  {
  }

  /** Because the current status is never consulted, an administrator can
      move a cancelled order back to `pending`. */
  lemma AdminReopens(s: Store, caller: Caller, admin: Caller, id: Id, reason: string, notes: Option<string>, now: Time, later: Time)
    requires CancelOrder(s, caller, id, reason, now).Ok?
    requires IsAdmin(admin.role)
    ensures UpdateStatus(CancelOrder(s, caller, id, reason, now).value.1, admin, id, MPending, notes, later).Ok?
    ensures UpdateStatus(CancelOrder(s, caller, id, reason, now).value.1, admin, id, MPending, notes, later).value.0.status == MPending
  {
  }

  // ---------------------------------------------------------------
  // Coupon discount
  // ---------------------------------------------------------------

  /** A percentage coupon's discount: the percentage of the subtotal,
      lowered to `max_discount_amount` when that is set and non-zero
      (a zero cap is falsy and ignored). */
  function PercentOff(subtotal: real, c: Coupon): (r: real)
    ensures r <= subtotal * (c.discountValue / 100.0)
    ensures c.maxDiscountAmount.Some? && c.maxDiscountAmount.value != 0.0 ==> r <= c.maxDiscountAmount.value
    ensures r == subtotal * (c.discountValue / 100.0) || (c.maxDiscountAmount.Some? && r == c.maxDiscountAmount.value)
  {
    var d := subtotal * (c.discountValue / 100.0);
    if c.maxDiscountAmount.Some? && c.maxDiscountAmount.value != 0.0 && c.maxDiscountAmount.value < d
    then c.maxDiscountAmount.value
    else d
  }

  /** The `discount_amount` `create_order` computes: nothing without a
      (non-empty) code, for an unknown code or for an inactive coupon;
      otherwise the capped percentage or the fixed value. */
  function CouponDiscount(coupons: map<string, Coupon>, code: Option<string>, subtotal: real): (r: real)
    ensures code.None? || code.value == "" || code.value !in coupons || !coupons[code.value].isActive ==> r == 0.0
    ensures code.Some? && code.value != "" && code.value in coupons && coupons[code.value].isActive
            && coupons[code.value].discountType != "percentage" ==>
      r == coupons[code.value].discountValue
    ensures code.Some? && code.value != "" && code.value in coupons && coupons[code.value].isActive
            && coupons[code.value].discountType == "percentage" ==>
      r == PercentOff(subtotal, coupons[code.value])
  {
    if code.None? || code.value == "" || code.value !in coupons then 0.0
    else
      var c := coupons[code.value];
      if !c.isActive then 0.0
      else if c.discountType == "percentage" then PercentOff(subtotal, c)
      else c.discountValue
  }

  /** A percentage of at most 100 with a non-negative cap never discounts
      more than the subtotal nor less than nothing. */
  lemma PercentOffBounds(subtotal: real, c: Coupon)
    requires 0.0 <= subtotal && 0.0 <= c.discountValue <= 100.0
    requires c.maxDiscountAmount.Some? ==> 0.0 <= c.maxDiscountAmount.value
    ensures 0.0 <= PercentOff(subtotal, c) <= subtotal
  {
    var p := c.discountValue / 100.0;
    assert 0.0 <= p <= 1.0;
    assert 0.0 <= subtotal * p;
    assert subtotal * p <= subtotal by {
      assert subtotal - subtotal * p == subtotal * (1.0 - p);
      assert subtotal * (1.0 - p) >= 0.0;
    }
    assert c.discountValue / 100.0 == p;
  }

  /** A larger subtotal never earns a smaller percentage discount. */
  lemma PercentOffMonotone(a: real, b: real, c: Coupon)
    requires a <= b && 0.0 <= c.discountValue
    ensures PercentOff(a, c) <= PercentOff(b, c)
  {
    var p := c.discountValue / 100.0;
    assert 0.0 <= p;
    assert a * p <= b * p by {
      assert (b - a) * p >= 0.0;
    }
    assert c.discountValue / 100.0 == p;
    if c.maxDiscountAmount.Some? && c.maxDiscountAmount.value != 0.0 {
      var m := c.maxDiscountAmount.value;
      assert PercentOff(a, c) == if m < a * p then m else a * p;
      assert PercentOff(b, c) == if m < b * p then m else b * p;
    } else {
      assert PercentOff(a, c) == a * p;
      assert PercentOff(b, c) == b * p;
    }
  }
}

=== FILE: merchants.dfy ===
/** Merchant slugs (packages/api-python/app/routers/merchants.py):
    `generate_slug` and the collision suffix of `create_merchant`.

    `generate_slug` runs five passes: lower-case; delete every character
    other than `a-z`, `0-9`, whitespace and `-`; turn each run of
    whitespace or `_` into one `-`; squeeze each run of `-` to one; strip
    `-` from both ends. Each pass is a function here, with what it keeps
    and what it establishes. */
module Merchants {
  import opened Wrappers
  import opened Text
  import opened DeliveryModels
  import opened MarketModels
  import opened Tables

  predicate IsAlnum(c: char) { IsAsciiLower(c) || IsDigit(c) }

  /** The characters a finished slug may hold. */
  predicate SlugChar(c: char) { IsAlnum(c) || c == '-' }

  /** The characters the second pass keeps: `[a-z0-9\s-]`. */
  predicate Kept(c: char) { IsAlnum(c) || IsSpace(c) || c == '-' }

  /** The characters the third pass turns into `-`: `[\s_]`. */
  predicate IsSep(c: char) { IsSpace(c) || c == '_' }

  predicate IsDash(c: char) { c == '-' }

  ghost predicate SlugChars(s: string) {
    forall i :: 0 <= i < |s| ==> SlugChar(s[i])
  }

  /** No `-` directly follows another. */
  ghost predicate NoDoubleDash(s: string) {
    forall i, j :: 0 <= i < j < |s| && j == i + 1 ==> !(s[i] == '-' && s[j] == '-')
  }

  /** The shape every slug has: slug characters only, no `--`, no `-` at
      either end. */
  ghost predicate IsSlug(s: string) {
    SlugChars(s) && NoDoubleDash(s) && (s == [] || (s[0] != '-' && s[|s| - 1] != '-'))
  }

  /** The letters and digits of a string, in order. */
  ghost function Alnum(s: string): string {
    if s == [] then [] else (if IsAlnum(s[0]) then [s[0]] else []) + Alnum(s[1..])
  }

  lemma {:induction false} AlnumConcat(a: string, b: string)
    ensures Alnum(a + b) == Alnum(a) + Alnum(b)
  {
    if a != [] {
      assert (a + b)[0] == a[0];
      assert (a + b)[1..] == a[1..] + b;
      AlnumConcat(a[1..], b);
    } else {
      assert a + b == b;
    }
  }

  lemma {:induction false} AlnumNone(s: string)
    requires forall i :: 0 <= i < |s| ==> !IsAlnum(s[i])
    ensures Alnum(s) == []
  {
    if s != [] {
      AlnumNone(s[1..]);
    }
  }

  /** Dropping a prefix without letters or digits keeps them all. */
  lemma {:induction false} AlnumSuffix(s: string, k: nat)
    requires k <= |s| && forall i :: 0 <= i < k ==> !IsAlnum(s[i])
    ensures Alnum(s[k..]) == Alnum(s)
  {
    assert s == s[..k] + s[k..];
    AlnumConcat(s[..k], s[k..]);
    AlnumNone(s[..k]);
  }

  /** Dropping a suffix without letters or digits keeps them all. */
  lemma {:induction false} AlnumPrefix(s: string, k: nat)
    requires k <= |s| && forall i :: k <= i < |s| ==> !IsAlnum(s[i])
    ensures Alnum(s[..k]) == Alnum(s)
  {
    assert s == s[..k] + s[k..];
    AlnumConcat(s[..k], s[k..]);
    AlnumNone(s[k..]);
  }

  /** Pass 2, `re.sub(r'[^a-z0-9\s-]', '', slug)`. */
  function Filter(s: string): string {
    if s == [] then [] else (if Kept(s[0]) then [s[0]] else []) + Filter(s[1..])
  }

  /** Only kept characters remain, no letter or digit is lost, and a
      string of slug characters passes unchanged. */
  lemma {:induction false} FilterFacts(s: string)
    ensures forall i :: 0 <= i < |Filter(s)| ==> Kept(Filter(s)[i])
    ensures Alnum(Filter(s)) == Alnum(s)
    ensures (forall i :: 0 <= i < |s| ==> Kept(s[i])) ==> Filter(s) == s
  {
    if s != [] {
      FilterFacts(s[1..]);
      var rest := Filter(s[1..]);
      var r := Filter(s);
      if Kept(s[0]) {
        assert r == [s[0]] + rest && r[0] == s[0] && r[1..] == rest;
      } else {
        assert r == rest;
      }
    }
  }

  /** Pass 3, `re.sub(r'[\s_]+', '-', slug)`. */
  function DashSpaces(s: string): string
    decreases |s|
  {
    if s == [] then []
    else if IsSep(s[0]) then "-" + DashSpaces(TrimStart(s, IsSep))
    else [s[0]] + DashSpaces(s[1..])
  }

  /** No whitespace or `_` remains. */
  lemma {:induction false} DashSpacesNoSep(s: string)
    ensures forall i :: 0 <= i < |DashSpaces(s)| ==> !IsSep(DashSpaces(s)[i])
    decreases |s|
  {
    if s != [] {
      if IsSep(s[0]) {
        DashSpacesNoSep(TrimStart(s, IsSep));
      } else {
        DashSpacesNoSep(s[1..]);
      }
    }
  }

  /** Letters and digits are untouched. */
  lemma {:induction false} DashSpacesAlnum(s: string)
    ensures Alnum(DashSpaces(s)) == Alnum(s)
    decreases |s|
  {
    if s != [] {
      var r := DashSpaces(s);
      if IsSep(s[0]) {
        var t := TrimStart(s, IsSep);
        DashSpacesAlnum(t);
        AlnumSuffix(s, |s| - |t|);
        assert r[0] == '-' && r[1..] == DashSpaces(t);
      } else {
        DashSpacesAlnum(s[1..]);
        assert r[0] == s[0] && r[1..] == DashSpaces(s[1..]);
      }
    }
  }

  /** A string of kept characters becomes one of slug characters. */
  lemma {:induction false} DashSpacesSlugChars(s: string)
    requires forall i :: 0 <= i < |s| ==> Kept(s[i])
    ensures SlugChars(DashSpaces(s))
    decreases |s|
  {
    if s != [] {
      if IsSep(s[0]) {
        var t := TrimStart(s, IsSep);
        assert forall i :: 0 <= i < |t| ==> t[i] == s[|s| - |t| + i];
        DashSpacesSlugChars(t);
      } else {
        DashSpacesSlugChars(s[1..]);
      }
    }
  }

  /** A string without separators passes unchanged. */
  lemma {:induction false} DashSpacesFixed(s: string)
    requires forall i :: 0 <= i < |s| ==> !IsSep(s[i])
    ensures DashSpaces(s) == s
    decreases |s|
  {
    if s != [] {
      DashSpacesFixed(s[1..]);
    }
  }

  /** Pass 4, `re.sub(r'-+', '-', slug)`. */
  function Squeeze(s: string): string
    decreases |s|
  {
    if s == [] then []
    else if s[0] == '-' then "-" + Squeeze(TrimStart(s, IsDash))
    else [s[0]] + Squeeze(s[1..])
  }

  /** No `--` remains and the first character is kept. */
  lemma {:induction false} SqueezeShape(s: string)
    ensures NoDoubleDash(Squeeze(s))
    ensures Squeeze(s) == [] <==> s == []
    ensures Squeeze(s) != [] ==> Squeeze(s)[0] == s[0]
    decreases |s|
  {
    if s != [] {
      var r := Squeeze(s);
      if s[0] == '-' {
        var t := TrimStart(s, IsDash);
        SqueezeShape(t);
        assert r == "-" + Squeeze(t) && r[1..] == Squeeze(t);
        assert Squeeze(t) != [] ==> Squeeze(t)[0] != '-';
      } else {
        SqueezeShape(s[1..]);
        assert r == [s[0]] + Squeeze(s[1..]) && r[1..] == Squeeze(s[1..]);
      }
    }
  }

  /** Letters and digits are untouched. */
  lemma {:induction false} SqueezeAlnum(s: string)
    ensures Alnum(Squeeze(s)) == Alnum(s)
    decreases |s|
  {
    if s != [] {
      var r := Squeeze(s);
      if s[0] == '-' {
        var t := TrimStart(s, IsDash);
        SqueezeAlnum(t);
        AlnumSuffix(s, |s| - |t|);
        assert r[0] == '-' && r[1..] == Squeeze(t);
      } else {
        SqueezeAlnum(s[1..]);
        assert r[0] == s[0] && r[1..] == Squeeze(s[1..]);
      }
    }
  }

  /** Every character of the result is `-` or occurs in the input. */
  lemma {:induction false} SqueezeChars(s: string, ok: char -> bool)
    requires ok('-') && forall i :: 0 <= i < |s| ==> ok(s[i])
    ensures forall i :: 0 <= i < |Squeeze(s)| ==> ok(Squeeze(s)[i])
    decreases |s|
  {
    if s != [] {
      if s[0] == '-' {
        var t := TrimStart(s, IsDash);
        assert forall i :: 0 <= i < |t| ==> t[i] == s[|s| - |t| + i];
        SqueezeChars(t, ok);
        var r := Squeeze(s);
        assert r[0] == '-' && r[1..] == Squeeze(t);
        forall i | 1 <= i < |r| ensures ok(r[i]) {
          assert r[i] == Squeeze(t)[i - 1];
        }
      } else {
        SqueezeChars(s[1..], ok);
        var r := Squeeze(s);
        assert r[0] == s[0] && r[1..] == Squeeze(s[1..]);
        forall i | 1 <= i < |r| ensures ok(r[i]) {
          assert r[i] == Squeeze(s[1..])[i - 1];
        }
      }
    }
  }

  /** A string without `--` passes unchanged. */
  lemma {:induction false} SqueezeFixed(s: string)
    requires NoDoubleDash(s)
    ensures Squeeze(s) == s
    decreases |s|
  {
    if s != [] {
      if s[0] == '-' {
        var t := TrimStart(s, IsDash);
        assert |s| > 1 ==> s[1] != '-';
        assert |t| == |s| - 1;
        assert t == s[1..];
        SqueezeFixed(t);
      } else {
        SqueezeFixed(s[1..]);
      }
    }
  }

  /** Pass 5, `slug.strip('-')`. */
  function StripDash(s: string): (r: string)
    ensures r == [] || (r[0] != '-' && r[|r| - 1] != '-')
  {
    TrimEnd(TrimStart(s, IsDash), IsDash)
  }

  /** Letters and digits survive. */
  lemma {:induction false} StripDashAlnum(s: string)
    ensures Alnum(StripDash(s)) == Alnum(s)
  {
    var t := TrimStart(s, IsDash);
    AlnumSuffix(s, |s| - |t|);
    AlnumPrefix(t, |TrimEnd(t, IsDash)|);
  }

  /** Every character of the result occurs in the input. */
  lemma StripDashChars(s: string, ok: char -> bool)
    requires forall i :: 0 <= i < |s| ==> ok(s[i])
    ensures forall i :: 0 <= i < |StripDash(s)| ==> ok(StripDash(s)[i])
  {
    var t := TrimStart(s, IsDash);
    assert forall i :: 0 <= i < |TrimEnd(t, IsDash)| ==> TrimEnd(t, IsDash)[i] == s[|s| - |t| + i];
  }

  /** The absence of `--` survives. */
  lemma StripDashNoDouble(s: string)
    requires NoDoubleDash(s)
    ensures NoDoubleDash(StripDash(s))
  {
    var t := TrimStart(s, IsDash);
    var r := TrimEnd(t, IsDash);
    var k := |s| - |t|;
    assert StripDash(s) == r;
    assert t == s[k..] && r == t[..|r|];
    forall i, j | 0 <= i < j < |r| && j == i + 1
      ensures !(r[i] == '-' && r[j] == '-')
    {
      assert r[i] == t[i] == s[k + i];
      assert r[j] == t[j] == s[k + j];
      assert k + j == (k + i) + 1 < |s|;
    }
  }

  /** A string without `-` at its ends passes unchanged. */
  lemma StripDashFixed(s: string)
    requires s == [] || (s[0] != '-' && s[|s| - 1] != '-')
    ensures StripDash(s) == s
  {
    var t := TrimStart(s, IsDash);
    assert |t| == |s|;
    assert t == s;
    assert |TrimEnd(t, IsDash)| == |t|;
  }

  /** `generate_slug`. Its result is always slug-shaped. */
  function Slug(name: string): (r: string)
    ensures IsSlug(r)
  {
    var f := Filter(Lower(name));
    FilterFacts(Lower(name));
    DashSpacesSlugChars(f);
    SqueezeShape(DashSpaces(f));
    SqueezeChars(DashSpaces(f), SlugChar);
    StripDashChars(Squeeze(DashSpaces(f)), SlugChar);
    StripDashNoDouble(Squeeze(DashSpaces(f)));
    StripDash(Squeeze(DashSpaces(f)))
  }

  /** A slug-shaped string is its own slug. */
  lemma SlugFixed(t: string)
    requires IsSlug(t)
    ensures Slug(t) == t
  {
    assert forall i :: 0 <= i < |t| ==> LowerChar(t[i]) == t[i];
    assert Lower(t) == t;
    FilterFacts(t);
    DashSpacesFixed(t);
    SqueezeFixed(t);
    StripDashFixed(t);
  }

  /** `generate_slug` is idempotent. */
  lemma SlugIdempotent(name: string)
    ensures Slug(Slug(name)) == Slug(name)
  {
    SlugFixed(Slug(name));
  }

  /** The letters and digits of a slug are exactly those of the
      lower-cased name, in order; a name with none gives the empty slug. */
  lemma {:induction false} SlugKeepsAlnum(name: string)
    ensures Alnum(Slug(name)) == Alnum(Lower(name))
    ensures Alnum(Lower(name)) == [] ==> Slug(name) == []
  {
    var f := Filter(Lower(name));
    FilterFacts(Lower(name));
    DashSpacesAlnum(f);
    SqueezeAlnum(DashSpaces(f));
    StripDashAlnum(Squeeze(DashSpaces(f)));
    var r := Slug(name);
    if r != [] {
      assert IsAlnum(r[0]);
      assert Alnum(r)[0] == r[0];
    }
  }

  /** Underscores are deleted, not turned into `-`. */
  lemma SlugDropsUnderscore()
    ensures Slug("a_b") == "ab"
  {
    assert Lower("a_b") == "a_b";
    assert Filter("b") == "b";
    assert Filter("_b") == "b";
    assert Filter("a_b") == "ab";
    SlugFixed("ab");
  }

  /** Some merchant already uses the slug. */
  predicate SlugTaken(merchants: map<Id, Merchant>, slug: string) {
    exists k :: k in merchants && merchants[k].slug == slug
  }

  /** `current_user['id'][:8]`. */
  function IdPrefix(u: UserId): (p: string)
    ensures |p| <= 8 && |p| <= |u| && p == u[..|p|]
    ensures |u| >= 8 ==> |p| == 8
  {
    if |u| < 8 then u else u[..8]
  }

  /** Inserting a merchant under the next id keeps the store valid. */
  function AddMerchant(s: Store, m: Merchant): (r: Store)
    requires Valid(s)
    ensures Valid(r)
    ensures s.nextId !in s.merchants && r.merchants == s.merchants[s.nextId := m]
    ensures r.(merchants := s.merchants, nextId := s.nextId) == s
  {
    s.(merchants := s.merchants[s.nextId := m], nextId := s.nextId + 1)
  }

  /** `POST /merchants`. The slug comes from the business name; when it is
      taken, `-` and the first eight characters of the caller's id are
      appended. The new merchant belongs to the caller and is `pending`. */
  function CreateMerchant(s: Store, caller: Caller, businessName: string): (r: (Id, Store))
    requires Valid(s)
    ensures r.0 == s.nextId && r.0 !in s.merchants && r.0 in r.1.merchants
    ensures forall k :: k in r.1.merchants <==> k in s.merchants || k == r.0
    ensures forall k :: k in s.merchants ==> r.1.merchants[k] == s.merchants[k]
    ensures r.1.merchants[r.0].userId == caller.id && r.1.merchants[r.0].status == "pending"
    ensures r.1.merchants[r.0].businessName == businessName
    ensures !SlugTaken(s.merchants, Slug(businessName)) ==> r.1.merchants[r.0].slug == Slug(businessName)
    ensures SlugTaken(s.merchants, Slug(businessName)) ==>
      r.1.merchants[r.0].slug == Slug(businessName) + "-" + IdPrefix(caller.id)
    ensures Valid(r.1)
    ensures r.1.(merchants := s.merchants, nextId := s.nextId) == s
  {
    var base := Slug(businessName);
    var slug := if SlugTaken(s.merchants, base) then base + "-" + IdPrefix(caller.id) else base;
    (s.nextId, AddMerchant(s, Merchant(caller.id, businessName, slug, "pending")))
  }

  /** A merchant created under a free slug gets a slug-shaped one, which
      is its own slug. */
  lemma FreeSlugIsSlug(s: Store, caller: Caller, businessName: string)
    requires Valid(s)
    requires !SlugTaken(s.merchants, Slug(businessName))
    ensures IsSlug(CreateMerchant(s, caller, businessName).1.merchants[s.nextId].slug)
    ensures Slug(CreateMerchant(s, caller, businessName).1.merchants[s.nextId].slug)
      == CreateMerchant(s, caller, businessName).1.merchants[s.nextId].slug
  {
    SlugIdempotent(businessName);
  }
}

=== FILE: route_planner.dfy ===
/** The auto-planner of packages/api-python/app/routers/hub_routes.py
    (`auto_plan_routes`), without its store writes: which orders and
    vehicles it considers, how it orders the orders, and how it packs them
    first-fit into vehicles under a weight cap and a stop cap. */
module RoutePlanner {
  import opened Wrappers
  import opened Text
  import opened Sorting
  import opened DeliveryModels
  import opened HubModels
  import opened Tables

  const MaxStopsPerRoute: nat := 30
  const UnlimitedCapacityKg: real := 999999.0

  /** `vehicle.get("capacity_kg") or 999999`: a missing or zero capacity
      counts as practically unlimited. */
  function CapacityOf(v: Vehicle): real {
    if v.capacityKg.None? || v.capacityKg.value == 0.0 then UnlimitedCapacityKg
    else v.capacityKg.value
  }

  /** `order.get("total_weight_kg") or 0`. */
  function WeightOf(o: DeliveryOrder): real {
    if o.totalWeightKg.None? then 0.0 else o.totalWeightKg.value
  }

  /** An order row as the planner's query returns it. */
  datatype Candidate = Candidate(id: Id, order: DeliveryOrder)

  function Weight(c: Candidate): real {
    WeightOf(c.order)
  }

  function SumWeights(cs: seq<Candidate>): real {
    if cs == [] then 0.0 else Weight(cs[0]) + SumWeights(cs[1..])
  }

  function Ids(cs: seq<Candidate>): (r: seq<Id>)
    ensures |r| == |cs|
    ensures forall i :: 0 <= i < |cs| ==> r[i] == cs[i].id
  {
    if cs == [] then [] else [cs[0].id] + Ids(cs[1..])
  }

  // ---------------------------------------------------------------
  // Selection
  // ---------------------------------------------------------------

  /** The planner's order filter: this hub, status `pending`, no route,
      scheduled for the requested date. */
  predicate Eligible(o: DeliveryOrder, req: AutoPlanRequest) {
    && o.hubId == req.hubId
    && o.status == Pending
    && o.routeId.None?
    && o.scheduledDate == Some(req.routeDate)
  }

  /** The ids of the eligible orders. */
  function EligibleIds(orders: map<Id, DeliveryOrder>, req: AutoPlanRequest): set<Id> {
    set id | id in orders && Eligible(orders[id], req)
  }

  /** The ids of the candidate orders, in the store's row order: exactly
      the eligible orders, each once. */
  function CandidateIds(orders: map<Id, DeliveryOrder>, req: AutoPlanRequest): (ids: seq<Id>)
    ensures |ids| == |EligibleIds(orders, req)|
    ensures forall id :: id in ids <==> id in orders && Eligible(orders[id], req)
    ensures forall i, j :: 0 <= i < j < |ids| ==> ids[i] < ids[j]
  {
    Ascending(EligibleIds(orders, req))
  }

  /** The rows of the listed orders. */
  function ToCandidates(ids: seq<Id>, orders: map<Id, DeliveryOrder>): (cs: seq<Candidate>)
    requires forall id :: id in ids ==> id in orders
    ensures |cs| == |ids|
    ensures forall i :: 0 <= i < |ids| ==> cs[i] == Candidate(ids[i], orders[ids[i]])
  {
    if ids == [] then [] else [Candidate(ids[0], orders[ids[0]])] + ToCandidates(ids[1..], orders)
  }

  /** The planner's vehicle filter. An explicit, non-empty id list picks
      the listed active vehicles of the hub whatever their status;
      otherwise the hub's active vehicles with status `available`. */
  predicate UsableVehicle(id: Id, v: Vehicle, req: AutoPlanRequest) {
    && v.hubId == req.hubId
    && v.isActive
    && if req.vehicleIds.Some? && req.vehicleIds.value != [] then id in req.vehicleIds.value
       else v.status == Available
  }

  /** The ids of the vehicles the planner fills, in the store's row
      order: exactly the usable ones, each once. */
  function VehicleIds(vehicles: map<Id, Vehicle>, req: AutoPlanRequest): (ids: seq<Id>)
    ensures |ids| == |UsableIds(vehicles, req)|
    ensures forall id :: id in ids <==> id in vehicles && UsableVehicle(id, vehicles[id], req)
    ensures forall i, j :: 0 <= i < j < |ids| ==> ids[i] < ids[j]
  {
    Ascending(UsableIds(vehicles, req))
  }

  /** The ids of the usable vehicles. */
  function UsableIds(vehicles: map<Id, Vehicle>, req: AutoPlanRequest): set<Id> {
    set id | id in vehicles && UsableVehicle(id, vehicles[id], req)
  }

  function ToVehicles(ids: seq<Id>, vehicles: map<Id, Vehicle>): (vs: seq<(Id, Vehicle)>)
    requires forall id :: id in ids ==> id in vehicles
    ensures |vs| == |ids|
    ensures forall i :: 0 <= i < |ids| ==> vs[i] == (ids[i], vehicles[ids[i]])
  {
    if ids == [] then [] else [(ids[0], vehicles[ids[0]])] + ToVehicles(ids[1..], vehicles)
  }

  // ---------------------------------------------------------------
  // Ordering by (postal code, city)
  // ---------------------------------------------------------------

  /** `(o.get("delivery_postal_code") or "", o.get("delivery_city") or "")`. */
  function SortKey(c: Candidate): (string, string) {
    (c.order.deliveryPostalCode.GetOr(""), c.order.deliveryCity.GetOr(""))
  }

  /** Python's tuple comparison on the sort key. */
  predicate KeyLe(a: Candidate, b: Candidate) {
    var ka := SortKey(a);
    var kb := SortKey(b);
    LexLt(ka.0, kb.0) || (ka.0 == kb.0 && LexLe(ka.1, kb.1))
  }

  lemma KeyLeIsTotalPreorder()
    ensures TotalPreorder(KeyLe)
  {
    forall a, b
      ensures KeyLe(a, b) || KeyLe(b, a)
    {
      LexLeTotal(SortKey(a).0, SortKey(b).0);
      LexLeTotal(SortKey(a).1, SortKey(b).1);
    }
    forall a, b, c | KeyLe(a, b) && KeyLe(b, c)
      ensures KeyLe(a, c)
    {
      var ka, kb, kc := SortKey(a), SortKey(b), SortKey(c);
      if ka.0 == kb.0 && kb.0 == kc.0 {
        LexLeTrans(ka.1, kb.1, kc.1);
      } else {
        LexLeRefl(kb.0);
        LexLeTrans(ka.0, kb.0, kc.0);
        if ka.0 == kc.0 {
          LexLeAntisym(ka.0, kb.0);
          assert false;
        }
      }
    }
  }

  /** `remaining_orders.sort(key=...)`: a permutation of the candidates in
      ascending (postal code, city) order. */
  function SortCandidates(cs: seq<Candidate>): (r: seq<Candidate>)
    ensures |r| == |cs|
    ensures multiset(r) == multiset(cs)
    ensures SortedBy(r, KeyLe)
  {
    KeyLeIsTotalPreorder();
    InsertionSort(cs, KeyLe)
  }

  /** Python's sort is stable: candidates with the same (postal code, city)
      key keep their relative order. */
  lemma {:induction false} SortCandidatesStable(cs: seq<Candidate>)
    ensures forall c :: TiesWith(SortCandidates(cs), c, KeyLe) == TiesWith(cs, c, KeyLe)
  {
    KeyLeIsTotalPreorder();
    InsertionSortStable(cs, KeyLe);
  }

  // ---------------------------------------------------------------
  // First-fit fill of one vehicle
  // ---------------------------------------------------------------

  /** `s` is an interleaving of `a` and `b`: both keep their relative order. */
  predicate IsMerge<T(==)>(s: seq<T>, a: seq<T>, b: seq<T>)
    decreases |s|
  {
    if s == [] then a == [] && b == []
    else
      || (a != [] && a[0] == s[0] && IsMerge(s[1..], a[1..], b))
      || (b != [] && b[0] == s[0] && IsMerge(s[1..], a, b[1..]))
  }

  /** `a` is obtained from `s` by deleting elements. */
  predicate IsSubseq<T(==)>(a: seq<T>, s: seq<T>)
    decreases |s|
  {
    if a == [] then true
    else if s == [] then false
    else (a[0] == s[0] && IsSubseq(a[1..], s[1..])) || IsSubseq(a, s[1..])
  }

  lemma {:induction false} MergeCounts<T>(s: seq<T>, a: seq<T>, b: seq<T>)
    requires IsMerge(s, a, b)
    ensures |s| == |a| + |b|
    ensures multiset(s) == multiset(a) + multiset(b)
    ensures IsSubseq(a, s) && IsSubseq(b, s)
    decreases |s|
  {
    if s != [] {
      assert s == [s[0]] + s[1..];
      if a != [] && a[0] == s[0] && IsMerge(s[1..], a[1..], b) {
        MergeCounts(s[1..], a[1..], b);
        assert a == [a[0]] + a[1..];
        if b != [] && b[0] == s[0] {
          SubseqCons(b, s);
        }
      } else {
        MergeCounts(s[1..], a, b[1..]);
        assert b == [b[0]] + b[1..];
        if a != [] && a[0] == s[0] {
          SubseqCons(a, s);
        }
      }
    }
  }

  /** A subsequence of the tail is a subsequence of the whole. */
  lemma {:induction false} SubseqCons<T>(a: seq<T>, s: seq<T>)
    requires s != [] && IsSubseq(a, s[1..])
    ensures IsSubseq(a, s)
  {
  }

  lemma {:induction false} SubseqTrans<T>(a: seq<T>, b: seq<T>, c: seq<T>)
    requires IsSubseq(a, b) && IsSubseq(b, c)
    ensures IsSubseq(a, c)
    decreases |c|
  {
    if a != [] && c != [] {
      if b[0] == c[0] && IsSubseq(b[1..], c[1..]) {
        if a[0] == b[0] && IsSubseq(a[1..], b[1..]) {
          SubseqTrans(a[1..], b[1..], c[1..]);
        } else {
          SubseqTrans(a, b[1..], c[1..]);
        }
      } else {
        SubseqTrans(a, b, c[1..]);
      }
    }
  }

  /** A vehicle's share of the pool and what it leaves for later vehicles. */
  datatype Fill = Fill(taken: seq<Candidate>, deferred: seq<Candidate>)

  /** The inner loop of the planner from the current load and stop count
      on: each order in turn is taken iff it still fits under the capacity
      and fewer than 30 orders are taken, and deferred otherwise. */
  function FillFrom(pool: seq<Candidate>, capacity: real, load: real, count: nat): (f: Fill)
    requires count <= MaxStopsPerRoute
    ensures count + |f.taken| <= MaxStopsPerRoute
    ensures f.taken != [] ==> load + SumWeights(f.taken) <= capacity
  {
    if pool == [] then Fill([], [])
    else
      var c := pool[0];
      if load + Weight(c) <= capacity && count < MaxStopsPerRoute then
        var rest := FillFrom(pool[1..], capacity, load + Weight(c), count + 1);
        Fill([c] + rest.taken, rest.deferred)
      else
        var rest := FillFrom(pool[1..], capacity, load, count);
        Fill(rest.taken, [c] + rest.deferred)
  }

  /** One vehicle's pass over the remaining orders, from an empty load. */
  function FillVehicle(pool: seq<Candidate>, capacity: real): (f: Fill)
    ensures IsMerge(pool, f.taken, f.deferred)
    ensures |f.taken| <= MaxStopsPerRoute
    ensures f.taken != [] ==> SumWeights(f.taken) <= capacity
  {
    FillFromMerge(pool, capacity, 0.0, 0);
    FillFrom(pool, capacity, 0.0, 0)
  }

  /** Every order of the pool lands in exactly one of the two lists, in
      pool order. */
  lemma {:induction false} FillFromMerge(pool: seq<Candidate>, capacity: real, load: real, count: nat)
    requires count <= MaxStopsPerRoute
    ensures var f := FillFrom(pool, capacity, load, count); IsMerge(pool, f.taken, f.deferred)
    decreases |pool|
  {
    if pool != [] {
      var c := pool[0];
      if load + Weight(c) <= capacity && count < MaxStopsPerRoute {
        FillFromMerge(pool[1..], capacity, load + Weight(c), count + 1);
        var rest := FillFrom(pool[1..], capacity, load + Weight(c), count + 1);
        assert ([c] + rest.taken)[1..] == rest.taken;
      } else {
        FillFromMerge(pool[1..], capacity, load, count);
        var rest := FillFrom(pool[1..], capacity, load, count);
        assert ([c] + rest.deferred)[1..] == rest.deferred;
      }
    }
  }

  /** First fit, not first stop: an order too heavy for the remaining
      capacity is deferred and a later, lighter one is still taken. */
  lemma FillSkipsHeavyOrder(a: Candidate, b: Candidate, c: Candidate)
    requires Weight(a) == 4.0 && Weight(b) == 3.0 && Weight(c) == 1.0
    ensures FillVehicle([a, b, c], 5.0) == Fill([a, c], [b])
  {
    assert [a, b, c][1..] == [b, c] && [b, c][1..] == [c] && [c][1..] == [];
    assert FillFrom([c], 5.0, 4.0, 1) == Fill([c], []);
    assert FillFrom([b, c], 5.0, 4.0, 1) == Fill([c], [b]);
  }

  lemma {:induction false} SumWeightsNonNegative(cs: seq<Candidate>)
    requires forall c :: c in cs ==> Weight(c) >= 0.0
    ensures SumWeights(cs) >= 0.0
  {
    if cs != [] {
      assert cs[0] in cs;
      SumWeightsNonNegative(cs[1..]);
    }
  }

  /** The fill is greedy-maximal: when weights are non-negative, every
      deferred order would overflow the final load, or the route already
      holds 30 orders. */
  lemma {:induction false} FillIsMaximal(pool: seq<Candidate>, capacity: real, load: real, count: nat)
    requires count <= MaxStopsPerRoute
    requires forall c :: c in pool ==> Weight(c) >= 0.0
    ensures var f := FillFrom(pool, capacity, load, count);
      forall d :: d in f.deferred ==>
        load + SumWeights(f.taken) + Weight(d) > capacity || count + |f.taken| == MaxStopsPerRoute
  {
    if pool != [] {
      var c := pool[0];
      var tail := pool[1..];
      forall x | x in tail
        ensures Weight(x) >= 0.0
      {
        assert x in pool;
      }
      if load + Weight(c) <= capacity && count < MaxStopsPerRoute {
        var rest := FillFrom(tail, capacity, load + Weight(c), count + 1);
        assert FillFrom(pool, capacity, load, count) == Fill([c] + rest.taken, rest.deferred);
        FillIsMaximal(tail, capacity, load + Weight(c), count + 1);
        assert ([c] + rest.taken)[1..] == rest.taken;
        assert SumWeights([c] + rest.taken) == Weight(c) + SumWeights(rest.taken);
        assert |[c] + rest.taken| == 1 + |rest.taken|;
      } else {
        var rest := FillFrom(tail, capacity, load, count);
        assert FillFrom(pool, capacity, load, count) == Fill(rest.taken, [c] + rest.deferred);
        FillIsMaximal(tail, capacity, load, count);
        TakenNonNegative(tail, capacity, load, count);
        SumWeightsNonNegative(rest.taken);
        assert count == MaxStopsPerRoute ==> rest.taken == [];
      }
    }
  }

  /** One step of the scan: `x` joins the route when it fits on the load of
      the orders taken so far and fewer than 30 are taken, and is deferred
      otherwise. */
  function Step(f: Fill, x: Candidate, capacity: real, load: real, count: nat): Fill {
    if load + SumWeights(f.taken) + Weight(x) <= capacity && count + |f.taken| < MaxStopsPerRoute then
      Fill(f.taken + [x], f.deferred)
    else
      Fill(f.taken, f.deferred + [x])
  }

  lemma {:induction false} SumWeightsSnoc(cs: seq<Candidate>, x: Candidate)
    ensures SumWeights(cs + [x]) == SumWeights(cs) + Weight(x)
  {
    if cs != [] {
      assert (cs + [x])[1..] == cs[1..] + [x];
      SumWeightsSnoc(cs[1..], x);
    }
  }

  /** Filling `a + [x]` is filling `a` and then deciding `x` on what `a`
      left taken. */
  lemma {:induction false} FillSnoc(a: seq<Candidate>, x: Candidate, capacity: real, load: real, count: nat)
    requires count <= MaxStopsPerRoute
    ensures FillFrom(a + [x], capacity, load, count) == Step(FillFrom(a, capacity, load, count), x, capacity, load, count)
  {
    var ax := a + [x];
    if a == [] {
      assert ax == [x] && ax[1..] == [];
      var r := FillFrom(ax, capacity, load, count);
      assert r.taken == [] + r.taken && r.deferred == [] + r.deferred;
    } else {
      var c := a[0];
      assert ax[0] == c && ax[1..] == a[1..] + [x];
      FillCons(a, capacity, load, count);
      FillCons(ax, capacity, load, count);
      if load + Weight(c) <= capacity && count < MaxStopsPerRoute {
        FillSnoc(a[1..], x, capacity, load + Weight(c), count + 1);
        StepAfterTaken(c, FillFrom(a[1..], capacity, load + Weight(c), count + 1), FillFrom(ax[1..], capacity, load + Weight(c), count + 1), x, capacity, load, count);
      } else {
        FillSnoc(a[1..], x, capacity, load, count);
        StepAfterDeferred(c, FillFrom(a[1..], capacity, load, count), FillFrom(ax[1..], capacity, load, count), x, capacity, load, count);
      }
    }
  }

  lemma {:induction false} StepAfterTaken(c: Candidate, f: Fill, g: Fill, x: Candidate, capacity: real, load: real, count: nat)
    requires g == Step(f, x, capacity, load + Weight(c), count + 1)
    ensures Fill([c] + g.taken, g.deferred) == Step(Fill([c] + f.taken, f.deferred), x, capacity, load, count)
  {
    assert ([c] + f.taken)[1..] == f.taken;
    assert SumWeights([c] + f.taken) == Weight(c) + SumWeights(f.taken);
    assert [c] + (f.taken + [x]) == ([c] + f.taken) + [x];
  }

  lemma {:induction false} StepAfterDeferred(c: Candidate, f: Fill, g: Fill, x: Candidate, capacity: real, load: real, count: nat)
    requires g == Step(f, x, capacity, load, count)
    ensures Fill(g.taken, [c] + g.deferred) == Step(Fill(f.taken, [c] + f.deferred), x, capacity, load, count)
  {
    assert [c] + (f.deferred + [x]) == ([c] + f.deferred) + [x];
  }

  /** The first order of a nonempty pool is taken when it fits, and the
      rest of the pool is filled on top of it. */
  lemma {:induction false} FillCons(pool: seq<Candidate>, capacity: real, load: real, count: nat)
    requires count <= MaxStopsPerRoute && pool != []
    ensures load + Weight(pool[0]) <= capacity && count < MaxStopsPerRoute ==>
      FillFrom(pool, capacity, load, count)
        == Fill([pool[0]] + FillFrom(pool[1..], capacity, load + Weight(pool[0]), count + 1).taken,
                FillFrom(pool[1..], capacity, load + Weight(pool[0]), count + 1).deferred)
    ensures !(load + Weight(pool[0]) <= capacity && count < MaxStopsPerRoute) ==>
      FillFrom(pool, capacity, load, count)
        == Fill(FillFrom(pool[1..], capacity, load, count).taken, [pool[0]] + FillFrom(pool[1..], capacity, load, count).deferred)
  {
  }

  /** The fill read from the front: after the first `i` orders of the pool
      the next one is decided by `Step` on the orders taken before it, and
      the whole pool ends the scan. */
  lemma {:induction false} FillSteps(pool: seq<Candidate>, capacity: real, load: real, count: nat)
    requires count <= MaxStopsPerRoute
    ensures FillFrom(pool[..0], capacity, load, count) == Fill([], [])
    ensures forall i :: 0 <= i < |pool| ==>
      FillFrom(pool[..i + 1], capacity, load, count) == Step(FillFrom(pool[..i], capacity, load, count), pool[i], capacity, load, count)
    ensures FillFrom(pool[..|pool|], capacity, load, count) == FillFrom(pool, capacity, load, count)
  {
    forall i | 0 <= i < |pool|
      ensures FillFrom(pool[..i + 1], capacity, load, count) == Step(FillFrom(pool[..i], capacity, load, count), pool[i], capacity, load, count)
    {
      assert pool[..i + 1] == pool[..i] + [pool[i]];
      FillSnoc(pool[..i], pool[i], capacity, load, count);
    }
    assert pool[..|pool|] == pool;
  }

  lemma {:induction false} TakenNonNegative(pool: seq<Candidate>, capacity: real, load: real, count: nat)
    requires count <= MaxStopsPerRoute
    requires forall c :: c in pool ==> Weight(c) >= 0.0
    ensures forall c :: c in FillFrom(pool, capacity, load, count).taken ==> Weight(c) >= 0.0
  {
    var f := FillFrom(pool, capacity, load, count);
    FillFromMerge(pool, capacity, load, count);
    MergeCounts(pool, f.taken, f.deferred);
    forall x | x in f.taken
      ensures Weight(x) >= 0.0
    {
      assert x in multiset(f.taken);
      assert x in multiset(pool);
    }
  }

  // ---------------------------------------------------------------
  // The vehicle loop
  // ---------------------------------------------------------------

  /** A route the planner will create: the vehicle, its effective capacity,
      the orders in fill order and their total weight. */
  datatype PlannedRoute = PlannedRoute(vehicleId: Id, capacity: real, orders: seq<Candidate>, weight: real)

  function AllOrders(ps: seq<PlannedRoute>): seq<Candidate> {
    if ps == [] then [] else ps[0].orders + AllOrders(ps[1..])
  }

  function TotalOrders(ps: seq<PlannedRoute>): nat {
    if ps == [] then 0 else |ps[0].orders| + TotalOrders(ps[1..])
  }

  predicate WithinLimits(p: PlannedRoute) {
    && 1 <= |p.orders| <= MaxStopsPerRoute
    && p.weight == SumWeights(p.orders)
    && p.weight <= p.capacity
  }

  /** The planner's loop over the vehicles. It stops once no order is
      left; a vehicle that takes nothing yields no route; whatever no
      vehicle took is left over. */
  function PlanRoutes(vehicles: seq<(Id, Vehicle)>, pool: seq<Candidate>): (p: (seq<PlannedRoute>, seq<Candidate>))
    ensures forall r :: r in p.0 ==> WithinLimits(r)
    ensures forall r :: r in p.0 ==> FromVehicle(r, vehicles)
    ensures |p.0| <= |vehicles|
  {
    if vehicles == [] || pool == [] then ([], pool)
    else
      var v := vehicles[0];
      var cap := CapacityOf(v.1);
      var f := FillVehicle(pool, cap);
      var rest := PlanRoutes(vehicles[1..], f.deferred);
      FromVehicleTail(rest.0, vehicles);
      if f.taken == [] then rest
      else
        var route := PlannedRoute(v.0, cap, f.taken, SumWeights(f.taken));
        assert FromVehicle(route, vehicles) by { assert v in vehicles; }
        ([route] + rest.0, rest.1)
  }

  /** Planning loses and duplicates nothing: the planned routes and the
      leftover together are a permutation of the pool. */
  lemma {:induction false} PlanRoutesConserves(vehicles: seq<(Id, Vehicle)>, pool: seq<Candidate>)
    ensures multiset(pool) == multiset(AllOrders(PlanRoutes(vehicles, pool).0)) + multiset(PlanRoutes(vehicles, pool).1)
    ensures |pool| == TotalOrders(PlanRoutes(vehicles, pool).0) + |PlanRoutes(vehicles, pool).1|
    decreases |vehicles|
  {
    if vehicles != [] && pool != [] {
      var f := FillVehicle(pool, CapacityOf(vehicles[0].1));
      MergeCounts(pool, f.taken, f.deferred);
      PlanRoutesConserves(vehicles[1..], f.deferred);
      var rest := PlanRoutes(vehicles[1..], f.deferred);
      if f.taken != [] {
        var ps := PlanRoutes(vehicles, pool).0;
        assert ps[1..] == rest.0;
        assert AllOrders(ps) == f.taken + AllOrders(rest.0);
        assert multiset(AllOrders(ps)) == multiset(f.taken) + multiset(AllOrders(rest.0));
      }
    }
  }

  /** The leftover keeps the order of the pool. */
  lemma {:induction false} PlanRoutesLeftoverInOrder(vehicles: seq<(Id, Vehicle)>, pool: seq<Candidate>)
    ensures IsSubseq(PlanRoutes(vehicles, pool).1, pool)
    decreases |vehicles|
  {
    if vehicles == [] || pool == [] {
      SubseqRefl(pool);
    } else {
      var f := FillVehicle(pool, CapacityOf(vehicles[0].1));
      MergeCounts(pool, f.taken, f.deferred);
      PlanRoutesLeftoverInOrder(vehicles[1..], f.deferred);
      SubseqTrans(PlanRoutes(vehicles[1..], f.deferred).1, f.deferred, pool);
    }
  }

  /** The route was filled by one of the vehicles, against that vehicle's
      effective capacity. */
  predicate FromVehicle(r: PlannedRoute, vehicles: seq<(Id, Vehicle)>) {
    exists v :: v in vehicles && v.0 == r.vehicleId && r.capacity == CapacityOf(v.1)
  }

  lemma FromVehicleTail(rs: seq<PlannedRoute>, vehicles: seq<(Id, Vehicle)>)
    requires vehicles != []
    requires forall r :: r in rs ==> FromVehicle(r, vehicles[1..])
    ensures forall r :: r in rs ==> FromVehicle(r, vehicles)
  {
    forall r | r in rs
      ensures FromVehicle(r, vehicles)
    {
      var w :| w in vehicles[1..] && w.0 == r.vehicleId && r.capacity == CapacityOf(w.1);
      assert w in vehicles;
    }
  }

  lemma {:induction false} SubseqRefl<T>(s: seq<T>)
    ensures IsSubseq(s, s)
  {
    if s != [] {
      SubseqRefl(s[1..]);
    }
  }

  /** Each candidate ends up in exactly one planned route or in the
      leftover pool, when the candidates are distinct and the pool is
      their sorted order. */
  lemma {:induction false} PlanPlacesEachOrderOnce(vehicles: seq<(Id, Vehicle)>, cs: seq<Candidate>)
    requires forall i, j :: 0 <= i < j < |cs| ==> cs[i] != cs[j]
    ensures var p := PlanRoutes(vehicles, SortCandidates(cs));
      forall c :: c in cs ==> multiset(AllOrders(p.0))[c] + multiset(p.1)[c] == 1
  {
    var pool := SortCandidates(cs);
    PlanRoutesConserves(vehicles, pool);
    forall c | c in cs
      ensures multiset(pool)[c] == 1
    {
      DistinctCount(cs, c);
    }
  }

  lemma {:induction false} DistinctCount<T>(s: seq<T>, x: T)
    requires forall i, j :: 0 <= i < j < |s| ==> s[i] != s[j]
    requires x in s
    ensures multiset(s)[x] == 1
  {
    assert s == [s[0]] + s[1..];
    if s[0] == x {
      assert x !in s[1..];
    } else {
      DistinctCount(s[1..], x);
    }
  }

  // ---------------------------------------------------------------
  // The planner's pool and the id lists of its routes
  // ---------------------------------------------------------------

  /** The candidates the planner packs: the eligible orders, sorted. */
  function Pool(orders: map<Id, DeliveryOrder>, req: AutoPlanRequest): seq<Candidate> {
    SortCandidates(ToCandidates(CandidateIds(orders, req), orders))
  }

  /** Each candidate is the current row of the order under its id. */
  predicate RowsOf(cs: seq<Candidate>, orders: map<Id, DeliveryOrder>) {
    forall c :: c in cs ==> c.id in orders && c.order == orders[c.id]
  }

  /** The candidates built from the selected ids are eligible rows, each
      once. */
  lemma {:induction false} CandidateRows(orders: map<Id, DeliveryOrder>, req: AutoPlanRequest)
    ensures RowsOf(ToCandidates(CandidateIds(orders, req), orders), orders)
    ensures forall c :: c in ToCandidates(CandidateIds(orders, req), orders) ==> Eligible(c.order, req)
    ensures forall i, j :: 0 <= i < j < |CandidateIds(orders, req)| ==>
      ToCandidates(CandidateIds(orders, req), orders)[i] != ToCandidates(CandidateIds(orders, req), orders)[j]
  {
    var ids := CandidateIds(orders, req);
    var cs := ToCandidates(ids, orders);
    forall c | c in cs
      ensures c.id in orders && c.order == orders[c.id] && Eligible(c.order, req)
    {
      var k :| 0 <= k < |cs| && cs[k] == c;
      assert ids[k] in ids;
    }
  }

  /** Every candidate in the pool is the current row of an eligible order
      under its own id, no candidate occurs twice, and there is one per
      eligible order. */
  lemma PoolRows(orders: map<Id, DeliveryOrder>, req: AutoPlanRequest)
    ensures RowsOf(Pool(orders, req), orders)
    ensures forall c :: c in Pool(orders, req) ==> Eligible(c.order, req)
    ensures forall c :: multiset(Pool(orders, req))[c] <= 1
    ensures |Pool(orders, req)| == |CandidateIds(orders, req)|
  {
    CandidateRows(orders, req);
    PermutedRows(ToCandidates(CandidateIds(orders, req), orders), Pool(orders, req), req);
  }

  /** A permutation of distinct eligible rows is one too. */
  lemma PermutedRows(cs: seq<Candidate>, pool: seq<Candidate>, req: AutoPlanRequest)
    requires multiset(pool) == multiset(cs)
    requires forall i, j :: 0 <= i < j < |cs| ==> cs[i] != cs[j]
    ensures forall c :: c in pool ==> c in cs
    ensures forall c :: multiset(pool)[c] <= 1
  {
    forall c | c in pool
      ensures c in cs
    {
      assert c in multiset(pool);
    }
    forall c
      ensures multiset(pool)[c] <= 1
    {
      if c in cs {
        DistinctCount(cs, c);
      }
    }
  }

  /** The id list of each planned route. */
  function IdLists(ps: seq<PlannedRoute>): (ls: seq<seq<Id>>)
    ensures |ls| == |ps|
    ensures forall i :: 0 <= i < |ps| ==> ls[i] == Ids(ps[i].orders)
  {
    if ps == [] then [] else [Ids(ps[0].orders)] + IdLists(ps[1..])
  }

  /** The lists one after another. */
  function Flatten(lists: seq<seq<Id>>): seq<Id> {
    if lists == [] then [] else lists[0] + Flatten(lists[1..])
  }

  lemma {:induction false} InFlatten(lists: seq<seq<Id>>, i: nat, x: Id)
    requires i < |lists| && x in lists[i]
    ensures x in Flatten(lists)
    decreases i
  {
    if i > 0 {
      assert lists[i] == lists[1..][i - 1];
      InFlatten(lists[1..], i - 1, x);
    }
  }

  /** No id is named by two lists. */
  predicate DisjointLists(lists: seq<seq<Id>>)
    decreases |lists|
  {
    lists == [] || ((forall x :: x in lists[0] ==> x !in Flatten(lists[1..])) && DisjointLists(lists[1..]))
  }

  predicate Distinct(s: seq<Id>) {
    forall i, j :: 0 <= i < j < |s| ==> s[i] != s[j]
  }

  /** Lists whose concatenation repeats no id are pairwise disjoint. */
  lemma {:induction false} DistinctFlattenDisjoint(lists: seq<seq<Id>>)
    requires Distinct(Flatten(lists))
    ensures DisjointLists(lists)
    decreases |lists|
  {
    if lists != [] {
      var head, rest := lists[0], Flatten(lists[1..]);
      var f := Flatten(lists);
      assert f == head + rest;
      forall x | x in head
        ensures x !in rest
      {
        var i :| 0 <= i < |head| && head[i] == x;
        forall j | 0 <= j < |rest|
          ensures rest[j] != x
        {
          assert f[i] == x && f[|head| + j] == rest[j];
        }
      }
      forall i, j | 0 <= i < j < |rest|
        ensures rest[i] != rest[j]
      {
        assert f[|head| + i] == rest[i] && f[|head| + j] == rest[j];
      }
      DistinctFlattenDisjoint(lists[1..]);
    }
  }

  lemma {:induction false} IdsAppend(a: seq<Candidate>, b: seq<Candidate>)
    ensures Ids(a + b) == Ids(a) + Ids(b)
  {
    assert |Ids(a + b)| == |Ids(a) + Ids(b)|;
    forall i | 0 <= i < |a + b|
      ensures Ids(a + b)[i] == (Ids(a) + Ids(b))[i]
    {
      if i >= |a| {
        assert (a + b)[i] == b[i - |a|];
      }
    }
  }

  /** The route id lists, one after another, are the ids of all planned
      orders. */
  lemma {:induction false} FlattenIdLists(ps: seq<PlannedRoute>)
    ensures Flatten(IdLists(ps)) == Ids(AllOrders(ps))
    decreases |ps|
  {
    if ps != [] {
      FlattenIdLists(ps[1..]);
      IdsAppend(ps[0].orders, AllOrders(ps[1..]));
      assert IdLists(ps)[1..] == IdLists(ps[1..]);
    }
  }

  /** A sequence counting each element at most once holds no two equal
      entries. */
  lemma CountOnceDistinct<T>(s: seq<T>, i: nat, j: nat)
    requires i < j < |s|
    requires multiset(s)[s[i]] <= 1
    ensures s[i] != s[j]
  {
    var x := s[i];
    assert s == s[..j] + s[j..];
    assert x in s[..j];
    assert multiset(s)[x] == multiset(s[..j])[x] + multiset(s[j..])[x];
    assert multiset(s[j..])[x] == 0;
    assert s[j] == s[j..][0];
  }

  /** Distinct rows of one table have distinct ids. */
  lemma {:induction false} IdsDistinct(all: seq<Candidate>, orders: map<Id, DeliveryOrder>)
    requires RowsOf(all, orders)
    requires forall c :: multiset(all)[c] <= 1
    ensures Distinct(Ids(all))
  {
    var ids := Ids(all);
    forall i, j | 0 <= i < j < |ids|
      ensures ids[i] != ids[j]
    {
      CountOnceDistinct(all, i, j);
      assert all[i] in all && all[j] in all;
    }
  }

  /** The planned routes draw each candidate of the pool at most once
      between them, and only candidates of the pool. */
  lemma {:induction false} PlannedFromPool(vehicles: seq<(Id, Vehicle)>, pool: seq<Candidate>, orders: map<Id, DeliveryOrder>)
    requires RowsOf(pool, orders)
    requires forall c :: multiset(pool)[c] <= 1
    ensures RowsOf(AllOrders(PlanRoutes(vehicles, pool).0), orders)
    ensures forall c :: multiset(AllOrders(PlanRoutes(vehicles, pool).0))[c] <= 1
  {
    var p := PlanRoutes(vehicles, pool);
    PlanRoutesConserves(vehicles, pool);
    SubRows(AllOrders(p.0), pool, orders);
  }

  /** Part of a multiset of distinct rows is one too. */
  lemma SubRows(part: seq<Candidate>, whole: seq<Candidate>, orders: map<Id, DeliveryOrder>)
    requires multiset(part) <= multiset(whole)
    requires RowsOf(whole, orders)
    requires forall c :: multiset(whole)[c] <= 1
    ensures RowsOf(part, orders)
    ensures forall c :: multiset(part)[c] <= 1
  {
    forall c | c in part
      ensures c in whole
    {
      assert c in multiset(part);
    }
  }

  /** The routes planned from the pool name each order at most once. */
  lemma {:induction false} PlanIdsDisjoint(vehicles: seq<(Id, Vehicle)>, orders: map<Id, DeliveryOrder>, req: AutoPlanRequest)
    ensures DisjointLists(IdLists(PlanRoutes(vehicles, Pool(orders, req)).0))
  {
    var pool := Pool(orders, req);
    var ps := PlanRoutes(vehicles, pool).0;
    PoolRows(orders, req);
    PlannedFromPool(vehicles, pool, orders);
    IdsDistinct(AllOrders(ps), orders);
    FlattenIdLists(ps);
    DistinctFlattenDisjoint(IdLists(ps));
  }

  lemma {:induction false} InAllOrders(ps: seq<PlannedRoute>, i: nat, c: Candidate)
    requires i < |ps| && c in ps[i].orders
    ensures c in AllOrders(ps)
    decreases i
  {
    if i > 0 {
      assert ps[i] == ps[1..][i - 1];
      InAllOrders(ps[1..], i - 1, c);
    }
  }

  /** Every order on a planned route comes from the pool. */
  lemma {:induction false} PlannedFromPoolEach(vehicles: seq<(Id, Vehicle)>, pool: seq<Candidate>)
    ensures forall i, c :: 0 <= i < |PlanRoutes(vehicles, pool).0| && c in PlanRoutes(vehicles, pool).0[i].orders ==> c in pool
  {
    var ps := PlanRoutes(vehicles, pool).0;
    PlanRoutesConserves(vehicles, pool);
    forall i, c | 0 <= i < |ps| && c in ps[i].orders
      ensures c in pool
    {
      InAllOrders(ps, i, c);
      assert multiset(AllOrders(ps))[c] > 0;
      assert multiset(pool)[c] > 0;
    }
  }

  /** Every order on the routes `ps` is the current row of an eligible
      order. */
  predicate EligibleRows(ps: seq<PlannedRoute>, orders: map<Id, DeliveryOrder>, req: AutoPlanRequest) {
    forall i, c :: 0 <= i < |ps| && c in ps[i].orders ==>
      c.id in orders && c.order == orders[c.id] && Eligible(c.order, req)
  }

  /** The ids on routes of current rows are keys of the table. */
  lemma RoutedIdsIn(ps: seq<PlannedRoute>, orders: map<Id, DeliveryOrder>, req: AutoPlanRequest)
    requires EligibleRows(ps, orders, req)
    ensures forall i, id :: 0 <= i < |ps| && id in Ids(ps[i].orders) ==> id in orders
  {
    forall i, id | 0 <= i < |ps| && id in Ids(ps[i].orders) ensures id in orders {
      var k :| 0 <= k < |Ids(ps[i].orders)| && Ids(ps[i].orders)[k] == id;
      assert ps[i].orders[k] in ps[i].orders;
    }
  }

  /** Every order on a planned route is the current row of an eligible
      order. */
  lemma {:induction false} PlannedRows(vehicles: seq<(Id, Vehicle)>, orders: map<Id, DeliveryOrder>, req: AutoPlanRequest)
    ensures EligibleRows(PlanRoutes(vehicles, Pool(orders, req)).0, orders, req)
  {
    PoolRows(orders, req);
    PlannedFromPoolEach(vehicles, Pool(orders, req));
  }

  /** With the vehicles in ascending id order, the routes are too: no
      vehicle gets two routes. */
  lemma {:induction false} PlanVehiclesAscend(vehicles: seq<(Id, Vehicle)>, pool: seq<Candidate>)
    requires forall i, j :: 0 <= i < j < |vehicles| ==> vehicles[i].0 < vehicles[j].0
    ensures forall i, j :: 0 <= i < j < |PlanRoutes(vehicles, pool).0| ==>
      PlanRoutes(vehicles, pool).0[i].vehicleId < PlanRoutes(vehicles, pool).0[j].vehicleId
    decreases |vehicles|
  {
    if vehicles != [] && pool != [] {
      var f := FillVehicle(pool, CapacityOf(vehicles[0].1));
      var rest := PlanRoutes(vehicles[1..], f.deferred).0;
      PlanVehiclesAscend(vehicles[1..], f.deferred);
      if f.taken != [] {
        var ps := PlanRoutes(vehicles, pool).0;
        assert ps == [ps[0]] + rest;
        forall j | 0 <= j < |rest|
          ensures vehicles[0].0 < rest[j].vehicleId
        {
          assert rest[j] in rest;
          var w :| w in vehicles[1..] && w.0 == rest[j].vehicleId && rest[j].capacity == CapacityOf(w.1);
          var k :| 0 <= k < |vehicles[1..]| && vehicles[1..][k] == w;
          assert vehicles[k + 1] == w;
        }
        forall i, j | 0 <= i < j < |ps|
          ensures ps[i].vehicleId < ps[j].vehicleId
        {
          assert ps[j] == rest[j - 1];
          if i > 0 {
            assert ps[i] == rest[i - 1];
          }
        }
      }
    }
  }

  /** Each route the planner fills from the listed vehicles is on one of
      them and respects that vehicle's effective capacity and the stop
      limit. */
  lemma {:induction false} PlanVehiclesFrom(ids: seq<Id>, vehicles: map<Id, Vehicle>, pool: seq<Candidate>)
    requires forall id :: id in ids ==> id in vehicles
    ensures forall i :: 0 <= i < |PlanRoutes(ToVehicles(ids, vehicles), pool).0| ==>
      && WithinLimits(PlanRoutes(ToVehicles(ids, vehicles), pool).0[i])
      && PlanRoutes(ToVehicles(ids, vehicles), pool).0[i].vehicleId in ids
      && PlanRoutes(ToVehicles(ids, vehicles), pool).0[i].capacity
         == CapacityOf(vehicles[PlanRoutes(ToVehicles(ids, vehicles), pool).0[i].vehicleId])
  {
    var vs := ToVehicles(ids, vehicles);
    var ps := PlanRoutes(vs, pool).0;
    forall i | 0 <= i < |ps|
      ensures ps[i].vehicleId in ids && ps[i].capacity == CapacityOf(vehicles[ps[i].vehicleId])
    {
      assert ps[i] in ps;
      var v :| v in vs && v.0 == ps[i].vehicleId && ps[i].capacity == CapacityOf(v.1);
      var k :| 0 <= k < |vs| && vs[k] == v;
      assert ids[k] in ids;
    }
  }
}

=== FILE: sorting.dfy ===
/** Python's `list.sort(key=...)` / `sorted(...)` as a stable insertion sort
    over an arbitrary total preorder. */
module Sorting {

  ghost predicate TotalPreorder<T(!new)>(le: (T, T) -> bool) {
    && (forall a, b :: le(a, b) || le(b, a))
    && (forall a, b, c :: le(a, b) && le(b, c) ==> le(a, c))
  }

  predicate SortedBy<T>(xs: seq<T>, le: (T, T) -> bool) {
    forall i, j :: 0 <= i < j < |xs| ==> le(xs[i], xs[j])
  }

  /** Inserts `x` in front of the first element it is `le` to. */
  function Insert<T>(x: T, ys: seq<T>, le: (T, T) -> bool): (r: seq<T>)
    ensures |r| == |ys| + 1
    ensures multiset(r) == multiset(ys) + multiset{x}
  {
    if ys == [] || le(x, ys[0]) then [x] + ys
    else
      assert ys == [ys[0]] + ys[1..];
      [ys[0]] + Insert(x, ys[1..], le)
  }

  lemma {:induction false} InsertSorted<T(!new)>(x: T, ys: seq<T>, le: (T, T) -> bool)
    requires TotalPreorder(le)
    requires SortedBy(ys, le)
    ensures SortedBy(Insert(x, ys, le), le)
  {
    if ys == [] || le(x, ys[0]) {
    } else {
      var tail := Insert(x, ys[1..], le);
      InsertSorted(x, ys[1..], le);
      assert le(ys[0], x);
      forall k | 0 <= k < |tail|
        ensures le(ys[0], tail[k])
      {
        assert tail[k] in multiset(tail);
        if tail[k] != x {
          assert tail[k] in multiset(ys[1..]);
          var j :| 0 <= j < |ys[1..]| && ys[1..][j] == tail[k];
          assert ys[j + 1] == tail[k];
        }
      }
    }
  }

  /** `a` and `b` tie under `le`. */
  predicate Ties<T>(le: (T, T) -> bool, a: T, b: T) {
    le(a, b) && le(b, a)
  }

  /** The elements of `xs` that tie with `x`, in their order in `xs`. */
  function TiesWith<T>(xs: seq<T>, x: T, le: (T, T) -> bool): seq<T> {
    if xs == [] then [] else (if Ties(le, xs[0], x) then [xs[0]] else []) + TiesWith(xs[1..], x, le)
  }

  /** `Insert` places `x` ahead of the elements it ties with: every element
      it passes is strictly below `x`. */
  lemma {:induction false} InsertTies<T(!new)>(x: T, ys: seq<T>, z: T, le: (T, T) -> bool)
    requires TotalPreorder(le)
    ensures TiesWith(Insert(x, ys, le), z, le) == (if Ties(le, x, z) then [x] else []) + TiesWith(ys, z, le)
  {
    var r := Insert(x, ys, le);
    var head := if Ties(le, x, z) then [x] else [];
    if ys == [] || le(x, ys[0]) {
      assert r == [x] + ys && r[1..] == ys;
      assert TiesWith(r, z, le) == head + TiesWith(ys, z, le);
    } else {
      var t := Insert(x, ys[1..], le);
      var mid := if Ties(le, ys[0], z) then [ys[0]] else [];
      InsertTies(x, ys[1..], z, le);
      assert r == [ys[0]] + t && r[1..] == t && r[0] == ys[0];
      assert TiesWith(r, z, le) == mid + TiesWith(t, z, le);
      assert TiesWith(ys, z, le) == mid + TiesWith(ys[1..], z, le);
      var y := ys[0];
      assert le(x, z) && le(z, y) ==> le(x, y);
      assert head == [] || mid == [];
    }
  }

  /** Sorts `xs` by `le`, keeping equal elements in their input order. */
  function InsertionSort<T(!new)>(xs: seq<T>, le: (T, T) -> bool): (r: seq<T>)
    requires TotalPreorder(le)
    ensures |r| == |xs|
    ensures multiset(r) == multiset(xs)
    ensures SortedBy(r, le)
  {
    if xs == [] then []
    else
      var rest := InsertionSort(xs[1..], le);
      assert xs == [xs[0]] + xs[1..];
      InsertSorted(xs[0], rest, le);
      Insert(xs[0], rest, le)
  }

  /** The sort is stable: the elements that tie with any `x` come out in
      the order they went in. */
  lemma {:induction false} InsertionSortStable<T(!new)>(xs: seq<T>, le: (T, T) -> bool)
    requires TotalPreorder(le)
    ensures forall x :: TiesWith(InsertionSort(xs, le), x, le) == TiesWith(xs, x, le)
  {
    if xs != [] {
      InsertionSortStable(xs[1..], le);
      forall x
        ensures TiesWith(InsertionSort(xs, le), x, le) == TiesWith(xs, x, le)
      {
        InsertTies(xs[0], InsertionSort(xs[1..], le), x, le);
      }
    }
  }
}

=== FILE: tables.dfy ===
/** The table store every handler reads and writes: one finite map per
    table, keyed by row id, and append-only logs for the tables that are
    only ever appended to or scanned newest-first. Row ids come from one
    counter, so an insert never collides with an existing row. */
module Tables {
  import opened Wrappers
  import opened DeliveryModels
  import opened HubModels
  import opened MarketModels

  datatype Store = Store(
    hubs: map<Id, Hub>,
    orders: map<Id, DeliveryOrder>,
    routes: map<Id, Route>,
    stops: map<Id, RouteStop>,
    vehicles: map<Id, Vehicle>,
    drivers: map<Id, Driver>,
    otps: seq<OtpToken>,
    attempts: seq<Attempt>,
    imports: map<Id, ImportBatch>,
    marketOrders: map<Id, MarketOrder>,
    history: seq<HistoryEntry>,
    users: map<UserId, string>,
    merchants: map<Id, Merchant>,
    coupons: map<string, Coupon>,
    earnings: seq<DriverEarning>,
    nextId: Id)

  /** The authenticated caller: id and role, already checked by the
      boundary. */
  datatype Caller = Caller(id: UserId, role: string)

  predicate IsAdmin(role: string) {
    role == "admin" || role == "super_admin"
  }

  /** Every key lies below `n`. */
  predicate Below(keys: set<nat>, n: nat) {
    forall k :: k in keys ==> k < n
  }

  /** Every stop points to a route id below `n`. */
  predicate StopRoutesBelow(stops: map<Id, RouteStop>, n: nat) {
    forall k :: k in stops ==> stops[k].routeId < n
  }

  /** Every order on a route points to a route id below `n`. */
  predicate OrderRoutesBelow(orders: map<Id, DeliveryOrder>, n: nat) {
    forall k :: k in orders && orders[k].routeId.Some? ==> orders[k].routeId.value < n
  }

  /** Every row id handed out so far lies below `nextId`, and so does every
      route a stop or an order points to. */
  predicate Valid(s: Store) {
    && Below(s.hubs.Keys, s.nextId)
    && Below(s.orders.Keys, s.nextId)
    && Below(s.routes.Keys, s.nextId)
    && Below(s.stops.Keys, s.nextId)
    && Below(s.vehicles.Keys, s.nextId)
    && Below(s.drivers.Keys, s.nextId)
    && Below(s.imports.Keys, s.nextId)
    && Below(s.marketOrders.Keys, s.nextId)
    && Below(s.merchants.Keys, s.nextId)
    && StopRoutesBelow(s.stops, s.nextId)
    && OrderRoutesBelow(s.orders, s.nextId)
  }

  /** A set of naturals holding `x` has a least element: either `x` is
      one, or a smaller member is. */
  lemma {:induction false} MinExists(s: set<nat>, x: nat)
    requires x in s
    ensures exists m :: m in s && forall y :: y in s ==> m <= y
    decreases x
  {
    if !(forall y :: y in s ==> x <= y) {
      var y :| y in s && y < x;
      MinExists(s, y);
    }
  }

  function Min(s: set<nat>): (m: nat)
    requires s != {}
    ensures m in s && forall x :: x in s ==> m <= x
  {
    var x :| x in s;
    MinExists(s, x);
    var m :| m in s && forall x :: x in s ==> m <= x;
    m
  }

  /** The ids of a set listed in ascending order, which is the order the
      store returns rows of an unordered select: insertion order. */
  function Ascending(s: set<nat>): (r: seq<nat>)
    ensures |r| == |s|
    ensures forall x :: x in r <==> x in s
    ensures forall i, j :: 0 <= i < j < |r| ==> r[i] < r[j]
    decreases s
  {
    if s == {} then []
    else
      var m := Min(s);
      [m] + Ascending(s - {m})
  }

  /** `xs` back to front. */
  function Reverse(xs: seq<nat>): (r: seq<nat>)
    ensures |r| == |xs|
    ensures forall i :: 0 <= i < |xs| ==> r[i] == xs[|xs| - 1 - i]
    ensures forall x :: x in r <==> x in xs
  {
    if xs == [] then [] else Reverse(xs[1..]) + [xs[0]]
  }

  /** Reversing a strictly ascending list gives a strictly descending one. */
  lemma {:induction false} ReverseDescends(xs: seq<nat>)
    requires forall i, j :: 0 <= i < j < |xs| ==> xs[i] < xs[j]
    ensures forall i, j :: 0 <= i < j < |Reverse(xs)| ==> Reverse(xs)[i] > Reverse(xs)[j]
  {
    var r := Reverse(xs);
    forall i, j | 0 <= i < j < |r| ensures r[i] > r[j] {
      assert r[i] == xs[|xs| - 1 - i] && r[j] == xs[|xs| - 1 - j];
    }
  }

  /** A set of ids listed in descending order. */
  function Descending(ids: set<nat>): (r: seq<nat>)
    ensures forall k :: k in r <==> k in ids
    ensures forall i, j :: 0 <= i < j < |r| ==> r[i] > r[j]
  {
    ReverseDescends(Ascending(ids));
    Reverse(Ascending(ids))
  }

  /** The driver rows belonging to user `u`. */
  function DriverIds(drivers: map<Id, Driver>, u: UserId): set<Id> {
    set k | k in drivers && drivers[k].userId == u
  }

  /** `drivers.select(..).eq("user_id", u).single()`: the user's one
      driver row. With no row or with several, the store answers with an
      error, which the client raises; the model reads both as no data, as
      the handlers' `if not result.data` checks intend. */
  function DriverOf(drivers: map<Id, Driver>, u: UserId): (r: Option<Id>)
    ensures r.Some? <==> |DriverIds(drivers, u)| == 1
    ensures r.Some? ==> r.value in drivers && drivers[r.value].userId == u
    ensures r.Some? ==> DriverIds(drivers, u) == {r.value}
  {
    if |DriverIds(drivers, u)| == 1 then
      var k :| k in DriverIds(drivers, u);
      assert DriverIds(drivers, u) == {k} by {
        assert |DriverIds(drivers, u) - {k}| == 0;
      }
      Some(k)
    else None
  }
}

=== FILE: text.dfy ===
/** String operations of the Python standard library that the handlers use,
    restated over `seq<char>`: `str.isspace`, `lower`/`upper` (ASCII part),
    `strip`, `endswith`, `split(sep)`, and the code-point ordering `<` that
    `sorted` uses on strings. */
module Text {

  /** Characters for which Python's `str.isspace()` holds; `strip()` and the
      regular-expression class `\s` use the same set. */
  predicate IsSpace(c: char) {
    var n := c as int;
    (9 <= n <= 13) || (28 <= n <= 32) || n == 0x85 || n == 0xA0 || n == 0x1680
    || (0x2000 <= n <= 0x200A) || n == 0x2028 || n == 0x2029 || n == 0x202F
    || n == 0x205F || n == 0x3000
  }

  predicate IsDigit(c: char) { '0' <= c <= '9' }
  predicate IsAsciiUpper(c: char) { 'A' <= c <= 'Z' }
  predicate IsAsciiLower(c: char) { 'a' <= c <= 'z' }
  predicate IsUpperHex(c: char) { IsDigit(c) || ('A' <= c <= 'F') }
  predicate IsLowerHex(c: char) { IsDigit(c) || ('a' <= c <= 'f') }

  function LowerChar(c: char): char {
    if IsAsciiUpper(c) then (c as int + 32) as char else c
  }

  function UpperChar(c: char): char {
    if IsAsciiLower(c) then (c as int - 32) as char else c
  }

  function Lower(s: string): (r: string)
    ensures |r| == |s|
    ensures forall i :: 0 <= i < |s| ==> r[i] == LowerChar(s[i])
  {
    if s == [] then [] else [LowerChar(s[0])] + Lower(s[1..])
  }

  function Upper(s: string): (r: string)
    ensures |r| == |s|
    ensures forall i :: 0 <= i < |s| ==> r[i] == UpperChar(s[i])
  {
    if s == [] then [] else [UpperChar(s[0])] + Upper(s[1..])
  }

  /** Drops the longest prefix whose characters all satisfy `p`. */
  function TrimStart(s: string, p: char -> bool): (r: string)
    ensures |r| <= |s| && r == s[|s| - |r|..]
    ensures forall i :: 0 <= i < |s| - |r| ==> p(s[i])
    ensures r == [] || !p(r[0])
  {
    if s != [] && p(s[0]) then
      var r := TrimStart(s[1..], p);
      assert forall i :: 1 <= i < |s| ==> s[i] == s[1..][i - 1];
      r
    else s
  }

  /** Drops the longest suffix whose characters all satisfy `p`. */
  function TrimEnd(s: string, p: char -> bool): (r: string)
    ensures |r| <= |s| && r == s[..|r|]
    ensures forall i :: |r| <= i < |s| ==> p(s[i])
    ensures r == [] || !p(r[|r| - 1])
  {
    if s != [] && p(s[|s| - 1]) then
      var r := TrimEnd(s[..|s| - 1], p);
      assert forall i :: 0 <= i < |s| - 1 ==> s[i] == s[..|s| - 1][i];
      r
    else s
  }

  /** Drops the longest prefix and the longest suffix whose characters all
      satisfy `p`: what is left neither starts nor ends with such a
      character. */
  function Trim(s: string, p: char -> bool): (r: string)
    ensures |r| <= |s|
    ensures r == [] || (!p(r[0]) && !p(r[|r| - 1]))
  {
    var t := TrimStart(s, p);
    var r := TrimEnd(t, p);
    assert r != [] ==> r[0] == t[0];
    r
  }

  /** Python `s.strip()`. What is left is pinned down by `StripPiece` and
      `StripUnique`. */
  function Strip(s: string): (r: string)
    ensures r == [] || (!IsSpace(r[0]) && !IsSpace(r[|r| - 1]))
    ensures |r| <= |s|
  {
    Trim(s, IsSpace)
  }

  /** Every character of `s` before position `i`, and every one from
      position `i + n` on, satisfies `p`. */
  ghost predicate Cut(s: string, i: nat, n: nat, p: char -> bool) {
    && (forall j :: 0 <= j < i && j < |s| ==> p(s[j]))
    && (forall j :: i + n <= j < |s| ==> p(s[j]))
  }

  /** `r` is a piece of `s` with only characters satisfying `p` cut off
      around it. */
  ghost predicate IsPiece(s: string, r: string, p: char -> bool) {
    exists i :: 0 <= i <= |s| - |r| && r == s[i..i + |r|] && Cut(s, i, |r|, p)
  }

  /** `strip()` keeps one piece of `s` and cuts off only whitespace around
      it. */
  lemma {:induction false} StripPiece(s: string)
    ensures IsPiece(s, Strip(s), IsSpace)
  {
    TrimPiece(s, IsSpace);
    assert Strip(s) == Trim(s, IsSpace);
  }

  lemma {:induction false} TrimPiece(s: string, p: char -> bool)
    ensures IsPiece(s, Trim(s, p), p)
  {
    var t := TrimStart(s, p);
    var r := TrimEnd(t, p);
    PieceOf(s, t, r, p);
    assert Trim(s, p) == r;
  }

  /** Cutting a prefix `t` of `s`'s tail and then a prefix `r` of `t` leaves
      a piece of `s` with only cut characters around it. */
  lemma {:induction false} PieceOf(s: string, t: string, r: string, p: char -> bool)
    requires |t| <= |s| && t == s[|s| - |t|..] && forall i :: 0 <= i < |s| - |t| ==> p(s[i])
    requires |r| <= |t| && r == t[..|r|] && forall i :: |r| <= i < |t| ==> p(t[i])
    ensures IsPiece(s, r, p)
  {
    var k := |s| - |t|;
    assert r == s[k..k + |r|];
    forall j | k + |r| <= j < |s|
      ensures p(s[j])
    {
      assert s[j] == t[j - k];
    }
    assert Cut(s, k, |r|, p);
  }

  /** Only one piece of `s` has whitespace-free ends and whitespace all
      around it, so `strip()` is pinned down by `StripPiece`. */
  lemma {:induction false} StripUnique(s: string, i: nat, n: nat)
    requires i + n <= |s| && Cut(s, i, n, IsSpace)
    requires n == 0 || (!IsSpace(s[i]) && !IsSpace(s[i + n - 1]))
    requires n == 0 ==> forall j :: 0 <= j < |s| ==> IsSpace(s[j])
    ensures Strip(s) == s[i..i + n]
  {
    TrimUnique(s, i, n, IsSpace);
  }

  lemma {:induction false} TrimUnique(s: string, i: nat, n: nat, p: char -> bool)
    requires i + n <= |s| && Cut(s, i, n, p)
    requires n == 0 || (!p(s[i]) && !p(s[i + n - 1]))
    requires n == 0 ==> forall j :: 0 <= j < |s| ==> p(s[j])
    ensures Trim(s, p) == s[i..i + n]
  {
    TrimPiece(s, p);
    PieceUnique(s, Trim(s, p), i, n, p);
  }

  lemma {:induction false} PieceUnique(s: string, r: string, i: nat, n: nat, p: char -> bool)
    requires IsPiece(s, r, p)
    requires r == [] || (!p(r[0]) && !p(r[|r| - 1]))
    requires i + n <= |s| && Cut(s, i, n, p)
    requires n == 0 || (!p(s[i]) && !p(s[i + n - 1]))
    requires n == 0 ==> forall j :: 0 <= j < |s| ==> p(s[j])
    ensures r == s[i..i + n]
  {
    var k :| 0 <= k <= |s| - |r| && r == s[k..k + |r|] && Cut(s, k, |r|, p);
    assert r != [] ==> r[0] == s[k] && r[|r| - 1] == s[k + |r| - 1];
    assert r != [] ==> k >= i && k + |r| <= i + n;
    assert n > 0 ==> i >= k && i + n <= k + |r|;
  }

  /** Stripping only removes characters: what is left is a piece of `s`. */
  lemma StripKeepsChars(s: string)
    ensures forall i :: 0 <= i < |Strip(s)| ==> Strip(s)[i] in s
  {
    var t := TrimStart(s, IsSpace);
    var r := TrimEnd(t, IsSpace);
    assert Strip(s) == r;
    forall i | 0 <= i < |r| ensures r[i] in s {
      assert r[i] == t[i];
      assert t[i] == s[|s| - |t| + i];
    }
  }

  /** A string that neither starts nor ends with whitespace is left as it
      is. */
  lemma StripClean(s: string)
    requires s == [] || (!IsSpace(s[0]) && !IsSpace(s[|s| - 1]))
    ensures Strip(s) == s
  {
    assert TrimStart(s, IsSpace) == s;
    assert TrimEnd(s, IsSpace) == s;
  }

  predicate EndsWith(s: string, suffix: string) {
    |suffix| <= |s| && s[|s| - |suffix|..] == suffix
  }

  /** Number of occurrences of `c` in `s`. */
  function Count(s: string, c: char): nat {
    if s == [] then 0 else (if s[0] == c then 1 else 0) + Count(s[1..], c)
  }

  /** `sep.join(parts)` for a one-character separator. */
  function Join(parts: seq<string>, sep: char): string
    requires |parts| >= 1
  {
    if |parts| == 1 then parts[0] else parts[0] + [sep] + Join(parts[1..], sep)
  }

  /** Python `s.split(sep)` for a one-character separator: every occurrence
      of `sep` cuts, so there is one more piece than there are separators,
      no piece contains the separator, and joining the pieces gives `s` back. */
  function Split(s: string, sep: char): (parts: seq<string>)
    ensures |parts| == Count(s, sep) + 1
    ensures forall i :: 0 <= i < |parts| ==> sep !in parts[i]
    ensures Join(parts, sep) == s
  {
    if s == [] then [[]]
    else
      var rest := Split(s[1..], sep);
      if s[0] == sep then
        assert [sep] + Join(rest, sep) == s;
        [[]] + rest
      else
        var parts := [[s[0]] + rest[0]] + rest[1..];
        assert parts[1..] == rest[1..];
        assert Join(parts, sep) == s by {
          if |rest| == 1 {
          } else {
            assert Join(parts, sep) == [s[0]] + rest[0] + [sep] + Join(rest[1..], sep);
          }
        }
        parts
  }

  /** A piece without the separator splits into itself. */
  lemma {:induction false} SplitWhole(a: string, sep: char)
    requires sep !in a
    ensures Split(a, sep) == [a]
  {
    if a != [] {
      SplitWhole(a[1..], sep);
      assert [a[0]] + a[1..] == a;
    }
  }

  /** Splitting cuts at the first separator. */
  lemma {:induction false} SplitFirst(a: string, rest: string, sep: char)
    requires sep !in a
    ensures Split(a + [sep] + rest, sep) == [a] + Split(rest, sep)
  {
    var s := a + [sep] + rest;
    if a == [] {
      assert s[1..] == rest;
    } else {
      assert s[1..] == a[1..] + [sep] + rest;
      SplitFirst(a[1..], rest, sep);
      assert [a[0]] + a[1..] == a;
    }
  }

  /** `Split` undoes `Join` when no piece holds the separator. */
  lemma {:induction false} SplitJoin(parts: seq<string>, sep: char)
    requires |parts| >= 1
    requires forall i :: 0 <= i < |parts| ==> sep !in parts[i]
    ensures Split(Join(parts, sep), sep) == parts
  {
    if |parts| == 1 {
      SplitWhole(parts[0], sep);
    } else {
      SplitJoin(parts[1..], sep);
      SplitFirst(parts[0], Join(parts[1..], sep), sep);
      assert [parts[0]] + parts[1..] == parts;
    }
  }

  function Repeat(c: char, n: nat): (r: string)
    ensures |r| == n
    ensures forall i :: 0 <= i < n ==> r[i] == c
  {
    if n == 0 then [] else [c] + Repeat(c, n - 1)
  }

  function DigitChar(d: nat): char
    requires d < 10
  {
    ('0' as int + d) as char
  }

  /** The number a string of decimal digits spells. */
  function DigitsValue(r: string): nat
    requires forall i :: 0 <= i < |r| ==> IsDigit(r[i])
  {
    if r == [] then 0 else DigitsValue(r[..|r| - 1]) * 10 + DigitValue(r[|r| - 1])
  }

  function DigitValue(c: char): nat
    requires IsDigit(c)
  {
    c as int - '0' as int
  }

  /** Decimal representation of a natural number, as Python's `str(n)`:
      digits without a leading zero that spell `n`. */
  function NatToString(n: nat): (r: string)
    ensures |r| >= 1
    ensures forall i :: 0 <= i < |r| ==> IsDigit(r[i])
    ensures n >= 10 ==> r[0] != '0'
    ensures DigitsValue(r) == n
  {
    if n < 10 then [DigitChar(n)]
    else
      var front := NatToString(n / 10);
      var r := front + [DigitChar(n % 10)];
      assert r[..|r| - 1] == front;
      r
  }

  /** Left-pads `s` with `c` up to `width` characters, as `str.rjust`. */
  function PadLeft(s: string, width: nat, c: char): (r: string)
    ensures |r| == if |s| < width then width else |s|
    ensures forall i :: 0 <= i < |r| - |s| ==> r[i] == c
    ensures r[|r| - |s|..] == s
  {
    if |s| < width then Repeat(c, width - |s|) + s else s
  }

  /** Python's `<=` on strings: lexicographic by code point, a proper prefix
      sorting first. */
  predicate LexLe(a: string, b: string) {
    a == [] || (b != [] && (a[0] < b[0] || (a[0] == b[0] && LexLe(a[1..], b[1..]))))
  }

  predicate LexLt(a: string, b: string) {
    LexLe(a, b) && a != b
  }

  lemma {:induction false} LexLeRefl(a: string)
    ensures LexLe(a, a)
  {
    if a != [] {
      LexLeRefl(a[1..]);
    }
  }

  lemma {:induction false} LexLeTotal(a: string, b: string)
    ensures LexLe(a, b) || LexLe(b, a)
  {
    if a != [] && b != [] && a[0] == b[0] {
      LexLeTotal(a[1..], b[1..]);
    }
  }

  lemma {:induction false} LexLeTrans(a: string, b: string, c: string)
    requires LexLe(a, b) && LexLe(b, c)
    ensures LexLe(a, c)
  {
    if a != [] && b != [] && c != [] && a[0] == b[0] && b[0] == c[0] {
      LexLeTrans(a[1..], b[1..], c[1..]);
    }
  }

  lemma {:induction false} LexLeAntisym(a: string, b: string)
    requires LexLe(a, b) && LexLe(b, a)
    ensures a == b
  {
    if a != [] && b != [] {
      LexLeAntisym(a[1..], b[1..]);
      assert a == [a[0]] + a[1..] && b == [b[0]] + b[1..];
    }
  }
}

=== FILE: wrappers.dfy ===
/** Option and Result datatypes shared by every handler of the model, and
    the HTTP-shaped error every handler raises. */
module Wrappers {

  datatype Option<+T> = None | Some(value: T) {
    function GetOr(default: T): T {
      match this
      case Some(v) => v
      case None => default
    }
  }

  datatype Result<+T, +E> = Ok(value: T) | Err(error: E)

  /** The HTTPException a handler raises: status code class and detail text. */
  datatype Error =
    | BadRequest(detail: string)   // 400
    | Forbidden(detail: string)    // 403
    | NotFound(detail: string)     // 404
}
